=== FILE: README.md ===
# Gymz business rules in Dafny

Gymz is a Spring backend for a fitness platform. It has four kinds of account:
GYMZER (a member), COACH, GYM and ADMIN. This project models the sequential
business logic of its services and states what each operation promises.

- **Phone-number authentication.** `UserService` and `OtpService` format a phone
  number, parse a role, and issue and consume a six-digit one-time code stored on the
  user record. They cover registration, verification, login codes and guarded
  profile merges.
- **Courses.** `CourseService` keeps an ordered exercise list per course.
  `exerciseCount` follows the list length, and `orderIndex` values are the
  positions `0..n-1`. `CourseController` adds role and ownership permissions and
  the purchased-courses listing.
- **Validators and mappings.** These cover:
  - contact-message validation and sender-field fallback;
  - the payment-status mapping and the cents conversion;
  - the MIME type for a video name;
  - the role and course-level enum parsers.
- **Small keyed stores with guards.** These cover:
  - notification fan-out and read flags;
  - duplicate-free event participation and its pre-persist hook;
  - creator-only event edits;
  - GYM-only subscriptions (abonnements) and weekly plannings.

Each service is a class whose fields are its tables. A table is a `seq` in
insertion order, or a `map` keyed by id. Every state-changing method is specified
by a pure function, or by its new state stated outright. The lemmas about those
functions carry the rules the service promises.

Environment inputs are parameters:

- **Random numbers.** The `nextInt(900000)` draw is a `Draw` below 900000.
- **Clocks.** `Instant`, `Day` and `TimeOfDay` values are passed in.
- **The payment provider.** `Option<Intent>`; `None` is a provider failure.

Exceptions are modelled as `Result`/`Option` error values. An error leaves every
table unchanged, as the transaction rollback does. Spring Data derived queries are
modelled as functions over the tables. A `null` query parameter matches a `null`
column.

Modules, one file each:

| module | file |
|---|---|
| `Wrappers` | `wrappers.dfy` |
| `JavaText` (the `java.lang.String` behaviour used) | `java_text.dfy` |
| `Time` | `time.dfy` |
| `Roles` | `role.dfy` |
| `CourseLevels` | `course_level.dfy` |
| `Users` | `users.dfy` |
| `PhoneNumbers` | `phone.dfy` |
| `Otp` | `otp_service.dfy` |
| `Auth` | `user_service.dfy` |
| `Decimals` | `decimal.dfy` |
| `Courses` | `course_service.dfy` |
| `CourseControl` | `course_controller.dfy` |
| `Reels` | `reel_controller.dfy` |
| `Contacts` | `contact_service.dfy` |
| `Payments` | `payment_service.dfy` |
| `Events` | `events.dfy` |
| `Notifications` | `notification_service.dfy` |
| `Participations` | `event_participation.dfy` |
| `Abonnements` | `abonnement_service.dfy` |
| `Plannings` | `planning_service.dfy` |

Some behaviours are kept exactly as the code has them:

- `verifyLoginCode` throws on a wrong code, whereas `verifyPhoneNumber` returns `null`.
- `updateCourse` rebuilds the exercise list from a request that the controller never fills. A successful update therefore leaves the course with no exercises.
- A gymzer's blank name falls back to `firstName + " " + nom`, trimmed. A null part is rendered as "null", as Java string concatenation does.

## Model

| member | source | states |
|---|---|---|
| JavaText.TrimEmptyIffAllTrimmable | src/main/java/com/example/demo/service/ContactService.java:41-43 | `trim()` leaves nothing exactly when every character is at most U+0020 |
| JavaText.IsBlankIffTrimEmpty | src/main/java/com/example/demo/service/ContactService.java:41-43 | `isBlank` holds exactly for null or for a string whose `trim()` is empty |
| JavaText.Utf16LengthBmp | src/main/java/com/example/demo/service/ContactService.java:132 | `length()` counts characters when all of them lie in the Basic Multilingual Plane |
| Roles.FromString | src/main/java/com/example/demo/model/Role.java:20-32 | a role exactly when the upper-cased input is its name; the exception exactly when it is no role's name |
| Roles.FromStringIgnoresCase | src/main/java/com/example/demo/model/Role.java:21-29 | any casing of a role's name parses to that role |
| Roles.FromStringOfUpper | src/main/java/com/example/demo/model/Role.java:21 | parsing depends on the input only through its upper-case form |
| Roles.FromStringOfName | src/main/java/com/example/demo/model/Role.java:22-29 | `fromString(r.name()) == r` for every role |
| Roles.NameInjective | src/main/java/com/example/demo/model/Role.java:6-12 | distinct roles have distinct names |
| Roles.AllRoles | src/main/java/com/example/demo/model/Role.java:15-17 | four distinct names, every role's name among them; they parse back to GYMZER, ADMIN, GYM and COACH, in that order |
| CourseLevels.FromString | src/main/java/com/example/demo/model/CourseLevel.java:8-18 | a level exactly when the upper-cased input is its name; the exception otherwise |
| CourseLevels.FromStringIgnoresCase | src/main/java/com/example/demo/model/CourseLevel.java:9-15 | any casing of DEBUTANT, INTERMEDIAIRE or AVANCE parses to that level |
| CourseLevels.FromStringOfUpper | src/main/java/com/example/demo/model/CourseLevel.java:9 | parsing depends only on the upper-case form |
| CourseLevels.FromStringOfName | src/main/java/com/example/demo/model/CourseLevel.java:10-15 | `fromString(l.name()) == l` for every level |
| PhoneNumbers.KeepDialChars | src/main/java/com/example/demo/service/UserService.java:109 | the result holds only digits and '+', and a string of such characters is kept unchanged |
| PhoneNumbers.KeepDialCharsCounts | src/main/java/com/example/demo/service/UserService.java:109 | every digit and '+' is kept as often as it occurs, and every other character is dropped |
| PhoneNumbers.KeepDialCharsAppend | src/main/java/com/example/demo/service/UserService.java:109 | the replacement works piece by piece: one character is kept exactly when it is a digit or '+', and the order of the kept characters is their order in the input |
| PhoneNumbers.DigitBlocksIsLengthRange | src/main/java/com/example/demo/service/UserService.java:110 | `\d{1,3}\d{4,14}` matches exactly the digit strings of length 5 to 17 |
| PhoneNumbers.PatternIsFormattedPhone | src/main/java/com/example/demo/service/UserService.java:110 | the pattern matches exactly an optional '+' followed by 5 to 17 digits |
| PhoneNumbers.FormatPhoneNumber | src/main/java/com/example/demo/service/UserService.java:103-116 | rejected exactly when blank, or when the cleaned text has the wrong shape; otherwise the cleaned text |
| PhoneNumbers.FormattedPhoneShape | src/main/java/com/example/demo/service/UserService.java:109-115 | a formatted number has at least five characters, and only digits after position 0 |
| PhoneNumbers.FormatIdempotent | src/main/java/com/example/demo/service/UserService.java:103-116 | formatting a formatted number returns it unchanged |
| Otp.CodeFor | src/main/java/com/example/demo/service/OtpService.java:14 | six ASCII digits whose value is 100000 + draw, so a number in [100000, 999999] |
| Otp.CodeForInjective | src/main/java/com/example/demo/service/UserService.java:99-101 | different draws give different codes |
| Otp.OtpService.GenerateOtp | src/main/java/com/example/demo/service/OtpService.java:13-17 | the code for the draw, stored for that phone, replacing any earlier code; other phones untouched |
| Otp.OtpService.ValidateOtp | src/main/java/com/example/demo/service/OtpService.java:19-21 | true exactly when the stored code for the phone equals the given one; nothing changes |
| Otp.OtpService.ClearOtp | src/main/java/com/example/demo/service/OtpService.java:23-25 | removes only that phone's entry |
| Otp.StorageLifecycle | src/main/java/com/example/demo/service/OtpService.java:13-25 | for any storage map: a stored code is accepted; a second code for the phone accepts itself and rejects the first; a cleared phone accepts no code |
| Otp.OtpLifecycle | src/main/java/com/example/demo/service/OtpService.java:13-25 | the four validations of generate, validate, regenerate, validate both, clear, validate return true, false, true, false; the phone ends with no entry and another phone's entry is unchanged |
| Auth.Register | src/main/java/com/example/demo/service/UserService.java:43-64 | guards checked in order (phone, role, already verified), each failure changing nothing; on success the record for the formatted number is unverified, has the role and stores the returned code in [100000, 999999]; other records are unchanged and the store stays well-formed |
| Auth.Enrol | src/main/java/com/example/demo/service/UserService.java:52-57 | the existing record, or a fresh `new User()` with the next id, filed under the number |
| Auth.VerifyPhone | src/main/java/com/example/demo/service/UserService.java:75-97 | errors for a bad or unknown number; the stored code verifies the number, clears the code and yields the account's token; any other code gives null and changes nothing |
| Auth.IssueLoginCode | src/main/java/com/example/demo/service/UserService.java:133-144 | fails for an unknown or unverified number, which is looked up unformatted; otherwise stores and returns a fresh code |
| Auth.RedeemLoginCode | src/main/java/com/example/demo/service/UserService.java:146-155 | throws on a mismatch; on a match clears the code, keeps `verified` and yields the token |
| Auth.TokenAfterVerification | src/main/java/com/example/demo/service/UserService.java:125-131 | a token with the account's id and role exactly for a verified number |
| Auth.MergeProfile | src/main/java/com/example/demo/service/UserService.java:157-178 | needs a verified account; firstName and email are replaced only when given; the photo is always replaced, so a null photo clears it |
| Auth.MergeCoachProfile | src/main/java/com/example/demo/service/UserService.java:294-370 | needs a verified COACH; each field, photo included, is replaced only when non-null; everything else is kept |
| Auth.RegisterThenVerify | src/main/java/com/example/demo/service/UserService.java:43-97 | presenting the code just returned verifies the number with the requested role and clears the code |
| Auth.ReissueInvalidatesEarlierCode | src/main/java/com/example/demo/service/UserService.java:52-88 | after a second registration the first code yields null and the second one verifies |
| Auth.NoRegistrationAfterVerification | src/main/java/com/example/demo/service/UserService.java:47-50 | once verified, a number cannot be registered again |
| Auth.LoginCodeRoundTrip | src/main/java/com/example/demo/service/UserService.java:133-155 | a login code yields the token once, leaves the account verified and is then refused |
| Auth.LoginReissueInvalidatesEarlierCode | src/main/java/com/example/demo/service/UserService.java:140-151 | a newer login code makes the older one fail |
| Auth.ApplyPreserves | src/main/java/com/example/demo/service/UserService.java:43-178 | no request removes a record or un-verifies a number, and each keeps the store well-formed |
| Auth.RunPreserves | src/main/java/com/example/demo/service/UserService.java:43-178 | over any sequence of requests, a verified number stays verified and the store stays well-formed |
| Auth.UserService.SendVerificationCode | src/main/java/com/example/demo/service/UserService.java:43-64 | reply and new table are those of `Register` |
| Auth.UserService.VerifyPhoneNumber | src/main/java/com/example/demo/service/UserService.java:75-97 | reply and new table are those of `VerifyPhone` |
| Auth.UserService.SendLoginCode | src/main/java/com/example/demo/service/UserService.java:133-144 | reply and new table are those of `IssueLoginCode` |
| Auth.UserService.VerifyLoginCode | src/main/java/com/example/demo/service/UserService.java:146-155 | reply and new table are those of `RedeemLoginCode` |
| Auth.UserService.GenerateTokenAfterVerification | src/main/java/com/example/demo/service/UserService.java:125-131 | the result of `TokenAfterVerification`, with nothing changed |
| Auth.UserService.UpdateProfile | src/main/java/com/example/demo/service/UserService.java:157-178 | reply and new table are those of `MergeProfile` |
| Auth.UserService.UpdateProfileCoach | src/main/java/com/example/demo/service/UserService.java:294-370 | reply and new table are those of `MergeCoachProfile` |
| Courses.ValidateCourseRequest | src/main/java/com/example/demo/service/CourseService.java:219-232 | accepted exactly when the title is non-empty and level, duration and price are present; otherwise the first missing field, in that order |
| Courses.ValidateExerciseRequest | src/main/java/com/example/demo/service/CourseService.java:237-241 | refused exactly for a null or empty name |
| Courses.FileExtension | src/main/java/com/example/demo/service/CourseService.java:41-47 | the suffix from the last '.', or ".mp4" for a null name or a name without a dot |
| Courses.BuiltFrom | src/main/java/com/example/demo/service/CourseService.java:129-140 | one exercise per request; the i-th has orderIndex i and a fresh distinct id |
| Courses.RemoveAt | src/main/java/com/example/demo/service/CourseService.java:375 | with distinct ids, removing an exercise takes out exactly its position |
| Courses.RemoveAbsent | src/main/java/com/example/demo/service/CourseService.java:375 | removing an absent exercise changes nothing |
| Courses.RemoveLength | src/main/java/com/example/demo/service/CourseService.java:375-377 | the list is one shorter exactly when the exercise was in it, and the exercise is gone |
| Courses.Renumbered | src/main/java/com/example/demo/service/CourseService.java:390-398 | same exercises, each orderIndex set to its position |
| Courses.SortByOrderIndex | src/main/java/com/example/demo/service/CourseService.java:391-392 | every position exactly once, in stable ascending orderIndex order |
| Courses.ReorderExercises | src/main/java/com/example/demo/service/CourseService.java:390-399 | list order and every other field kept; the new indices are distinct, in `0..n-1`, and ascending in the old orderIndex order |
| Courses.IncreasingIndicesArePositions | src/main/java/com/example/demo/service/CourseService.java:394-397 | distinct indices in `0..n-1` that increase along the list are exactly the positions |
| Courses.ReorderAfterRemoval | src/main/java/com/example/demo/service/CourseService.java:372-379 | reordering what is left after a removal renumbers it by position |
| Courses.RemoveExercise | src/main/java/com/example/demo/service/CourseService.java:375 | `List.remove`: the list without that exercise, ids still distinct, order kept |
| Courses.RemoveAndReorder | src/main/java/com/example/demo/service/CourseService.java:372-379 | the list after deleteExercise is the rest, renumbered `0..n-2` |
| Courses.CourseService.BuildExercises | src/main/java/com/example/demo/service/CourseService.java:129-140 | fails exactly when a request has no name; otherwise `BuiltFrom` |
| Courses.CourseService.CreateCourseWithExercises | src/main/java/com/example/demo/service/CourseService.java:102-144 | validation first, saving nothing on error; the new course has the requested exercises numbered by position and exerciseCount equal to their number |
| Courses.CourseService.CreateExercise | src/main/java/com/example/demo/service/CourseService.java:457-497 | refuses exactly a null or empty name (a name of spaces is accepted); appends with orderIndex equal to the old length and sets exerciseCount to the new length |
| Courses.CourseService.DeleteExercise | src/main/java/com/example/demo/service/CourseService.java:361-386 | an unknown id fails; otherwise exactly that exercise leaves its course, the rest is renumbered and exerciseCount follows |
| Courses.CourseService.UpdateCourseExercises | src/main/java/com/example/demo/service/CourseService.java:285-327 | all previous exercises are dropped and the list is rebuilt from the request, numbered by position; a null or empty request leaves none and exerciseCount 0 |
| Courses.CourseService.UpdateCourse | src/main/java/com/example/demo/service/CourseService.java:247-279 | an unknown course fails; the fields are copied and the exercises replaced as by `UpdateCourseExercises` |
| Courses.CourseService.DeleteCourse | src/main/java/com/example/demo/service/CourseService.java:333-356 | an unknown course fails; otherwise the course goes from the course table and its exercises from the exercise index |
| CourseControl.PermissionsCompared | src/main/java/com/example/demo/controller/CourseController.java:289-293 | deleting a course allows the owning COACH or an ADMIN, and editing exercises (the check at lines 211-215) only that COACH; GYMZER and GYM may do neither |
| CourseControl.FormRequest | src/main/java/com/example/demo/controller/CourseController.java:128-139 | the bound form never carries exercises |
| CourseControl.CreateCourse | src/main/java/com/example/demo/controller/CourseController.java:48-88 | 400 unless coachId names a COACH and the request is valid, changing nothing; otherwise the only change is a new course under the next id, copying the form's fields, owned by coachId, with no exercises and count 0 |
| CourseControl.UpdateCourse | src/main/java/com/example/demo/controller/CourseController.java:108-148 | 403 unless a COACH, 404 for an unknown course, changing nothing; a success replaces only that course, by the form's fields with the owner kept, no exercises and count 0, and drops its old exercises from the index |
| CourseControl.AddExerciseToCourse | src/main/java/com/example/demo/controller/CourseController.java:194-238 | 404 for an unknown course, 403 unless the owning COACH, 500 for a nameless exercise, changing nothing; otherwise only that course changes: `MakeExercise` of the request under the next id and orderIndex the old length is appended, the count follows, and the index files it under the course |
| CourseControl.DeleteCourse | src/main/java/com/example/demo/controller/CourseController.java:281-305 | 404 for an unknown course; deleted exactly when the user is an ADMIN or the owning COACH, and then, of the course service's tables, only that course and its exercises' index entries change |
| CourseControl.DeleteExercise | src/main/java/com/example/demo/controller/CourseController.java:310-335 | 404 for an unknown exercise before any permission check; then 403 for a missing or non-COACH caller, 500 for a COACH when the exercise has no course, 403 for a COACH who does not own it; deleted exactly for the owning COACH, and then only its course changes: the list becomes the rest renumbered 0..n-2, the count follows, and the index loses the id |
| CourseControl.PurchasedByMembers | src/main/java/com/example/demo/controller/CourseController.java:519-536 | the listing holds exactly the courses with an enrollment of that user, each as often as findAll lists it |
| CourseControl.PurchasedByAppend | src/main/java/com/example/demo/controller/CourseController.java:519-536 | the listing follows findAll order |
| CourseControl.GetPurchasedCourses | src/main/java/com/example/demo/controller/CourseController.java:516-538 | the nested loop with its break computes `PurchasedBy` |
| Reels.DetermineContentType | src/main/java/com/example/demo/controller/ReelController.java:92-110 | null gives octet-stream; each of .mp4, .mov, .avi, .wmv and .webm gives its type on the lower-cased name; always one of six fixed strings |
| Reels.ContentTypeIgnoresCase | src/main/java/com/example/demo/controller/ReelController.java:96 | names that differ only in case get the same type |
| Contacts.EmailShape | src/main/java/com/example/demo/service/ContactService.java:163 | a matching address has exactly one '@' and a dot after it |
| Contacts.ValidateVisitor | src/main/java/com/example/demo/service/ContactService.java:143-167 | a visitor passes exactly with non-blank nom, email and telephone and a matching email; otherwise the first failed check |
| Contacts.ValidateContactMessage | src/main/java/com/example/demo/service/ContactService.java:120-168 | passes exactly with a non-blank reason and message, a length in [10, 1000], a coachId and, for a visitor, the visitor checks; each error names the first failed check; none is a 404 |
| Contacts.FromEntity | src/main/java/com/example/demo/service/ContactService.java:90-113 | null nom, email and telephone become ""; coach and gymzer fields are filled exactly when those users are present |
| Contacts.Admission | src/main/java/com/example/demo/service/ContactService.java:174-207 | validation first; then the coach must exist and be a COACH, and a positive gymzerId must name a GYMZER |
| Contacts.Compose | src/main/java/com/example/demo/service/ContactService.java:195-235 | unread; a visitor's fields are copied; for a gymzer each blank field falls back to the gymzer's name, email or phone |
| Contacts.Create | src/main/java/com/example/demo/service/ContactService.java:174-241 | the first failed admission check, or the composed message |
| Contacts.SenderFieldsPresent | src/main/java/com/example/demo/service/ContactService.java:212-228 | every admitted message has a telephone; a visitor's has non-blank sender fields and a matching email; a gymzer who left the telephone blank gets their own |
| Contacts.MarkReadIdempotent | src/main/java/com/example/demo/service/ContactService.java:327-335 | marking sets lu, is idempotent and touches no other message |
| Contacts.ContactService.CreateContactMessage | src/main/java/com/example/demo/service/ContactService.java:174-242 | saves exactly the message of `Create` under the next id, or nothing on error |
| Contacts.ContactService.MarkMessageAsRead | src/main/java/com/example/demo/service/ContactService.java:327-336 | NOT_FOUND for an unknown id; otherwise the message is read and returned through `FromEntity` |
| Payments.CentsTruncates | src/main/java/com/example/demo/service/PaymentService.java:34 | for a non-negative price whose cent amount fits in a long, cents is price × 100 with the fraction dropped |
| Payments.CentsExact | src/main/java/com/example/demo/service/PaymentService.java:34 | a price with at most two decimals is charged exactly |
| Payments.FindByTransactionId | src/main/java/com/example/demo/service/PaymentService.java:71-72 | Ok with the position exactly when one enrollment has the transaction id; not-found exactly when none has it; a non-unique result otherwise |
| Payments.StatusFor | src/main/java/com/example/demo/service/PaymentService.java:75-81 | "succeeded" gives COMPLETED, "processing" gives PROCESSING, and anything else, null included, gives FAILED |
| Payments.CreatePaymentIntent | src/main/java/com/example/demo/service/PaymentService.java:25-66 | already enrolled, missing price and provider failure, in that order, create nothing; success appends one PENDING enrollment with paidAmount the price and transactionId the intent id |
| Payments.ConfirmPayment | src/main/java/com/example/demo/service/PaymentService.java:68-84 | succeeds exactly when one enrollment has the transaction id, and then only that enrollment's status changes, to the one mapped from the provider's status; not-found when none has it; otherwise a non-unique failure with nothing changed |
| Payments.NoSecondEnrollment | src/main/java/com/example/demo/service/PaymentService.java:28-31 | a second intent for the same course and user is refused |
| Payments.ConfirmNewIntent | src/main/java/com/example/demo/service/PaymentService.java:50-81 | confirming a just-created intent sets that enrollment's status from the provider's |
| Payments.ConfirmIdempotent | src/main/java/com/example/demo/service/PaymentService.java:75-83 | confirming twice with the same status equals confirming once |
| Payments.PaymentService.CreatePaymentIntentFor | src/main/java/com/example/demo/service/PaymentService.java:25-66 | reply and new table are those of `CreatePaymentIntent` |
| Payments.PaymentService.ConfirmPaymentFor | src/main/java/com/example/demo/service/PaymentService.java:68-84 | reply and new table are those of `ConfirmPayment` |
| Events.IsCreateurAutorise | src/main/java/com/example/demo/model/Event.java:67-70 | true exactly for a present creator that is neither GYMZER nor ADMIN, that is a COACH or a GYM |
| Events.Edited | src/main/java/com/example/demo/service/EventService.java:84-96 | the eight scalar fields copied; the old photo kept when the DTO's is null; id and creator kept |
| Events.EditedIdempotent | src/main/java/com/example/demo/service/EventService.java:84-96 | editing twice with one DTO equals editing once |
| Events.ByCreator | src/main/java/com/example/demo/service/EventService.java:58-64 | exactly the events created by the user |
| Events.ByCreatorAppend | src/main/java/com/example/demo/service/EventService.java:55-64 | a new event is listed last among its creator's events |
| Events.OnDate | src/main/java/com/example/demo/service/NotificationService.java:122 | exactly the events held on that day |
| Events.RemoveAtMembers | src/main/java/com/example/demo/service/EventService.java:113 | deleting removes exactly the events with that id |
| Events.RemoveAtIncreasing | src/main/java/com/example/demo/service/EventService.java:113 | deleting keeps the ids increasing |
| Events.CheckCreator | src/main/java/com/example/demo/service/EventService.java:73-82 | unknown event, unknown user and non-creator, in that order (the same checks open supprimerEvent); otherwise the event's position |
| Events.EventService.CreateEvent | src/main/java/com/example/demo/service/EventService.java:29-56 | fails for an unknown phone or a role other than COACH or GYM; otherwise appends an event copying the DTO, with that creator and the photo only when given |
| Events.EventService.GetEventsUtilisateur | src/main/java/com/example/demo/service/EventService.java:58-64 | an unknown phone fails; otherwise `ByCreator` |
| Events.EventService.ModifierEvent | src/main/java/com/example/demo/service/EventService.java:71-99 | the `CheckCreator` errors change nothing; otherwise that event becomes `Edited` and the others are unchanged |
| Events.EventService.SupprimerEvent | src/main/java/com/example/demo/service/EventService.java:101-114 | the `CheckCreator` errors change nothing; otherwise exactly that event is removed |
| Notifications.GymzerIdsOnce | src/main/java/com/example/demo/service/NotificationService.java:30 | with distinct ids, findByRole lists each GYMZER once and nobody else |
| Notifications.OnePerGymzer | src/main/java/com/example/demo/service/NotificationService.java:30-44 | a fan-out (here and in notifierNouvelEvenement) addresses one unread notification, with the kind and reference, to each GYMZER and none to anyone else |
| Notifications.RemindersLength | src/main/java/com/example/demo/service/NotificationService.java:119-148 | one reminder per (event, GYMZER) pair |
| Notifications.CountUnreadZero | src/main/java/com/example/demo/service/NotificationService.java:108-114 | the count is zero exactly when all of the user's notifications are read |
| Notifications.MarkAllRead | src/main/java/com/example/demo/service/NotificationService.java:96-106 | the user's notifications become read; every other notification is unchanged |
| Notifications.MarkAllReadCounts | src/main/java/com/example/demo/service/NotificationService.java:96-106 | afterwards the user has nothing unread and every other user's count is unchanged |
| Notifications.NotificationService.NotifierNouvelleOffre | src/main/java/com/example/demo/service/NotificationService.java:27-45 | appends the NOUVELLE_OFFRE fan-out to the GYMZER users, referencing the offer |
| Notifications.NotificationService.NotifierNouvelEvenement | src/main/java/com/example/demo/service/NotificationService.java:47-62 | appends the NOUVEL_EVENEMENT fan-out to the GYMZER users, referencing the event |
| Notifications.NotificationService.NotifierRappelEvenement | src/main/java/com/example/demo/service/NotificationService.java:116-153 | nothing when no event is tomorrow; otherwise the reminders for tomorrow's events |
| Notifications.NotificationService.MarquerCommeLue | src/main/java/com/example/demo/service/NotificationService.java:80-94 | an unknown user, unknown notification or another addressee fails and changes nothing; otherwise only that notification is read |
| Notifications.NotificationService.MarquerToutesCommeLues | src/main/java/com/example/demo/service/NotificationService.java:96-106 | an unknown user fails; otherwise the table becomes `MarkAllRead` |
| Notifications.NotificationService.CompterNotificationsNonLues | src/main/java/com/example/demo/service/NotificationService.java:108-114 | an unknown user fails; otherwise `CountUnread` |
| Participations.PrePersist | src/main/java/com/example/demo/model/EventParticipation.java:40-55 | the date is always set; with no user nothing else changes; a non-null field is never overwritten; a null field is filled from the user |
| Participations.PrePersistTwice | src/main/java/com/example/demo/model/EventParticipation.java:40-55 | running the hook again only moves the date |
| Participations.EventParticipation.OnCreate | src/main/java/com/example/demo/model/EventParticipation.java:40-55 | the entity becomes `PrePersist` of itself |
| Participations.SaveBehindGuard | src/main/java/com/example/demo/service/EventParticipationService.java:27-29 | saving behind the duplicate guard, which registerExistingUserWithForm repeats, keeps every (user, event) pair unique |
| Participations.EventsOf | src/main/java/com/example/demo/service/EventParticipationService.java:100-109 | exactly the events of the user's participations |
| Participations.EventsOfAppend | src/main/java/com/example/demo/service/EventParticipationService.java:100-109 | in participation order |
| Participations.EventParticipationService.ParticipateInEvent | src/main/java/com/example/demo/service/EventParticipationService.java:24-45 | duplicate pair, unknown user and unknown event fail, in that order, saving nothing; otherwise one row with the user's email, name and phone |
| Participations.EventParticipationService.RegisterForEvent | src/main/java/com/example/demo/service/EventParticipationService.java:47-65 | an unknown event fails, then an email already registered for it; otherwise a row with no user and the form's fields |
| Participations.EventParticipationService.RegisterExistingUserWithForm | src/main/java/com/example/demo/service/EventParticipationService.java:68-91 | the same guards as participateInEvent; the row holds the form's fields, with nulls filled from the account by the hook |
| Abonnements.Updated | src/main/java/com/example/demo/service/AbonnementService.java:99-105 | the six request fields copied; actif, owner, id and creation date kept |
| Abonnements.WithStatus | src/main/java/com/example/demo/service/AbonnementService.java:120-121 | actif set to the argument; only the modification date also changes |
| Abonnements.ByUser | src/main/java/com/example/demo/service/AbonnementService.java:63-68 | exactly the user's abonnements |
| Abonnements.ActiveByUser | src/main/java/com/example/demo/service/AbonnementService.java:73-78 | exactly the user's abonnements with actif true |
| Abonnements.StatusDecidesActiveListing | src/main/java/com/example/demo/service/AbonnementService.java:73-121 | after a status change the abonnement is listed as active exactly when the new status is true |
| Abonnements.AbonnementService.CreateAbonnement | src/main/java/com/example/demo/service/AbonnementService.java:33-58 | NOT_FOUND for an unknown user and BAD_REQUEST for a non-GYM, saving nothing; otherwise a new row copying the request, actif and owned by the user |
| Abonnements.AbonnementService.GetAbonnementById | src/main/java/com/example/demo/service/AbonnementService.java:83-88 | NOT_FOUND for an unknown id, otherwise that row |
| Abonnements.AbonnementService.UpdateAbonnement | src/main/java/com/example/demo/service/AbonnementService.java:93-109 | NOT_FOUND for an unknown id; otherwise that row becomes `Updated` |
| Abonnements.AbonnementService.ChangeAbonnementStatus | src/main/java/com/example/demo/service/AbonnementService.java:114-125 | NOT_FOUND for an unknown id; otherwise that row becomes `WithStatus` |
| Abonnements.AbonnementService.DeleteAbonnement | src/main/java/com/example/demo/service/AbonnementService.java:130-137 | NOT_FOUND for an unknown id; otherwise exactly that row is removed |
| Plannings.SortByDayName | src/main/java/com/example/demo/service/PlanningService.java:28 | sorted by dayName, nulls first, and a permutation of the input |
| Plannings.PlanningsOf | src/main/java/com/example/demo/service/PlanningService.java:27-29 | the user's plannings, each as often as stored, in ascending dayName order |
| Plannings.Without | src/main/java/com/example/demo/service/PlanningService.java:93 | exactly the plannings with another id |
| Plannings.WithoutIncreasing | src/main/java/com/example/demo/service/PlanningService.java:93 | deleting keeps the ids increasing |
| Plannings.PlanningService.CreatePlanning | src/main/java/com/example/demo/service/PlanningService.java:41-57 | fails for an unknown user or a non-GYM; otherwise appends a planning attached to that user |
| Plannings.PlanningService.UpdatePlanning | src/main/java/com/example/demo/service/PlanningService.java:62-81 | fails on an unknown id; otherwise the seven text fields are replaced and id and user are kept |
| Plannings.PlanningService.DeletePlanning | src/main/java/com/example/demo/service/PlanningService.java:86-94 | fails on an unknown id; otherwise only that planning is removed |

## Left out

- File I/O: thumbnail and video files, `PhotoService`, the reel upload and listing, and the test-access endpoints. They only read, write and delete files.
- SMS sending through `TwilioService` is left out. That class is not part of this model; the message is only sent, and nothing is read back.
- The provider call `PaymentIntent.create` is an `Option<Intent>` parameter, and the Stripe API key is not modelled.
- `JwtTokenService`: the token is the datatype of its claims (user id, phone number, role). Signing and expiry are not modelled.
- Notification message text is left out, because it formats `Double` prices and dates. Titles are kept.
- `Offre` price arithmetic and the `Double` checks in `OffreController` and `EventController` are floating point and are not modelled. Abonnement prices are copied as reals, without their sign checks (see below).
- The phone-number change flow and `getUserById`, `modifierUser` and `updateUserPhoto` are called by `AuthController` but are not in `UserService`, so they are not modelled.
- Controllers' HTTP mapping, bearer-header slicing, JPA and Jackson annotations, `SecurityConfig`, and the pass-through `CommentaireService` are not modelled.
- Concurrency: one request at a time. Races on a stored code are not modelled.
- Auth.MergeProfile: the Bean Validation constraints on `User` are not checked when the user is saved: a firstName outside 2..100 characters, or an email that is malformed or longer than 255, is stored where the source fails with a ConstraintViolationException.
- Auth.MergeCoachProfile: the same `User` constraints on firstName and email are not checked on save.
- Events.EventService.CreateEvent: the `Event` constraint that titre is non-null with 2..100 characters, and the other non-null columns, are not checked on save.
- Events.EventService.ModifierEvent: the same `Event` constraints are not checked when the edited event is saved.
- Abonnements.AbonnementService.CreateAbonnement: the `Abonnement` constraints (titre not blank; prix, ancienPrix and duree positive; prix and duree non-null) are not checked; a row with prix -5 is stored where the source rejects it.
- Abonnements.AbonnementService.UpdateAbonnement: the same `Abonnement` constraints are not checked when the updated row is saved.
- Contacts.ContactService.CreateContactMessage: the method-level `@Valid` check on the DTO, which throws a ConstraintViolationException for a blank raisonContact or message, or a message outside 10..1000 characters, before the service's own checks run, is not modelled separately. `Contacts.ValidateContactMessage` reports these inputs as its own first-failure errors, so the same inputs are refused but the kind of failure differs. The entity's `@Email` check on save, which may differ from the service's own pattern for a gymzer's fallback email, is not modelled either.
- Events.ByCreatorAppend: `findByCreateur` has no ORDER BY, so the database promises no order. The model lists the creator's events in table order, and this order is assumed.
- Participations.EventsOfAppend: `findByUserId` has no ORDER BY either. Participation order is assumed in the same way.
- Courses.CourseService.DeleteCourse: `Course.enrollments` cascades, so deleting a course in the source also deletes its enrollments. The enrollments are a separate store in the model (`Payments.PaymentService`), and the cascade is not modelled there. After a course is deleted, the model keeps its enrollments, and `ConfirmPayment` can still find their transaction ids, where the source reports them as not found.
- Database constraints (NOT NULL, uniqueness) are not modelled. Ids are positions plus one, or a counter.
- `Plannings.PlanningsOf`: dayName order is by code point, nulls first, standing in for the database collation. The order between equal day names is not specified.
- `Plannings.PlanningService.CreatePlanning` always inserts with a fresh id. A planning passed with an existing id, which JPA would merge, is not modelled.
- `Abonnements.ByUser` and `Abonnements.ActiveByUser` return sets, because the queries have no ORDER BY.
- Notifications listed "ORDER BY dateCreation DESC" are not modelled. The count and the marking do not depend on order. `marquerToutesCommeLues` reads the unread rows, and marking every row of the user has the same effect.
- `JavaText.ToUpper` and `JavaText.ToLower` are modelled per character: ASCII letters, plus the non-ASCII characters whose case mapping is ASCII. Locale-sensitive mappings and multi-character expansions are not modelled, since neither can turn a string into one of the ASCII names compared against.
- `Payments.Cents` states only its 64-bit range. Truncation is stated by `Payments.CentsTruncates`, for non-negative prices whose cent amount fits in a long. A BigDecimal with a negative scale is not modelled.
- `PaymentStatus.java` is not part of this model. The four statuses the service writes are declared.
- `EventParticipationRepository.java` declares only `existsByUserIdAndEventId` and `findByEventIdAndUserId`. `existsByEmailAndEventId` and `findByUserId`, which `EventParticipationService` calls, are not declared anywhere in the repository's source. All three are modelled as the Spring Data derived queries their names describe.
- A `null` argument that the source would dereference (a NullPointerException) is not modelled. String fields the code reads without a null check are plain strings.
- Every notification of one call gets the same clock reading `now`.

=== FILE: abonnement_service.dfy ===
/** AbonnementService: subscription offers that GYM accounts publish, edit,
    switch on and off, and delete. */
module Abonnements {
  import opened Wrappers
  import opened Roles
  import opened Users
  import opened Time

  type AbonnementId = nat

  datatype UniteDuree = JOUR | MOIS | AN

  /** An abonnement row; `ownerId` is the id of the gym that created it. Prices are
      Double columns that the service only copies, so any real number stands for one. */
  datatype Abonnement = Abonnement(
    id: AbonnementId,
    titre: Option<string>,
    description: Option<string>,
    prix: Option<real>,
    ancienPrix: Option<real>,
    duree: Option<int>,
    uniteDuree: Option<UniteDuree>,
    dateCreation: Instant,
    dateModification: Option<Instant>,
    actif: bool,
    ownerId: UserId)

  /** Abonnement.Request. */
  datatype Request = Request(
    titre: Option<string>,
    description: Option<string>,
    prix: Option<real>,
    ancienPrix: Option<real>,
    duree: Option<int>,
    uniteDuree: Option<UniteDuree>)

  /** The HTTP status of the ResponseStatusException thrown. */
  datatype Failure = NOT_FOUND | BAD_REQUEST

  /** The six request fields hold in the row. */
  predicate Copies(a: Abonnement, r: Request) {
    && a.titre == r.titre && a.description == r.description && a.prix == r.prix
    && a.ancienPrix == r.ancienPrix && a.duree == r.duree && a.uniteDuree == r.uniteDuree
  }

  /** The row after updateAbonnement's setters. */
  function Updated(a: Abonnement, r: Request, now: Instant): (b: Abonnement)
    ensures Copies(b, r) && b.dateModification == Some(now)
    ensures b.id == a.id && b.actif == a.actif && b.ownerId == a.ownerId && b.dateCreation == a.dateCreation
  {
    a.(titre := r.titre, description := r.description, prix := r.prix, ancienPrix := r.ancienPrix,
       duree := r.duree, uniteDuree := r.uniteDuree, dateModification := Some(now))
  }

  /** The row after changeAbonnementStatus. */
  function WithStatus(a: Abonnement, actif: bool, now: Instant): (b: Abonnement)
    ensures b.actif == actif && b.dateModification == Some(now)
    ensures b.(actif := a.actif, dateModification := a.dateModification) == a
  {
    a.(actif := actif, dateModification := Some(now))
  }

  /** findByUserId. */
  function ByUser(store: map<AbonnementId, Abonnement>, userId: UserId): (s: set<Abonnement>)
    ensures forall a :: a in s <==> exists k :: k in store && store[k] == a && a.ownerId == userId
  {
    set k | k in store && store[k].ownerId == userId :: store[k]
  }

  /** findByUserIdAndActifTrue. */
  function ActiveByUser(store: map<AbonnementId, Abonnement>, userId: UserId): (s: set<Abonnement>)
    ensures s <= ByUser(store, userId)
    ensures forall a :: a in s <==> a in ByUser(store, userId) && a.actif
  {
    set k | k in store && store[k].ownerId == userId && store[k].actif :: store[k]
  }

  /** After a status change, the abonnement is listed as active for its owner
      exactly when the new status is true. */
  lemma StatusDecidesActiveListing(store: map<AbonnementId, Abonnement>, id: AbonnementId, actif: bool, now: Instant)
    requires id in store
    ensures var s := store[id := WithStatus(store[id], actif, now)];
      s[id] in ActiveByUser(s, store[id].ownerId) <==> actif
  {
    var s := store[id := WithStatus(store[id], actif, now)];
    if actif {
      assert s[id] in ByUser(s, store[id].ownerId);
    }
  }

  class AbonnementService {
    var abonnements: map<AbonnementId, Abonnement>
    var nextId: AbonnementId

    ghost predicate Valid()
      reads this
    {
      forall k :: k in abonnements ==> abonnements[k].id == k && k < nextId
    }

    constructor ()
      ensures Valid() && abonnements == map[]
    {
      abonnements := map[];
      nextId := 1;
    }

    /** createAbonnement. */
    method CreateAbonnement(userId: UserId, request: Request, users: seq<User>, now: Instant)
      returns (r: Result<Abonnement, Failure>)
      requires Valid()
      modifies this
      ensures Valid()
      ensures r.Err? ==> unchanged(this)
      ensures FindById(users, userId).None? ==> r == Err(NOT_FOUND)
      ensures FindById(users, userId).Some? && FindById(users, userId).value.role != GYM ==> r == Err(BAD_REQUEST)
      ensures r.Ok? <==> FindById(users, userId).Some? && FindById(users, userId).value.role == GYM
      ensures r.Ok? ==>
        && abonnements == old(abonnements)[old(nextId) := r.value] && nextId == old(nextId) + 1
        && r.value.id == old(nextId) && Copies(r.value, request)
        && r.value.actif && r.value.ownerId == userId
        && r.value.dateCreation == now && r.value.dateModification.None?
    {
      var user := FindById(users, userId);
      if user.None? {
        return Err(NOT_FOUND);
      }
      if user.value.role != GYM {
        return Err(BAD_REQUEST);
      }
      var a := Abonnement(nextId, request.titre, request.description, request.prix, request.ancienPrix,
                          request.duree, request.uniteDuree, now, None, true, user.value.id);
      abonnements := abonnements[nextId := a];
      nextId := nextId + 1;
      r := Ok(a);
    }

    /** getAbonnementById. */
    method GetAbonnementById(id: AbonnementId) returns (r: Result<Abonnement, Failure>)
      ensures id !in abonnements ==> r == Err(NOT_FOUND)
      ensures id in abonnements ==> r == Ok(abonnements[id])
    {
      if id !in abonnements {
        return Err(NOT_FOUND);
      }
      r := Ok(abonnements[id]);
    }

    /** updateAbonnement. */
    method UpdateAbonnement(id: AbonnementId, request: Request, now: Instant) returns (r: Result<Abonnement, Failure>)
      requires Valid()
      modifies this
      ensures Valid()
      ensures id !in old(abonnements) ==> r == Err(NOT_FOUND) && unchanged(this)
      ensures id in old(abonnements) ==>
        && r == Ok(Updated(old(abonnements)[id], request, now))
        && abonnements == old(abonnements)[id := r.value] && nextId == old(nextId)
    {
      if id !in abonnements {
        return Err(NOT_FOUND);
      }
      var a := abonnements[id];
      a := a.(titre := request.titre, description := request.description, prix := request.prix,
              ancienPrix := request.ancienPrix, duree := request.duree, uniteDuree := request.uniteDuree);
      a := a.(dateModification := Some(now));
      abonnements := abonnements[id := a];
      r := Ok(a);
    }

    /** changeAbonnementStatus. */
    method ChangeAbonnementStatus(id: AbonnementId, actif: bool, now: Instant) returns (r: Result<Abonnement, Failure>)
      requires Valid()
      modifies this
      ensures Valid()
      ensures id !in old(abonnements) ==> r == Err(NOT_FOUND) && unchanged(this)
      ensures id in old(abonnements) ==>
        && r == Ok(WithStatus(old(abonnements)[id], actif, now))
        && abonnements == old(abonnements)[id := r.value] && nextId == old(nextId)
    {
      if id !in abonnements {
        return Err(NOT_FOUND);
      }
      var a := abonnements[id].(actif := actif, dateModification := Some(now));
      abonnements := abonnements[id := a];
      r := Ok(a);
    }

    /** deleteAbonnement. */
    method DeleteAbonnement(id: AbonnementId) returns (r: Result<(), Failure>)
      requires Valid()
      modifies this
      ensures Valid()
      ensures id !in old(abonnements) ==> r == Err(NOT_FOUND) && unchanged(this)
      ensures id in old(abonnements) ==>
        r == Ok(()) && abonnements == old(abonnements) - {id} && nextId == old(nextId)
    {
      if id !in abonnements {
        return Err(NOT_FOUND);
      }
      abonnements := abonnements - {id};
      r := Ok(());
    }
  }
}

=== FILE: contact_service.dfy ===
/** ContactService: messages sent to a coach, either by a registered GYMZER or by a
    visitor who leaves a name, an email and a phone number. */
module Contacts {
  import opened Wrappers
  import opened JavaText
  import opened Roles
  import opened Users
  import opened Time

  type MessageId = nat

  // ---------------------------------------------------------------------------
  // The email pattern ^[\w-\.]+@([\w-]+\.)+[\w-]{2,4}$ (\w is [a-zA-Z_0-9])

  predicate IsWordChar(c: char) {
    ('a' <= c <= 'z') || ('A' <= c <= 'Z') || ('0' <= c <= '9') || c == '_'
  }

  /** A character of a domain label: [\w-]. */
  predicate IsLabelChar(c: char) {
    IsWordChar(c) || c == '-'
  }

  /** [\w-\.]+ : the part before '@'. */
  predicate IsLocalPart(s: string) {
    |s| >= 1 && forall i :: 0 <= i < |s| ==> IsLabelChar(s[i]) || s[i] == '.'
  }

  /** Labels of [\w-] separated by single dots: the text ([\w-]+\.)+ repeats,
      without its final dot. */
  predicate IsDottedLabels(s: string) {
    && |s| >= 1
    && (forall i :: 0 <= i < |s| ==> IsLabelChar(s[i]) || s[i] == '.')
    && s[0] != '.' && s[|s| - 1] != '.'
    && forall i :: 0 <= i < |s| - 1 ==> !(s[i] == '.' && s[i + 1] == '.')
  }

  /** ([\w-]+\.)+[\w-]{2,4} : the last segment has no dot, so it starts after the
      last dot. */
  predicate IsDomain(s: string) {
    var j := LastIndexOf(s, '.');
    && j >= 1
    && 2 <= |s| - j - 1 <= 4
    && (forall i :: j < i < |s| ==> IsLabelChar(s[i]))
    && IsDottedLabels(s[..j])
  }

  /** The whole pattern. Neither part may hold '@', so the split is at the only '@'. */
  predicate IsEmail(s: string) {
    exists i :: 0 <= i < |s| && s[i] == '@' && IsLocalPart(s[..i]) && IsDomain(s[i + 1..])
  }

  /** A matching address has exactly one '@' and a dot after it. */
  lemma EmailShape(s: string, i: nat)
    requires i < |s| && s[i] == '@' && IsLocalPart(s[..i]) && IsDomain(s[i + 1..])
    ensures forall k :: 0 <= k < |s| && s[k] == '@' ==> k == i
    ensures Contains(s[i + 1..], '.')
  {
    assert s[i + 1..][LastIndexOf(s[i + 1..], '.')] == '.';
  }

  // ---------------------------------------------------------------------------
  // Validation

  /** ContactMessageDTO. The ids are Longs, so they may be zero or negative. */
  datatype ContactMessageRequest = ContactMessageRequest(
    nom: Option<string>,
    email: Option<string>,
    telephone: Option<string>,
    raisonContact: Option<string>,
    message: Option<string>,
    coachId: Option<int>,
    gymzerId: Option<int>)

  /** The ResponseStatusExceptions of the service; NotFound ones are 404, the rest 400. */
  datatype ContactError =
    | MissingReason | MissingMessage | MessageLength | MissingCoachId
    | MissingNom | MissingEmail | MissingTelephone | InvalidEmail
    | CoachNotFound | RecipientNotCoach | SenderNotFound | SenderNotGymzer
    | MessageNotFound

  predicate IsNotFound(e: ContactError) {
    e in {CoachNotFound, SenderNotFound, MessageNotFound}
  }

  /** A sender without a positive gymzerId is a visitor. */
  predicate IsVisitor(r: ContactMessageRequest) {
    r.gymzerId.None? || r.gymzerId.value <= 0
  }

  predicate LengthOk(m: string) {
    10 <= Utf16Length(m) <= 1000
  }

  /** The visitor's checks of validateContactMessageData, in the source's order. */
  function ValidateVisitor(r: ContactMessageRequest): (e: Option<ContactError>)
    ensures e.None? <==> !IsBlank(r.nom) && !IsBlank(r.email) && !IsBlank(r.telephone) && IsEmail(r.email.value)
    ensures e.Some? ==> e.value in {MissingNom, MissingEmail, MissingTelephone, InvalidEmail}
    ensures e == Some(MissingNom) <==> IsBlank(r.nom)
  {
    if IsBlank(r.nom) then Some(MissingNom)
    else if IsBlank(r.email) then Some(MissingEmail)
    else if IsBlank(r.telephone) then Some(MissingTelephone)
    else if !IsEmail(r.email.value) then Some(InvalidEmail)
    else None
  }

  /** validateContactMessageData: the first failed check, in the source's order. */
  function ValidateContactMessage(r: ContactMessageRequest): (e: Option<ContactError>)
    ensures e.None? <==>
      && !IsBlank(r.raisonContact) && !IsBlank(r.message) && LengthOk(r.message.value) && r.coachId.Some?
      && (IsVisitor(r) ==> ValidateVisitor(r).None?)
    ensures e == Some(MissingReason) <==> IsBlank(r.raisonContact)
    ensures e == Some(MissingMessage) <==> !IsBlank(r.raisonContact) && IsBlank(r.message)
    ensures e == Some(MessageLength) <==> !IsBlank(r.raisonContact) && !IsBlank(r.message) && !LengthOk(r.message.value)
    ensures !IsVisitor(r) && e.Some? ==> e.value in {MissingReason, MissingMessage, MessageLength, MissingCoachId}
    ensures e.Some? ==> !IsNotFound(e.value)
  {
    if IsBlank(r.raisonContact) then Some(MissingReason)
    else if IsBlank(r.message) then Some(MissingMessage)
    else if !LengthOk(r.message.value) then Some(MessageLength)
    else if r.coachId.None? then Some(MissingCoachId)
    else if IsVisitor(r) then ValidateVisitor(r)
    else None
  }

  // ---------------------------------------------------------------------------
  // Messages and their reply form

  /** A contact_message row; the coach and gymzer are the linked user rows. */
  datatype ContactMessage = ContactMessage(
    id: MessageId,
    nom: Option<string>,
    email: Option<string>,
    telephone: Option<string>,
    raisonContact: string,
    message: string,
    dateEnvoi: Instant,
    coach: Option<User>,
    gymzer: Option<User>,
    lu: bool)

  /** ContactMessageResponseDTO. */
  datatype ContactMessageResponse = ContactMessageResponse(
    id: MessageId,
    nom: string,
    email: string,
    telephone: string,
    raisonContact: string,
    message: string,
    dateEnvoi: Instant,
    coachId: Option<UserId>,
    coachNom: Option<string>,
    coachEmail: Option<string>,
    gymzerId: Option<UserId>,
    gymzerNom: Option<string>,
    gymzerEmail: Option<string>,
    lu: bool)

  /** Optional.ofNullable(s).orElse(""). */
  function OrEmpty(s: Option<string>): (r: string)
    ensures s.Some? ==> r == s.value
    ensures s.None? ==> r == ""
  {
    if s.Some? then s.value else ""
  }

  /** fromEntity: null texts become "", and the coach and gymzer columns are filled
      only when the message links to those users (their last name and email, null
      ones as ""). */
  function FromEntity(m: ContactMessage): (d: ContactMessageResponse)
    ensures d.id == m.id && d.lu == m.lu && d.message == m.message && d.raisonContact == m.raisonContact
    ensures (m.nom.None? ==> d.nom == "") && (m.nom.Some? ==> d.nom == m.nom.value)
    ensures (m.email.None? ==> d.email == "") && (m.email.Some? ==> d.email == m.email.value)
    ensures (m.telephone.None? ==> d.telephone == "") && (m.telephone.Some? ==> d.telephone == m.telephone.value)
    ensures d.coachId.Some? <==> m.coach.Some?
    ensures m.coach.Some? ==> d.coachId == Some(m.coach.value.id) && d.coachNom == Some(OrEmpty(m.coach.value.nom))
                              && d.coachEmail == Some(OrEmpty(m.coach.value.email))
    ensures m.coach.None? ==> d.coachNom.None? && d.coachEmail.None?
    ensures d.gymzerId.Some? <==> m.gymzer.Some?
    ensures m.gymzer.Some? ==> d.gymzerId == Some(m.gymzer.value.id) && d.gymzerNom == Some(OrEmpty(m.gymzer.value.nom))
                               && d.gymzerEmail == Some(OrEmpty(m.gymzer.value.email))
    ensures m.gymzer.None? ==> d.gymzerNom.None? && d.gymzerEmail.None?
  {
    var (coachId, coachNom, coachEmail) :=
      if m.coach.Some? then (Some(m.coach.value.id), Some(OrEmpty(m.coach.value.nom)), Some(OrEmpty(m.coach.value.email)))
      else (None, None, None);
    var (gymzerId, gymzerNom, gymzerEmail) :=
      if m.gymzer.Some? then (Some(m.gymzer.value.id), Some(OrEmpty(m.gymzer.value.nom)), Some(OrEmpty(m.gymzer.value.email)))
      else (None, None, None);
    ContactMessageResponse(m.id, OrEmpty(m.nom), OrEmpty(m.email), OrEmpty(m.telephone), m.raisonContact, m.message,
                           m.dateEnvoi, coachId, coachNom, coachEmail, gymzerId, gymzerNom, gymzerEmail, m.lu)
  }

  /** The sender name used for a gymzer who left the name blank: first name and
      last name joined by a space and trimmed, a null part rendered as "null". */
  function GymzerName(g: User): string {
    Trim(Str(g.firstName) + " " + Str(g.nom))
  }

  function Lookup(accounts: map<UserId, User>, id: int): Option<User> {
    if id >= 0 && id as nat in accounts then Some(accounts[id as nat]) else None
  }

  /** Everything createContactMessage checks, in order: the request, then the coach
      (404, then 400 for a non-COACH), then a registered sender (404, then 400 for
      a non-GYMZER). */
  function Admission(r: ContactMessageRequest, accounts: map<UserId, User>): (e: Option<ContactError>)
    ensures ValidateContactMessage(r).Some? ==> e == ValidateContactMessage(r)
    ensures e.None? <==>
      && ValidateContactMessage(r).None?
      && Lookup(accounts, r.coachId.value).Some? && Lookup(accounts, r.coachId.value).value.role == COACH
      && (!IsVisitor(r) ==> Lookup(accounts, r.gymzerId.value).Some? && Lookup(accounts, r.gymzerId.value).value.role == GYMZER)
    ensures e == Some(CoachNotFound) <==> ValidateContactMessage(r).None? && Lookup(accounts, r.coachId.value).None?
  {
    var v := ValidateContactMessage(r);
    if v.Some? then v
    else
      var coach := Lookup(accounts, r.coachId.value);
      if coach.None? then Some(CoachNotFound)
      else if coach.value.role != COACH then Some(RecipientNotCoach)
      else if IsVisitor(r) then None
      else
        var g := Lookup(accounts, r.gymzerId.value);
        if g.None? then Some(SenderNotFound)
        else if g.value.role != GYMZER then Some(SenderNotGymzer)
        else None
  }

  /** The message createContactMessage saves. A visitor's sender fields are copied;
      a gymzer's blank ones fall back to the account: the joined first and last
      names, the account email, the account phone number. */
  function Compose(r: ContactMessageRequest, coach: User, gymzer: Option<User>, id: MessageId, now: Instant): (m: ContactMessage)
    requires r.raisonContact.Some? && r.message.Some?
    ensures m.id == id && !m.lu && m.dateEnvoi == now && m.coach == Some(coach) && m.gymzer == gymzer
    ensures m.raisonContact == r.raisonContact.value && m.message == r.message.value
    ensures gymzer.None? ==> m.nom == r.nom && m.email == r.email && m.telephone == r.telephone
    ensures gymzer.Some? ==>
      && m.nom == (if IsBlank(r.nom) then Some(GymzerName(gymzer.value)) else r.nom)
      && m.email == (if IsBlank(r.email) then gymzer.value.email else r.email)
      && m.telephone == (if IsBlank(r.telephone) then Some(gymzer.value.phoneNumber) else r.telephone)
  {
    var m := ContactMessage(id, None, None, None, r.raisonContact.value, r.message.value, now, Some(coach), None, false);
    if gymzer.Some? then
      var g := gymzer.value;
      m.(gymzer := gymzer,
         nom := if IsBlank(r.nom) then Some(GymzerName(g)) else r.nom,
         email := if IsBlank(r.email) then g.email else r.email,
         telephone := if IsBlank(r.telephone) then Some(g.phoneNumber) else r.telephone)
    else
      m.(nom := r.nom, email := r.email, telephone := r.telephone, gymzer := None)
  }

  /** createContactMessage as a whole: the error it throws, or the message it saves
      under the given id. */
  function Create(r: ContactMessageRequest, accounts: map<UserId, User>, id: MessageId, now: Instant): (o: Result<ContactMessage, ContactError>)
    ensures o.Err? <==> Admission(r, accounts).Some?
    ensures o.Err? ==> o.error == Admission(r, accounts).value
    ensures o.Ok? ==>
      && r.raisonContact.Some? && r.message.Some? && Lookup(accounts, r.coachId.value).Some?
      && o.value == Compose(r, Lookup(accounts, r.coachId.value).value,
                            if IsVisitor(r) then None else Lookup(accounts, r.gymzerId.value), id, now)
  {
    var e := Admission(r, accounts);
    if e.Some? then Err(e.value)
    else
      Ok(Compose(r, Lookup(accounts, r.coachId.value).value,
                 if IsVisitor(r) then None else Lookup(accounts, r.gymzerId.value), id, now))
  }

  /** A gymzer who leaves every sender field blank is still reachable: the stored
      phone is the account's. A visitor's stored fields are never blank. */
  lemma SenderFieldsPresent(r: ContactMessageRequest, accounts: map<UserId, User>, id: MessageId, now: Instant)
    requires Admission(r, accounts).None?
    ensures
      var coach := Lookup(accounts, r.coachId.value).value;
      var g := if IsVisitor(r) then None else Lookup(accounts, r.gymzerId.value);
      var m := Compose(r, coach, g, id, now);
      && m.telephone.Some?
      && (IsVisitor(r) ==> !IsBlank(m.nom) && !IsBlank(m.email) && !IsBlank(m.telephone) && IsEmail(m.email.value))
      && (!IsVisitor(r) && IsBlank(r.telephone) ==> m.telephone == Some(g.value.phoneNumber))
  {
  }

  /** markMessageAsRead on the table. */
  function MarkRead(messages: map<MessageId, ContactMessage>, id: MessageId): map<MessageId, ContactMessage>
    requires id in messages
  {
    messages[id := messages[id].(lu := true)]
  }

  /** Marking is idempotent and touches no other message. */
  lemma MarkReadIdempotent(messages: map<MessageId, ContactMessage>, id: MessageId)
    requires id in messages
    ensures MarkRead(MarkRead(messages, id), id) == MarkRead(messages, id)
    ensures MarkRead(messages, id)[id].lu
    ensures forall k :: k in messages && k != id ==> MarkRead(messages, id)[k] == messages[k]
  {
  }

  class ContactService {
    var messages: map<MessageId, ContactMessage>
    var nextId: MessageId

    ghost predicate Valid()
      reads this
    {
      forall k :: k in messages ==> messages[k].id == k && k < nextId
    }

    constructor ()
      ensures Valid() && messages == map[]
    {
      messages := map[];
      nextId := 0;
    }

    /** createContactMessage. `now` is the clock reading. */
    method CreateContactMessage(r: ContactMessageRequest, accounts: map<UserId, User>, now: Instant)
      returns (result: Result<ContactMessageResponse, ContactError>)
      requires Valid()
      modifies this
      ensures Valid()
      ensures
        match Create(r, accounts, old(nextId), now)
        case Err(e) => result == Err(e) && unchanged(this)
        case Ok(m) => messages == old(messages)[old(nextId) := m] && nextId == old(nextId) + 1 && result == Ok(FromEntity(m))
    {
      ghost var admission := Admission(r, accounts);
      var e := ValidateContactMessage(r);
      if e.Some? {
        return Err(e.value);
      }
      var coach := Lookup(accounts, r.coachId.value);
      if coach.None? {
        assert admission == Some(CoachNotFound);
        return Err(CoachNotFound);
      }
      if coach.value.role != COACH {
        assert admission == Some(RecipientNotCoach);
        return Err(RecipientNotCoach);
      }
      var gymzer: Option<User> := None;
      if r.gymzerId.Some? && r.gymzerId.value > 0 {
        gymzer := Lookup(accounts, r.gymzerId.value);
        if gymzer.None? {
          assert admission == Some(SenderNotFound);
          return Err(SenderNotFound);
        }
        if gymzer.value.role != GYMZER {
          assert admission == Some(SenderNotGymzer);
          return Err(SenderNotGymzer);
        }
      }
      assert admission.None?;
      var m := Compose(r, coach.value, gymzer, nextId, now);
      assert Create(r, accounts, nextId, now) == Ok(m);
      Save(m);
      result := Ok(FromEntity(m));
    }

    /** contactMessageRepository.save of a new message. */
    method Save(m: ContactMessage)
      requires Valid() && m.id == nextId
      modifies this
      ensures Valid()
      ensures messages == old(messages)[old(nextId) := m] && nextId == old(nextId) + 1
    {
      messages := messages[nextId := m];
      nextId := nextId + 1;
    }

    /** markMessageAsRead. */
    method MarkMessageAsRead(id: MessageId) returns (result: Result<ContactMessageResponse, ContactError>)
      requires Valid()
      modifies this
      ensures Valid()
      ensures result.Err? <==> id !in old(messages)
      ensures result.Err? ==> result.error == MessageNotFound && unchanged(this)
      ensures result.Ok? ==> messages == MarkRead(old(messages), id) && result.value == FromEntity(messages[id])
    {
      if id !in messages {
        return Err(MessageNotFound);
      }
      var m := messages[id];
      m := m.(lu := true);
      messages := messages[id := m];
      result := Ok(FromEntity(m));
    }
  }
}

=== FILE: course_controller.dfy ===
/** CourseController: who may create, change and delete courses and exercises, and
    the purchased-courses listing. Accounts are looked up by id in `accounts`
    (userService.getUserById / userRepository.findById). */
module CourseControl {
  import opened Wrappers
  import opened Roles
  import opened Users
  import opened Decimals
  import opened CourseLevels
  import opened Courses

  /** The HTTP statuses the modelled endpoints answer with. */
  datatype Status = Created | Success | NoContent | BadRequest | Forbidden | NotFound | InternalError

  function Lookup(accounts: map<UserId, User>, id: UserId): Option<User> {
    if id in accounts then Some(accounts[id]) else None
  }

  predicate IsCoach(u: Option<User>) {
    u.Some? && u.value.role == COACH
  }

  /** The coach who owns course c. */
  predicate Owns(u: Option<User>, c: Course) {
    IsCoach(u) && c.coachId == u.value.id
  }

  /** deleteCourse's permission: an ADMIN, or the COACH owning the course. */
  predicate MayDeleteCourse(u: Option<User>, c: Course) {
    u.Some? && (u.value.role == ADMIN || (u.value.role == COACH && c.coachId == u.value.id))
  }

  /** addExerciseToCourse's and deleteExercise's permission: the COACH owning the course. */
  predicate MayEditExercises(u: Option<User>, c: Course) {
    !(u.None? || u.value.role != COACH || c.coachId != u.value.id)
  }

  /** The two permissions differ exactly by the ADMIN: whoever may edit a course's
      exercises may delete it, and an ADMIN may delete every course but edit none. */
  lemma PermissionsCompared(u: Option<User>, c: Course)
    ensures MayEditExercises(u, c) <==> Owns(u, c)
    ensures MayEditExercises(u, c) ==> MayDeleteCourse(u, c)
    ensures MayDeleteCourse(u, c) && !MayEditExercises(u, c) <==> u.Some? && u.value.role == ADMIN
    ensures u.Some? && u.value.role in {GYMZER, GYM} ==> !MayDeleteCourse(u, c) && !MayEditExercises(u, c)
  {
  }

  /** The course form as createCourse and updateCourse bind it: never any exercises. */
  function FormRequest(title: Option<string>, description: Option<string>, level: Option<CourseLevel>,
                       durationMinutes: Option<int>, price: Option<Decimal>, paid: bool, firstVideoFree: bool): (r: CourseRequest)
    ensures r.exercises.None?
  {
    CourseRequest(title, description, level, durationMinutes, price, paid, firstVideoFree, None)
  }

  /** createCourse: the coachId must name a COACH (otherwise 400); the course is
      created without exercises. */
  method CreateCourse(svc: CourseService, accounts: map<UserId, User>, request: CourseRequest, coachId: UserId)
    returns (status: Status, id: Option<CourseId>)
    requires svc.Valid() && request.exercises.None?
    modifies svc
    ensures svc.Valid()
    ensures !IsCoach(Lookup(accounts, coachId)) ==> status == BadRequest && unchanged(svc)
    ensures status == Created <==> IsCoach(Lookup(accounts, coachId)) && ValidateCourseRequest(request).None?
    ensures status != Created ==> unchanged(svc) && status == BadRequest
    ensures status == Created ==>
      && id.Some? && id.value == old(svc.nextCourseId) && id.value !in old(svc.courses)
      && svc.courses == old(svc.courses)[id.value := Course(id.value, request.title, request.description, request.level,
                                                            request.durationMinutes, request.price, request.paid,
                                                            request.firstVideoFree, coachId, 0, [])]
      && svc.exerciseCourse == old(svc.exerciseCourse)
      && svc.nextExerciseId == old(svc.nextExerciseId) && svc.nextCourseId == old(svc.nextCourseId) + 1
  {
    var coach := Lookup(accounts, coachId);
    if coach.None? || coach.value.role != COACH {
      return BadRequest, None;
    }
    var r := svc.CreateCourseWithExercises(request, coachId);
    if r.Err? {
      return BadRequest, None;
    }
    status, id := Created, Some(r.value);
  }

  /** updateCourse: forbidden unless coachId names a COACH (ownership is not checked);
      the form carries no exercises, so a successful update leaves the course with
      none and an exercise count of 0. */
  method UpdateCourse(svc: CourseService, accounts: map<UserId, User>, courseId: CourseId, request: CourseRequest, coachId: UserId)
    returns (status: Status)
    requires svc.Valid() && request.exercises.None?
    modifies svc
    ensures svc.Valid()
    ensures !IsCoach(Lookup(accounts, coachId)) ==> status == Forbidden && unchanged(svc)
    ensures IsCoach(Lookup(accounts, coachId)) && courseId !in old(svc.courses) ==> status == NotFound && unchanged(svc)
    ensures status == Success <==> IsCoach(Lookup(accounts, coachId)) && courseId in old(svc.courses)
    ensures status == Success ==>
      && courseId in old(svc.courses)
      && svc.courses == old(svc.courses)[courseId := Course(courseId, request.title, request.description, request.level,
                                                            request.durationMinutes, request.price, request.paid,
                                                            request.firstVideoFree, old(svc.courses[courseId]).coachId, 0, [])]
      && svc.exerciseCourse == old(svc.exerciseCourse) - IdSet(old(svc.courses[courseId]).exercises)
      && svc.nextExerciseId == old(svc.nextExerciseId) && svc.nextCourseId == old(svc.nextCourseId)
  {
    var coach := Lookup(accounts, coachId);
    if coach.None? || coach.value.role != COACH {
      return Forbidden;
    }
    var err := svc.UpdateCourse(courseId, request);
    if err.Some? {
      return NotFound;
    }
    status := Success;
  }

  /** addExerciseToCourse: 404 for an unknown course, then 403 unless the owning
      COACH, then the exercise is appended. A rejected request is a 500. */
  method AddExerciseToCourse(svc: CourseService, accounts: map<UserId, User>, courseId: CourseId, request: ExerciseRequest, coachId: UserId)
    returns (status: Status)
    requires svc.Valid()
    modifies svc
    ensures svc.Valid()
    ensures courseId !in old(svc.courses) ==> status == NotFound
    ensures courseId in old(svc.courses) && !MayEditExercises(Lookup(accounts, coachId), old(svc.courses[courseId])) ==> status == Forbidden
    ensures status == Created <==>
      courseId in old(svc.courses) && MayEditExercises(Lookup(accounts, coachId), old(svc.courses[courseId]))
      && ValidateExerciseRequest(request).None?
    ensures status != Created ==> unchanged(svc)
    ensures status == Created ==>
      var c := old(svc.courses[courseId]);
      var added := MakeExercise(request, old(svc.nextExerciseId), |c.exercises|);
      && svc.courses == old(svc.courses)[courseId := c.(exercises := c.exercises + [added], exerciseCount := |c.exercises| + 1)]
      && svc.exerciseCourse == old(svc.exerciseCourse)[added.id := courseId]
      && svc.nextExerciseId == old(svc.nextExerciseId) + 1 && svc.nextCourseId == old(svc.nextCourseId)
  {
    if courseId !in svc.courses {
      return NotFound;
    }
    var course := svc.courses[courseId];
    var coach := Lookup(accounts, coachId);
    if coach.None? || coach.value.role != COACH || course.coachId != coach.value.id {
      return Forbidden;
    }
    var r := svc.CreateExercise(request, courseId);
    if r.Err? {
      return InternalError;
    }
    status := Created;
  }

  /** deleteCourse: 404 for an unknown course, then 403 unless ADMIN or the owning COACH. */
  method DeleteCourse(svc: CourseService, accounts: map<UserId, User>, courseId: CourseId, userId: UserId)
    returns (status: Status)
    requires svc.Valid()
    modifies svc
    ensures svc.Valid()
    ensures courseId !in old(svc.courses) ==> status == NotFound
    ensures status == NoContent <==> courseId in old(svc.courses) && MayDeleteCourse(Lookup(accounts, userId), old(svc.courses[courseId]))
    ensures status != NoContent ==> unchanged(svc)
    ensures status == NoContent ==>
      && svc.courses == old(svc.courses) - {courseId}
      && svc.exerciseCourse == old(svc.exerciseCourse) - IdSet(old(svc.courses[courseId]).exercises)
  {
    var user := Lookup(accounts, userId);
    if courseId !in svc.courses {
      return NotFound;
    }
    var course := svc.courses[courseId];
    if user.None? || !(user.value.role == ADMIN || (user.value.role == COACH && course.coachId == user.value.id)) {
      return Forbidden;
    }
    var err := svc.DeleteCourse(courseId);
    status := NoContent;
  }

  /** deleteExercise: 404 for an unknown exercise comes before the permission check,
      which requires the COACH owning the exercise's course. The role is tested before
      the course is read, so only a COACH reaches an exercise without a course, and
      that dereference fails with a 500. */
  method DeleteExercise(svc: CourseService, accounts: map<UserId, User>, exerciseId: ExerciseId, coachId: UserId)
    returns (status: Status)
    requires svc.Valid()
    modifies svc
    ensures svc.Valid()
    ensures status == NotFound <==> exerciseId !in old(svc.exerciseCourse)
    ensures status == Forbidden <==>
      && exerciseId in old(svc.exerciseCourse)
      && (!IsCoach(Lookup(accounts, coachId))
          || (old(svc.exerciseCourse[exerciseId]) in old(svc.courses)
              && old(svc.courses[svc.exerciseCourse[exerciseId]]).coachId != Lookup(accounts, coachId).value.id))
    ensures status == InternalError <==>
      && exerciseId in old(svc.exerciseCourse)
      && IsCoach(Lookup(accounts, coachId))
      && old(svc.exerciseCourse[exerciseId]) !in old(svc.courses)
    ensures status == NoContent <==>
      && exerciseId in old(svc.exerciseCourse)
      && old(svc.exerciseCourse[exerciseId]) in old(svc.courses)
      && MayEditExercises(Lookup(accounts, coachId), old(svc.courses[svc.exerciseCourse[exerciseId]]))
    ensures status != NoContent ==> unchanged(svc)
    ensures status == NoContent ==>
      var c := old(svc.exerciseCourse[exerciseId]);
      var rest := Remove(old(svc.courses[c]).exercises, exerciseId);
      && svc.courses == old(svc.courses)[c := old(svc.courses[c]).(exercises := Renumbered(rest), exerciseCount := |rest|)]
      && svc.exerciseCourse == old(svc.exerciseCourse) - {exerciseId}
      && svc.nextExerciseId == old(svc.nextExerciseId) && svc.nextCourseId == old(svc.nextCourseId)
  {
    var coach := Lookup(accounts, coachId);
    if exerciseId !in svc.exerciseCourse {
      return NotFound;
    }
    if coach.None? || coach.value.role != COACH {
      return Forbidden;
    }
    var courseId := svc.exerciseCourse[exerciseId];
    if courseId !in svc.courses {
      // exercise.getCourse() is null: the owner test dereferences it
      return InternalError;
    }
    var course := svc.courses[courseId];
    if course.coachId != coach.value.id {
      return Forbidden;
    }
    var err := svc.DeleteExercise(exerciseId);
    status := NoContent;
  }

  // ---------------------------------------------------------------------------
  // getPurchasedCourses

  /** An enrollment as the listing sees it. These are the rows that `Payments.Enrollment`
      models; the listing reads only the user id of each (Enrollment.getUserId, null when
      the enrollment has no user). */
  datatype EnrollmentRow = EnrollmentRow(userId: Option<UserId>)

  /** A course of findAll with its enrollment list, which may be null and may hold nulls. */
  datatype CourseRow = CourseRow(courseId: CourseId, enrollments: Option<seq<Option<EnrollmentRow>>>)

  predicate EnrolledIn(c: CourseRow, userId: UserId) {
    c.enrollments.Some? && Some(EnrollmentRow(Some(userId))) in c.enrollments.value
  }

  /** The courses with an enrollment of that user, in findAll order. */
  function PurchasedBy(all: seq<CourseRow>, userId: UserId): seq<CourseRow> {
    if all == [] then []
    else if EnrolledIn(all[0], userId) then [all[0]] + PurchasedBy(all[1..], userId)
    else PurchasedBy(all[1..], userId)
  }

  /** The listing holds exactly the enrolled courses, each as often as findAll lists
      it, so at most once when findAll has no repeats. */
  lemma {:induction false} PurchasedByMembers(all: seq<CourseRow>, userId: UserId)
    ensures |PurchasedBy(all, userId)| <= |all|
    ensures forall c :: c in PurchasedBy(all, userId) <==> c in all && EnrolledIn(c, userId)
    ensures forall c :: multiset(PurchasedBy(all, userId))[c] == if EnrolledIn(c, userId) then multiset(all)[c] else 0
  {
    if all != [] {
      PurchasedByMembers(all[1..], userId);
      assert all == [all[0]] + all[1..];
    }
  }

  lemma {:induction false} PurchasedByAppend(all: seq<CourseRow>, c: CourseRow, userId: UserId)
    ensures PurchasedBy(all + [c], userId) == PurchasedBy(all, userId) + (if EnrolledIn(c, userId) then [c] else [])
  {
    if all == [] {
      assert [c][1..] == [];
    } else {
      assert (all + [c])[1..] == all[1..] + [c];
      PurchasedByAppend(all[1..], c, userId);
    }
  }

  /** getPurchasedCourses: for each course, scan its enrollments and stop at the
      first one of the user. */
  method GetPurchasedCourses(all: seq<CourseRow>, userId: UserId) returns (purchased: seq<CourseRow>)
    ensures purchased == PurchasedBy(all, userId)
  {
    purchased := [];
    var i := 0;
    while i < |all|
      invariant 0 <= i <= |all|
      invariant purchased == PurchasedBy(all[..i], userId)
    {
      var course := all[i];
      var found := false;
      if course.enrollments.Some? && |course.enrollments.value| > 0 {
        var es := course.enrollments.value;
        var j := 0;
        while j < |es|
          invariant 0 <= j <= |es|
          invariant !found ==> Some(EnrollmentRow(Some(userId))) !in es[..j]
          invariant found ==> EnrolledIn(course, userId)
          decreases |es| - j, !found
        {
          if es[j].Some? && es[j].value.userId == Some(userId) {
            found := true;
            break;
          }
          assert es[..j + 1] == es[..j] + [es[j]];
          j := j + 1;
        }
        assert !found ==> es[..j] == es;
      }
      PurchasedByAppend(all[..i], course, userId);
      assert all[..i + 1] == all[..i] + [course];
      if found {
        purchased := purchased + [course];
      }
      i := i + 1;
    }
    assert all[..i] == all;
  }
}

=== FILE: course_level.dfy ===
/** Course difficulty levels (model/CourseLevel.java) and their case-insensitive parser. */
module CourseLevels {
  import opened Wrappers
  import opened JavaText

  datatype CourseLevel = DEBUTANT | INTERMEDIAIRE | AVANCE

  function Name(l: CourseLevel): string {
    match l
    case DEBUTANT => "DEBUTANT"
    case INTERMEDIAIRE => "INTERMEDIAIRE"
    case AVANCE => "AVANCE"
  }

  /** CourseLevel.fromString; None stands for the IllegalArgumentException of the
      default branch. */
  function FromString(s: string): (r: Option<CourseLevel>)
    ensures forall l :: r == Some(l) <==> ToUpper(s) == Name(l)
    ensures r == None <==> forall l :: ToUpper(s) != Name(l)
  {
    match ToUpper(s)
    case "DEBUTANT" => Some(DEBUTANT)
    case "INTERMEDIAIRE" => Some(INTERMEDIAIRE)
    case "AVANCE" => Some(AVANCE)
    case _ => None
  }

  lemma {:induction false} FromStringIgnoresCase(s: string, l: CourseLevel)
    requires |s| == |Name(l)|
    requires forall i :: 0 <= i < |s| ==> UpperChar(s[i]) == Name(l)[i]
    ensures FromString(s) == Some(l)
  {
    assert ToUpper(s) == Name(l);
  }

  lemma FromStringOfUpper(s: string)
    ensures FromString(ToUpper(s)) == FromString(s)
  {
    ToUpperIdempotent(s);
  }

  lemma FromStringOfName(l: CourseLevel)
    ensures FromString(Name(l)) == Some(l)
  {
    assert ToUpper(Name(l)) == Name(l);
  }
}

=== FILE: course_service.dfy ===
/** CourseService: courses with an ordered list of exercises. Every course keeps
    `exerciseCount` equal to the length of its list and the `orderIndex` of its
    exercises equal to their positions 0..n-1. */
module Courses {
  import opened Wrappers
  import opened JavaText
  import opened Users
  import opened CourseLevels
  import opened Decimals

  type CourseId = nat
  type ExerciseId = nat

  /** A course_exercise row. The video is only recorded as present or absent. */
  datatype Exercise = Exercise(
    id: ExerciseId,
    name: Option<string>,
    description: Option<string>,
    durationSeconds: Option<int>,
    repetitions: Option<string>,
    orderIndex: int,
    locked: bool,
    freePreview: bool,
    hasVideo: bool)

  /** ExerciseRequest; `video` is the uploaded file's bytes, if any. */
  datatype ExerciseRequest = ExerciseRequest(
    name: Option<string>,
    description: Option<string>,
    durationSeconds: Option<int>,
    repetitions: Option<string>,
    locked: bool,
    freePreview: bool,
    video: Option<Bytes>)

  /** CourseRequest, without the thumbnail file. */
  datatype CourseRequest = CourseRequest(
    title: Option<string>,
    description: Option<string>,
    level: Option<CourseLevel>,
    durationMinutes: Option<int>,
    price: Option<Decimal>,
    paid: bool,
    firstVideoFree: bool,
    exercises: Option<seq<ExerciseRequest>>)

  /** A course row with its exercise list. */
  datatype Course = Course(
    id: CourseId,
    title: Option<string>,
    description: Option<string>,
    level: Option<CourseLevel>,
    durationMinutes: Option<int>,
    price: Option<Decimal>,
    paid: bool,
    firstVideoFree: bool,
    coachId: UserId,
    exerciseCount: int,
    exercises: seq<Exercise>)

  datatype CourseError =
    | MissingTitle | MissingLevel | MissingDuration | MissingPrice
    | MissingExerciseName | CourseNotFound | ExerciseNotFound

  // ---------------------------------------------------------------------------
  // Validation

  /** validateCourseRequest: the first missing field, in the order title, level,
      duration, price; None when the request is acceptable. */
  function ValidateCourseRequest(r: CourseRequest): (e: Option<CourseError>)
    ensures e.None? <==> r.title.Some? && r.title.value != [] && r.level.Some? && r.durationMinutes.Some? && r.price.Some?
    ensures e == Some(MissingTitle) <==> r.title.None? || r.title.value == []
    ensures e == Some(MissingLevel) ==> r.level.None?
    ensures e == Some(MissingDuration) ==> r.durationMinutes.None? && r.level.Some?
    ensures e == Some(MissingPrice) ==> r.price.None? && r.durationMinutes.Some? && r.level.Some?
    ensures e.Some? ==> e.value in {MissingTitle, MissingLevel, MissingDuration, MissingPrice}
  {
    if r.title.None? || r.title.value == [] then Some(MissingTitle)
    else if r.level.None? then Some(MissingLevel)
    else if r.durationMinutes.None? then Some(MissingDuration)
    else if r.price.None? then Some(MissingPrice)
    else None
  }

  /** validateExerciseRequest: a null or empty name is refused. */
  function ValidateExerciseRequest(r: ExerciseRequest): (e: Option<CourseError>)
    ensures e.None? <==> r.name.Some? && r.name.value != []
    ensures e.Some? ==> e.value == MissingExerciseName
  {
    if r.name.None? || r.name.value == [] then Some(MissingExerciseName) else None
  }

  // ---------------------------------------------------------------------------
  // File names

  /** The extension generateUniqueFileName appends to a fresh UUID: everything from
      the original name's last '.', or ".mp4" for a null name or one without a dot. */
  function FileExtension(name: Option<string>): (ext: string)
    ensures name.None? || !Contains(name.value, '.') ==> ext == ".mp4"
    ensures name.Some? && Contains(name.value, '.') ==>
      && |ext| >= 1 && ext[0] == '.'
      && EndsWith(name.value, ext)
      && forall i :: 1 <= i < |ext| ==> ext[i] != '.'
  {
    if name.None? || !Contains(name.value, '.') then ".mp4"
    else name.value[LastIndexOf(name.value, '.')..]
  }

  // ---------------------------------------------------------------------------
  // Lists of exercises

  /** A request's exercise list, a null list read as empty. */
  function Requests(rs: Option<seq<ExerciseRequest>>): seq<ExerciseRequest> {
    if rs.Some? then rs.value else []
  }

  predicate AllValid(rs: seq<ExerciseRequest>) {
    forall i :: 0 <= i < |rs| ==> ValidateExerciseRequest(rs[i]).None?
  }

  /** The ordering invariant: each exercise's orderIndex is its position. */
  predicate Numbered(xs: seq<Exercise>) {
    forall i :: 0 <= i < |xs| ==> xs[i].orderIndex == i
  }

  predicate DistinctIds(xs: seq<Exercise>) {
    forall i, j :: 0 <= i < j < |xs| ==> xs[i].id != xs[j].id
  }

  predicate HasId(xs: seq<Exercise>, id: ExerciseId) {
    exists i :: 0 <= i < |xs| && xs[i].id == id
  }

  /** The ids of the exercises of a list. */
  function IdSet(xs: seq<Exercise>): set<ExerciseId> {
    set i | 0 <= i < |xs| :: xs[i].id
  }

  /** Index entries for n freshly numbered exercises of course c. */
  function FreshIds(first: ExerciseId, n: nat, c: CourseId): (m: map<ExerciseId, CourseId>)
    ensures forall e :: e in m <==> first <= e < first + n
    ensures forall e :: e in m ==> m[e] == c
  {
    if n == 0 then map[] else FreshIds(first, n - 1, c)[first + n - 1 := c]
  }

  predicate WellOrdered(c: Course) {
    c.exerciseCount == |c.exercises| && Numbered(c.exercises) && DistinctIds(c.exercises)
  }

  /** createCourseExercise / createExercise: the row built from a request. */
  function MakeExercise(r: ExerciseRequest, id: ExerciseId, orderIndex: int): Exercise {
    Exercise(id, r.name, r.description, r.durationSeconds, r.repetitions, orderIndex,
             r.locked, r.freePreview, r.video.Some? && |r.video.value| > 0)
  }

  /** The list built from requests, the i-th with id firstId + i and orderIndex i. */
  function BuiltFrom(rs: seq<ExerciseRequest>, firstId: ExerciseId): (xs: seq<Exercise>)
    ensures |xs| == |rs| && Numbered(xs) && DistinctIds(xs)
    ensures forall i :: 0 <= i < |rs| ==> xs[i].id == firstId + i
  {
    seq(|rs|, i requires 0 <= i < |rs| => MakeExercise(rs[i], firstId + i, i))
  }

  /** The list with the exercise of that id taken out. */
  function Remove(xs: seq<Exercise>, id: ExerciseId): (ys: seq<Exercise>)
  {
    if xs == [] then []
    else if xs[0].id == id then Remove(xs[1..], id)
    else [xs[0]] + Remove(xs[1..], id)
  }

  /** With distinct ids, Remove takes out exactly the one matching element. */
  lemma {:induction false} RemoveAt(xs: seq<Exercise>, k: nat)
    requires k < |xs| && DistinctIds(xs)
    ensures Remove(xs, xs[k].id) == xs[..k] + xs[k + 1..]
  {
    if k == 0 {
      RemoveAbsent(xs[1..], xs[0].id);
      assert xs[1..] == xs[..0] + xs[1..];
    } else {
      RemoveAt(xs[1..], k - 1);
      assert xs[1..][k - 1].id == xs[k].id;
      assert xs[..k] + xs[k + 1..] == [xs[0]] + (xs[1..][..k - 1] + xs[1..][k..]);
    }
  }

  lemma {:induction false} RemoveAbsent(xs: seq<Exercise>, id: ExerciseId)
    requires forall i :: 0 <= i < |xs| ==> xs[i].id != id
    ensures Remove(xs, id) == xs
  {
    if xs != [] {
      RemoveAbsent(xs[1..], id);
    }
  }

  /** deleteExercise shortens the list by one exactly when the exercise is in it. */
  lemma RemoveLength(xs: seq<Exercise>, id: ExerciseId)
    requires DistinctIds(xs)
    ensures |Remove(xs, id)| == if HasId(xs, id) then |xs| - 1 else |xs|
    ensures !HasId(Remove(xs, id), id)
  {
    if HasId(xs, id) {
      var k :| 0 <= k < |xs| && xs[k].id == id;
      RemoveAt(xs, k);
      var rest := xs[..k] + xs[k + 1..];
      forall i | 0 <= i < |rest| ensures rest[i].id != id {
        if i < k { assert rest[i] == xs[i]; } else { assert rest[i] == xs[i + 1]; }
      }
    } else {
      RemoveAbsent(xs, id);
    }
  }

  /** The intended list after deleteExercise: the rest, renumbered by position. */
  function Renumbered(xs: seq<Exercise>): (ys: seq<Exercise>)
    ensures |ys| == |xs| && Numbered(ys)
    ensures forall i :: 0 <= i < |xs| ==> ys[i] == xs[i].(orderIndex := i)
  {
    seq(|xs|, i requires 0 <= i < |xs| => xs[i].(orderIndex := i))
  }

  // ---------------------------------------------------------------------------
  // reorderExercises

  /** The order in which the stable sort by orderIndex places positions p and q:
      by orderIndex, ties kept in list order. */
  predicate Before(xs: seq<Exercise>, p: nat, q: nat)
    requires p < |xs| && q < |xs|
  {
    xs[p].orderIndex < xs[q].orderIndex || (xs[p].orderIndex == xs[q].orderIndex && p < q)
  }

  /** `order` lists every position of xs exactly once, in the stable sorted order. */
  predicate SortedPositions(xs: seq<Exercise>, order: seq<nat>) {
    && |order| == |xs|
    && (forall a :: 0 <= a < |order| ==> order[a] < |xs|)
    && (forall p :: 0 <= p < |xs| ==> p in order)
    && (forall a, b :: 0 <= a < b < |order| ==> Before(xs, order[a], order[b]))
  }

  /** The copy `new ArrayList<>(exercises)` sorted with a stable sort on orderIndex,
      given as the list of original positions. */
  method SortByOrderIndex(xs: seq<Exercise>) returns (order: seq<nat>)
    ensures SortedPositions(xs, order)
  {
    order := [];
    var k := 0;
    while k < |xs|
      invariant 0 <= k <= |xs|
      invariant |order| == k
      invariant forall a :: 0 <= a < k ==> order[a] < k
      invariant forall p :: 0 <= p < k ==> p in order
      invariant forall a, b :: 0 <= a < b < k ==> Before(xs, order[a], order[b])
    {
      var j := 0;
      while j < k && xs[order[j]].orderIndex <= xs[k].orderIndex
        invariant 0 <= j <= k
        invariant forall a :: 0 <= a < j ==> xs[order[a]].orderIndex <= xs[k].orderIndex
      {
        j := j + 1;
      }
      assert forall b :: j <= b < k ==> xs[k].orderIndex < xs[order[b]].orderIndex by {
        if j < k {
          assert xs[k].orderIndex < xs[order[j]].orderIndex;
          forall b | j < b < k ensures xs[k].orderIndex < xs[order[b]].orderIndex {
            assert Before(xs, order[j], order[b]);
          }
        }
      }
      ghost var prev := order;
      order := order[..j] + [k] + order[j..];
      assert forall a :: 0 <= a < j ==> order[a] == prev[a];
      assert forall a :: j < a <= k ==> order[a] == prev[a - 1];
      forall p | 0 <= p < k + 1 ensures p in order {
        if p < k {
          assert p in prev;
          var a :| 0 <= a < k && prev[a] == p;
          if a < j { assert order[a] == p; } else { assert order[a + 1] == p; }
        } else {
          assert order[j] == k;
        }
      }
      k := k + 1;
    }
  }

  /** reorderExercises: the sorted copy's i-th exercise gets orderIndex i; the list
      itself keeps its order. The new indices are a permutation of 0..n-1 that
      keeps the stable order of the old ones, and nothing else changes. */
  method ReorderExercises(xs: seq<Exercise>) returns (ys: seq<Exercise>)
    ensures |ys| == |xs|
    ensures forall p :: 0 <= p < |xs| ==> ys[p] == xs[p].(orderIndex := ys[p].orderIndex)
    ensures forall p :: 0 <= p < |xs| ==> 0 <= ys[p].orderIndex < |xs|
    ensures forall p, q :: 0 <= p < q < |xs| ==> ys[p].orderIndex != ys[q].orderIndex
    ensures forall p, q :: 0 <= p < |xs| && 0 <= q < |xs| && Before(xs, p, q) ==> ys[p].orderIndex < ys[q].orderIndex
  {
    var order := SortByOrderIndex(xs);
    ys := xs;
    var i := 0;
    while i < |order|
      invariant 0 <= i <= |order|
      invariant |ys| == |xs|
      invariant forall p :: 0 <= p < |xs| ==> ys[p] == xs[p].(orderIndex := ys[p].orderIndex)
      invariant forall a :: 0 <= a < i ==> ys[order[a]].orderIndex == a
    {
      forall a | 0 <= a < i ensures order[a] != order[i] {
        assert Before(xs, order[a], order[i]);
      }
      ys := ys[order[i] := ys[order[i]].(orderIndex := i)];
      i := i + 1;
    }
    forall p | 0 <= p < |xs| ensures exists a :: 0 <= a < |order| && order[a] == p && ys[p].orderIndex == a {
      assert p in order;
    }
    forall p, q | 0 <= p < |xs| && 0 <= q < |xs| && Before(xs, p, q)
      ensures ys[p].orderIndex < ys[q].orderIndex
    {
      var a :| 0 <= a < |order| && order[a] == p && ys[p].orderIndex == a;
      var b :| 0 <= b < |order| && order[b] == q && ys[q].orderIndex == b;
    }
  }

  /** Indices that are distinct, in 0..n-1 and increasing along the list are the
      positions themselves. */
  lemma {:induction false} IncreasingIndicesArePositions(ys: seq<Exercise>)
    requires forall p :: 0 <= p < |ys| ==> 0 <= ys[p].orderIndex < |ys|
    requires forall p, q :: 0 <= p < q < |ys| ==> ys[p].orderIndex < ys[q].orderIndex
    ensures Numbered(ys)
  {
    forall p | 0 <= p < |ys| ensures ys[p].orderIndex == p {
      Gap(ys, 0, p);
      Gap(ys, p, |ys| - 1);
    }
  }

  lemma {:induction false} Gap(ys: seq<Exercise>, p: nat, q: nat)
    requires p <= q < |ys|
    requires forall a, b :: 0 <= a < b < |ys| ==> ys[a].orderIndex < ys[b].orderIndex
    ensures ys[q].orderIndex - ys[p].orderIndex >= q - p
    decreases q - p
  {
    if p < q {
      Gap(ys, p + 1, q);
    }
  }

  /** Removing one exercise from a numbered list and reordering renumbers the rest
      by position: the invariant survives deleteExercise. */
  lemma ReorderAfterRemoval(xs: seq<Exercise>, ys: seq<Exercise>)
    requires forall p, q :: 0 <= p < q < |xs| ==> xs[p].orderIndex < xs[q].orderIndex
    requires |ys| == |xs|
    requires forall p :: 0 <= p < |xs| ==> ys[p] == xs[p].(orderIndex := ys[p].orderIndex)
    requires forall p :: 0 <= p < |xs| ==> 0 <= ys[p].orderIndex < |xs|
    requires forall p, q :: 0 <= p < |xs| && 0 <= q < |xs| && Before(xs, p, q) ==> ys[p].orderIndex < ys[q].orderIndex
    ensures ys == Renumbered(xs)
  {
    forall p, q | 0 <= p < q < |ys| ensures ys[p].orderIndex < ys[q].orderIndex {
      assert Before(xs, p, q);
    }
    IncreasingIndicesArePositions(ys);
  }

  /** `List.remove` of deleteExercise: a linear search for the exercise and its
      removal. On a numbered list with distinct ids what is left keeps distinct ids
      and strictly increasing indices. */
  method RemoveExercise(xs: seq<Exercise>, id: ExerciseId) returns (rest: seq<Exercise>)
    requires DistinctIds(xs)
    ensures rest == Remove(xs, id)
    ensures DistinctIds(rest)
    ensures forall i :: 0 <= i < |rest| ==> rest[i].id != id && exists j :: 0 <= j < |xs| && xs[j] == rest[i]
    ensures Numbered(xs) ==> forall p, q :: 0 <= p < q < |rest| ==> rest[p].orderIndex < rest[q].orderIndex
  {
    var k := 0;
    while k < |xs| && xs[k].id != id
      invariant 0 <= k <= |xs|
      invariant forall j :: 0 <= j < k ==> xs[j].id != id
    {
      k := k + 1;
    }
    if k < |xs| {
      RemoveAt(xs, k);
      rest := xs[..k] + xs[k + 1..];
      forall i | 0 <= i < |rest| ensures rest[i] == xs[if i < k then i else i + 1] { }
    } else {
      RemoveAbsent(xs, id);
      rest := xs;
    }
  }

  /** The list part of deleteExercise: remove, then reorderExercises on what is
      left. On a numbered list with distinct ids the result is the rest renumbered
      by position. */
  method RemoveAndReorder(xs: seq<Exercise>, id: ExerciseId) returns (ys: seq<Exercise>)
    requires Numbered(xs) && DistinctIds(xs)
    ensures ys == Renumbered(Remove(xs, id))
    ensures DistinctIds(ys)
    ensures forall i :: 0 <= i < |ys| ==> ys[i].id != id && exists j :: 0 <= j < |xs| && xs[j].id == ys[i].id
  {
    var rest := RemoveExercise(xs, id);
    ys := ReorderExercises(rest);
    ReorderAfterRemoval(rest, ys);
  }

  // ---------------------------------------------------------------------------
  // The service

  class CourseService {
    var courses: map<CourseId, Course>
    /** The course_id column of course_exercise: the course each exercise row belongs to. */
    var exerciseCourse: map<ExerciseId, CourseId>
    var nextCourseId: CourseId
    var nextExerciseId: ExerciseId

    ghost predicate Valid()
      reads this
    {
      forall c :: c in courses ==>
        && courses[c].id == c
        && c < nextCourseId
        && WellOrdered(courses[c])
        && forall i :: 0 <= i < |courses[c].exercises| ==>
             && courses[c].exercises[i].id < nextExerciseId
             && courses[c].exercises[i].id in exerciseCourse
             && exerciseCourse[courses[c].exercises[i].id] == c
    }

    constructor ()
      ensures Valid() && courses == map[] && exerciseCourse == map[]
    {
      courses := map[];
      exerciseCourse := map[];
      nextCourseId := 0;
      nextExerciseId := 0;
    }

    /** The loop of createCourseWithExercises / updateCourseExercises: one exercise per
        request, the i-th with orderIndex i. An invalid request aborts the whole
        transaction, reported as the error of the first invalid request. */
    method BuildExercises(rs: seq<ExerciseRequest>, firstId: ExerciseId) returns (r: Result<seq<Exercise>, CourseError>)
      ensures r.Ok? <==> AllValid(rs)
      ensures r.Ok? ==> r.value == BuiltFrom(rs, firstId)
      ensures r.Err? ==> r.error == MissingExerciseName
    {
      var built: seq<Exercise> := [];
      var i := 0;
      while i < |rs|
        invariant 0 <= i <= |rs|
        invariant forall j :: 0 <= j < i ==> ValidateExerciseRequest(rs[j]).None?
        invariant built == BuiltFrom(rs[..i], firstId)
      {
        var e := ValidateExerciseRequest(rs[i]);
        if e.Some? {
          return Err(e.value);
        }
        built := built + [MakeExercise(rs[i], firstId + i, i)];
        i := i + 1;
      }
      assert rs[..i] == rs;
      r := Ok(built);
    }

    /** createCourseWithExercises. */
    method CreateCourseWithExercises(request: CourseRequest, coachId: UserId) returns (r: Result<CourseId, CourseError>)
      requires Valid()
      modifies this
      ensures Valid()
      ensures ValidateCourseRequest(request).Some? ==> r == Err(ValidateCourseRequest(request).value)
      ensures r.Ok? <==> ValidateCourseRequest(request).None? && AllValid(Requests(request.exercises))
      ensures r.Err? ==> unchanged(this)
      ensures r.Ok? ==>
        var rs := Requests(request.exercises);
        && ValidateCourseRequest(request).None?
        && r.value == old(nextCourseId) && r.value !in old(courses)
        && courses == old(courses)[r.value := Course(r.value, request.title, request.description, request.level,
                                                     request.durationMinutes, request.price, request.paid,
                                                     request.firstVideoFree, coachId, |rs|,
                                                     BuiltFrom(rs, old(nextExerciseId)))]
        && exerciseCourse == old(exerciseCourse) + FreshIds(old(nextExerciseId), |rs|, r.value)
        && nextExerciseId == old(nextExerciseId) + |rs| && nextCourseId == old(nextCourseId) + 1
    {
      var e := ValidateCourseRequest(request);
      if e.Some? {
        return Err(e.value);
      }
      var rs := Requests(request.exercises);
      var built := BuildExercises(rs, nextExerciseId);
      if built.Err? {
        return Err(built.error);
      }
      var id := nextCourseId;
      var course := Course(id, request.title, request.description, request.level, request.durationMinutes,
                           request.price, request.paid, request.firstVideoFree, coachId, 0, []);
      if |rs| > 0 {
        course := course.(exerciseCount := |built.value|, exercises := built.value);
      }
      courses := courses[id := course];
      exerciseCourse := exerciseCourse + FreshIds(nextExerciseId, |rs|, id);
      nextCourseId := nextCourseId + 1;
      nextExerciseId := nextExerciseId + |rs|;
      r := Ok(id);
    }

    /** createExercise: appended at the end with orderIndex the old length. */
    method CreateExercise(request: ExerciseRequest, courseId: CourseId) returns (r: Result<Exercise, CourseError>)
      requires Valid() && courseId in courses
      modifies this
      ensures Valid()
      ensures r.Err? <==> ValidateExerciseRequest(request).Some?
      ensures r.Err? ==> r.error == MissingExerciseName && unchanged(this)
      ensures r.Ok? ==>
        var c := old(courses[courseId]);
        && r.value == MakeExercise(request, old(nextExerciseId), |c.exercises|)
        && courses == old(courses)[courseId := c.(exercises := c.exercises + [r.value], exerciseCount := |c.exercises| + 1)]
        && exerciseCourse == old(exerciseCourse)[r.value.id := courseId]
        && nextExerciseId == old(nextExerciseId) + 1 && nextCourseId == old(nextCourseId)
    {
      var e := ValidateExerciseRequest(request);
      if e.Some? {
        return Err(e.value);
      }
      var course := courses[courseId];
      var exercise := MakeExercise(request, nextExerciseId, |course.exercises|);
      nextExerciseId := nextExerciseId + 1;
      course := course.(exercises := course.exercises + [exercise]);
      course := course.(exerciseCount := |course.exercises|);
      courses := courses[courseId := course];
      exerciseCourse := exerciseCourse[exercise.id := courseId];
      r := Ok(exercise);
    }

    /** deleteExercise: the exercise leaves its course's list, the count follows the
        list, and reorderExercises renumbers the rest by position. */
    method DeleteExercise(exerciseId: ExerciseId) returns (err: Option<CourseError>)
      requires Valid()
      modifies this
      ensures Valid()
      ensures err.Some? <==> exerciseId !in old(exerciseCourse)
      ensures err.Some? ==> err.value == ExerciseNotFound && unchanged(this)
      ensures err.None? ==>
        var c := old(exerciseCourse)[exerciseId];
        && exerciseCourse == old(exerciseCourse) - {exerciseId}
        && nextExerciseId == old(nextExerciseId) && nextCourseId == old(nextCourseId)
        && (c !in old(courses) ==> courses == old(courses))
        && (c in old(courses) ==>
              var rest := Remove(old(courses)[c].exercises, exerciseId);
              courses == old(courses)[c := old(courses)[c].(exercises := Renumbered(rest), exerciseCount := |rest|)])
    {
      if exerciseId !in exerciseCourse {
        return Some(ExerciseNotFound);
      }
      var c := exerciseCourse[exerciseId];
      if c in courses {
        var course := courses[c];
        var ys := RemoveAndReorder(course.exercises, exerciseId);
        course := course.(exercises := ys, exerciseCount := |ys|);
        courses := courses[c := course];
      }
      exerciseCourse := exerciseCourse - {exerciseId};
      err := None;
    }

    /** updateCourseExercises: every previous exercise is deleted and the list is
        rebuilt from the requests; a null or empty request list leaves none. */
    method UpdateCourseExercises(courseId: CourseId, requests: Option<seq<ExerciseRequest>>) returns (err: Option<CourseError>)
      requires Valid() && courseId in courses
      modifies this
      ensures Valid()
      ensures
        var rs := Requests(requests);
        && (err.None? <==> AllValid(rs))
        && (err.Some? ==> err.value == MissingExerciseName && unchanged(this))
        && (err.None? ==>
              var c := old(courses[courseId]);
              && courses == old(courses)[courseId := c.(exercises := BuiltFrom(rs, old(nextExerciseId)), exerciseCount := |rs|)]
              && exerciseCourse == (old(exerciseCourse) - IdSet(c.exercises)) + FreshIds(old(nextExerciseId), |rs|, courseId)
              && nextExerciseId == old(nextExerciseId) + |rs| && nextCourseId == old(nextCourseId))
    {
      var course := courses[courseId];
      var index := exerciseCourse;
      var i := 0;
      while i < |course.exercises|
        invariant 0 <= i <= |course.exercises|
        invariant index == exerciseCourse - IdSet(course.exercises[..i])
      {
        assert IdSet(course.exercises[..i + 1]) == IdSet(course.exercises[..i]) + {course.exercises[i].id};
        index := index - {course.exercises[i].id};
        i := i + 1;
      }
      assert course.exercises[..i] == course.exercises;
      course := course.(exercises := []);
      var rs := Requests(requests);
      var built := BuildExercises(rs, nextExerciseId);
      if built.Err? {
        return Some(built.error);
      }
      if |rs| > 0 {
        course := course.(exerciseCount := |built.value|, exercises := built.value);
      } else {
        course := course.(exerciseCount := 0);
      }
      courses := courses[courseId := course];
      exerciseCourse := index + FreshIds(nextExerciseId, |rs|, courseId);
      nextExerciseId := nextExerciseId + |rs|;
      err := None;
    }

    /** updateCourse: the request's fields are copied without validation, then the
        exercises are replaced by the request's. */
    method UpdateCourse(courseId: CourseId, request: CourseRequest) returns (err: Option<CourseError>)
      requires Valid()
      modifies this
      ensures Valid()
      ensures courseId !in old(courses) ==> err == Some(CourseNotFound) && unchanged(this)
      ensures err.None? <==> courseId in old(courses) && AllValid(Requests(request.exercises))
      ensures err.Some? ==> unchanged(this)
      ensures err.None? ==>
        var rs := Requests(request.exercises);
        && courseId in old(courses)
        && courses == old(courses)[courseId := Course(courseId, request.title, request.description, request.level,
                                                      request.durationMinutes, request.price, request.paid,
                                                      request.firstVideoFree, old(courses[courseId]).coachId, |rs|,
                                                      BuiltFrom(rs, old(nextExerciseId)))]
        && exerciseCourse == (old(exerciseCourse) - IdSet(old(courses[courseId]).exercises)) + FreshIds(old(nextExerciseId), |rs|, courseId)
        && nextExerciseId == old(nextExerciseId) + |rs| && nextCourseId == old(nextCourseId)
    {
      if courseId !in courses {
        return Some(CourseNotFound);
      }
      err := UpdateCourseExercises(courseId, request.exercises);
      if err.Some? {
        return;
      }
      var course := courses[courseId];
      course := course.(title := request.title, description := request.description, level := request.level,
                        durationMinutes := request.durationMinutes, price := request.price, paid := request.paid,
                        firstVideoFree := request.firstVideoFree);
      courses := courses[courseId := course];
    }

    /** deleteCourse: the course and, by cascade, its exercises. */
    method DeleteCourse(courseId: CourseId) returns (err: Option<CourseError>)
      requires Valid()
      modifies this
      ensures Valid()
      ensures err.Some? <==> courseId !in old(courses)
      ensures err.Some? ==> err.value == CourseNotFound && unchanged(this)
      ensures err.None? ==>
        && courses == old(courses) - {courseId}
        && exerciseCourse == old(exerciseCourse) - IdSet(old(courses[courseId]).exercises)
    {
      if courseId !in courses {
        return Some(CourseNotFound);
      }
      exerciseCourse := exerciseCourse - IdSet(courses[courseId].exercises);
      courses := courses - {courseId};
      err := None;
    }
  }
}

=== FILE: decimal.dfy ===
/** java.math.BigDecimal values as an unscaled integer and a decimal scale:
    the number unscaled / 10^scale. */
module Decimals {
  datatype Decimal = Decimal(unscaled: int, scale: nat)
}

=== FILE: event_participation.dfy ===
/** EventParticipation (the entity and its pre-persist hook) and
    EventParticipationService: registrations for events, by account holders or by
    anonymous visitors. */
module Participations {
  import opened Wrappers
  import opened Users
  import opened Time
  import Events

  /** An event_participation row (its id is its position in the table plus one). */
  datatype Participation = Participation(
    user: Option<User>,
    event: Events.Event,
    participationDate: Option<Instant>,
    email: Option<string>,
    firstName: Option<string>,
    phoneNumber: Option<string>)

  /** EventRegistrationRequest. */
  datatype RegistrationRequest = RegistrationRequest(
    firstName: Option<string>,
    email: Option<string>,
    phoneNumber: Option<string>)

  datatype ParticipationError = AlreadyRegistered | EmailTaken | UserNotFound | EventNotFound

  // ---------------------------------------------------------------------------
  // The pre-persist hook

  /** What EventParticipation.onCreate does to a row about to be saved. */
  function PrePersist(p: Participation, now: Instant): (q: Participation)
    ensures q.participationDate == Some(now)
    ensures q.user == p.user && q.event == p.event
    ensures p.user.None? ==> q.email == p.email && q.firstName == p.firstName && q.phoneNumber == p.phoneNumber
    ensures p.email.Some? ==> q.email == p.email
    ensures p.firstName.Some? ==> q.firstName == p.firstName
    ensures p.phoneNumber.Some? ==> q.phoneNumber == p.phoneNumber
    ensures p.user.Some? && p.email.None? ==> q.email == p.user.value.email
    ensures p.user.Some? && p.firstName.None? ==> q.firstName == p.user.value.firstName
    ensures p.user.Some? && p.phoneNumber.None? ==> q.phoneNumber == Some(p.user.value.phoneNumber)
  {
    var q := p.(participationDate := Some(now));
    if q.user.None? then q
    else
      var u := q.user.value;
      q.(email := if q.email.None? then u.email else q.email,
         firstName := if q.firstName.None? then u.firstName else q.firstName,
         phoneNumber := if q.phoneNumber.None? then Some(u.phoneNumber) else q.phoneNumber)
  }

  /** Running the hook a second time only moves the date. */
  lemma PrePersistTwice(p: Participation, t1: Instant, t2: Instant)
    ensures PrePersist(PrePersist(p, t1), t2) == PrePersist(p, t2)
  {
  }

  /** The entity, whose fields the service sets one by one before saving. */
  class EventParticipation {
    var user: Option<User>
    var event: Events.Event
    var participationDate: Option<Instant>
    var email: Option<string>
    var firstName: Option<string>
    var phoneNumber: Option<string>

    constructor (event: Events.Event)
      ensures Row() == Participation(None, event, None, None, None, None)
    {
      this.user := None;
      this.event := event;
      participationDate := None;
      email := None;
      firstName := None;
      phoneNumber := None;
    }

    function Row(): Participation
      reads this
    {
      Participation(user, event, participationDate, email, firstName, phoneNumber)
    }

    /** onCreate. */
    method OnCreate(now: Instant)
      modifies this
      ensures Row() == PrePersist(old(Row()), now)
    {
      participationDate := Some(now);
      if user.Some? {
        if email.None? {
          email := user.value.email;
        }
        if firstName.None? {
          firstName := user.value.firstName;
        }
        if phoneNumber.None? {
          phoneNumber := Some(user.value.phoneNumber);
        }
      }
    }
  }

  // ---------------------------------------------------------------------------
  // Repository queries

  predicate HasUser(p: Participation, userId: UserId) {
    p.user.Some? && p.user.value.id == userId
  }

  /** existsByUserIdAndEventId. */
  predicate ExistsByUserAndEvent(ps: seq<Participation>, userId: UserId, eventId: Events.EventId) {
    exists k :: 0 <= k < |ps| && HasUser(ps[k], userId) && ps[k].event.id == eventId
  }

  /** existsByEmailAndEventId; a null email matches a null column. */
  predicate ExistsByEmailAndEvent(ps: seq<Participation>, email: Option<string>, eventId: Events.EventId) {
    exists k :: 0 <= k < |ps| && ps[k].email == email && ps[k].event.id == eventId
  }

  /** No (user, event) pair is registered twice. */
  predicate UniquePairs(ps: seq<Participation>) {
    forall k, l :: 0 <= k < l < |ps| && ps[k].user.Some? && ps[l].user.Some? ==>
      ps[k].user.value.id != ps[l].user.value.id || ps[k].event.id != ps[l].event.id
  }

  /** Saving a row behind the duplicate guard keeps the pairs unique. */
  lemma SaveBehindGuard(ps: seq<Participation>, p: Participation)
    requires UniquePairs(ps)
    requires p.user.Some? ==> !ExistsByUserAndEvent(ps, p.user.value.id, p.event.id)
    ensures UniquePairs(ps + [p])
  {
    var qs := ps + [p];
    forall k, l | 0 <= k < l < |qs| && qs[k].user.Some? && qs[l].user.Some?
      ensures qs[k].user.value.id != qs[l].user.value.id || qs[k].event.id != qs[l].event.id
    {
      if l == |ps| {
        assert qs[k] == ps[k];
        assert !(HasUser(ps[k], p.user.value.id) && ps[k].event.id == p.event.id);
      }
    }
  }

  /** findEventsByUserParticipation: the event of each of the user's
      participations, in table order. */
  function EventsOf(ps: seq<Participation>, userId: UserId): (es: seq<Events.Event>)
    ensures |es| <= |ps|
    ensures forall e :: e in es <==> exists k :: 0 <= k < |ps| && HasUser(ps[k], userId) && ps[k].event == e
  {
    if ps == [] then []
    else
      var init := ps[..|ps| - 1];
      assert forall k :: 0 <= k < |init| ==> init[k] == ps[k];
      var rest := EventsOf(init, userId);
      if HasUser(ps[|ps| - 1], userId) then rest + [ps[|ps| - 1].event] else rest
  }

  /** A new participation's event is listed last among the user's events. */
  lemma EventsOfAppend(ps: seq<Participation>, p: Participation, userId: UserId)
    ensures EventsOf(ps + [p], userId) == EventsOf(ps, userId) + (if HasUser(p, userId) then [p.event] else [])
  {
    assert (ps + [p])[..|ps|] == ps;
  }

  // ---------------------------------------------------------------------------
  // The service

  class EventParticipationService {
    /** The event_participation table in insertion order. */
    var participations: seq<Participation>

    ghost predicate Valid()
      reads this
    {
      UniquePairs(participations)
    }

    constructor ()
      ensures Valid() && participations == []
    {
      participations := [];
    }

    /** Runs the hook on a prepared entity and saves the row. */
    method Save(p: EventParticipation, now: Instant) returns (row: Participation)
      requires Valid()
      requires p.user.Some? ==> !ExistsByUserAndEvent(participations, p.user.value.id, p.event.id)
      modifies this, p
      ensures Valid()
      ensures row == PrePersist(old(p.Row()), now)
      ensures participations == old(participations) + [row]
    {
      p.OnCreate(now);
      row := p.Row();
      SaveBehindGuard(participations, row);
      participations := participations + [row];
    }

    /** participateInEvent. */
    method ParticipateInEvent(eventId: Events.EventId, userId: UserId, users: seq<User>, events: seq<Events.Event>, now: Instant)
      returns (r: Result<Participation, ParticipationError>)
      requires Valid()
      modifies this
      ensures Valid()
      ensures r.Err? ==> participations == old(participations)
      ensures ExistsByUserAndEvent(old(participations), userId, eventId) ==> r == Err(AlreadyRegistered)
      ensures !ExistsByUserAndEvent(old(participations), userId, eventId) && FindById(users, userId).None?
        ==> r == Err(UserNotFound)
      ensures r.Ok? <==>
        !ExistsByUserAndEvent(old(participations), userId, eventId)
        && FindById(users, userId).Some? && Events.IndexOf(events, eventId).Some?
      ensures r.Ok? ==>
        var u := FindById(users, userId).value;
        && participations == old(participations) + [r.value]
        && r.value == Participation(Some(u), events[Events.IndexOf(events, eventId).value], Some(now),
                                    u.email, u.firstName, Some(u.phoneNumber))
    {
      if ExistsByUserAndEvent(participations, userId, eventId) {
        return Err(AlreadyRegistered);
      }
      var user := FindById(users, userId);
      if user.None? {
        return Err(UserNotFound);
      }
      var i := Events.IndexOf(events, eventId);
      if i.None? {
        return Err(EventNotFound);
      }
      var p := new EventParticipation(events[i.value]);
      p.user := user;
      p.email := user.value.email;
      p.firstName := user.value.firstName;
      p.phoneNumber := Some(user.value.phoneNumber);
      var row := Save(p, now);
      r := Ok(row);
    }

    /** registerForEvent: a registration without an account. */
    method RegisterForEvent(eventId: Events.EventId, request: RegistrationRequest, events: seq<Events.Event>, now: Instant)
      returns (r: Result<Participation, ParticipationError>)
      requires Valid()
      modifies this
      ensures Valid()
      ensures r.Err? ==> participations == old(participations)
      ensures Events.IndexOf(events, eventId).None? ==> r == Err(EventNotFound)
      ensures r.Ok? <==>
        Events.IndexOf(events, eventId).Some? && !ExistsByEmailAndEvent(old(participations), request.email, eventId)
      ensures r.Ok? ==>
        && participations == old(participations) + [r.value]
        && r.value == Participation(None, events[Events.IndexOf(events, eventId).value], Some(now),
                                    request.email, request.firstName, request.phoneNumber)
    {
      var i := Events.IndexOf(events, eventId);
      if i.None? {
        return Err(EventNotFound);
      }
      if ExistsByEmailAndEvent(participations, request.email, eventId) {
        return Err(EmailTaken);
      }
      var p := new EventParticipation(events[i.value]);
      p.email := request.email;
      p.firstName := request.firstName;
      p.phoneNumber := request.phoneNumber;
      var row := Save(p, now);
      r := Ok(row);
    }

    /** registerExistingUserWithForm: the form's contact details, with the hook
        falling back to the account's for the ones left null. */
    method RegisterExistingUserWithForm(eventId: Events.EventId, userId: UserId, request: RegistrationRequest,
                                        users: seq<User>, events: seq<Events.Event>, now: Instant)
      returns (r: Result<Participation, ParticipationError>)
      requires Valid()
      modifies this
      ensures Valid()
      ensures r.Err? ==> participations == old(participations)
      ensures ExistsByUserAndEvent(old(participations), userId, eventId) ==> r == Err(AlreadyRegistered)
      ensures r.Ok? <==>
        !ExistsByUserAndEvent(old(participations), userId, eventId)
        && FindById(users, userId).Some? && Events.IndexOf(events, eventId).Some?
      ensures r.Ok? ==>
        var u := FindById(users, userId).value;
        && participations == old(participations) + [r.value]
        && r.value == PrePersist(Participation(Some(u), events[Events.IndexOf(events, eventId).value], None,
                                               request.email, request.firstName, request.phoneNumber), now)
    {
      if ExistsByUserAndEvent(participations, userId, eventId) {
        return Err(AlreadyRegistered);
      }
      var user := FindById(users, userId);
      if user.None? {
        return Err(UserNotFound);
      }
      var i := Events.IndexOf(events, eventId);
      if i.None? {
        return Err(EventNotFound);
      }
      var p := new EventParticipation(events[i.value]);
      p.user := user;
      p.email := request.email;
      p.firstName := request.firstName;
      p.phoneNumber := request.phoneNumber;
      var row := Save(p, now);
      r := Ok(row);
    }
  }
}

=== FILE: events.dfy ===
/** Events (model/Event.java) and EventService: events created by coaches and gyms,
    edited and deleted by their creator only. */
module Events {
  import opened Wrappers
  import opened Roles
  import opened Users
  import opened Decimals
  import opened Time

  type EventId = nat

  /** An event row; the creator is the user record it references. */
  datatype Event = Event(
    id: EventId,
    titre: Option<string>,
    date: Option<Day>,
    adresse: Option<string>,
    prix: Option<Decimal>,
    heureDebut: Option<TimeOfDay>,
    heureFin: Option<TimeOfDay>,
    description: Option<string>,
    reglement: Option<string>,
    photo: Option<Bytes>,
    createur: Option<User>)

  /** EventService.EventDto. */
  datatype EventDto = EventDto(
    titre: Option<string>,
    date: Option<Day>,
    adresse: Option<string>,
    prix: Option<Decimal>,
    heureDebut: Option<TimeOfDay>,
    heureFin: Option<TimeOfDay>,
    description: Option<string>,
    reglement: Option<string>,
    photo: Option<Bytes>)

  datatype EventError = UserNotFound | RoleNotAllowed | EventNotFound | NotCreator

  /** Event.isCreateurAutorise: a creator is present and is a coach or a gym. */
  function IsCreateurAutorise(e: Event): (ok: bool)
    ensures ok <==> e.createur.Some? && e.createur.value.role !in {GYMZER, ADMIN}
  {
    e.createur != None && (e.createur.value.role == COACH || e.createur.value.role == GYM)
  }

  /** The eight scalar DTO fields hold in the event. */
  predicate Copies(e: Event, dto: EventDto) {
    && e.titre == dto.titre && e.date == dto.date && e.adresse == dto.adresse && e.prix == dto.prix
    && e.heureDebut == dto.heureDebut && e.heureFin == dto.heureFin
    && e.description == dto.description && e.reglement == dto.reglement
  }

  /** The event after the setters of modifierEvent. */
  function Edited(e: Event, dto: EventDto): (r: Event)
    ensures Copies(r, dto) && r.id == e.id && r.createur == e.createur
    ensures dto.photo.None? ==> r.photo == e.photo
    ensures dto.photo.Some? ==> r.photo == dto.photo
  {
    e.(titre := dto.titre, date := dto.date, adresse := dto.adresse, prix := dto.prix,
       heureDebut := dto.heureDebut, heureFin := dto.heureFin,
       description := dto.description, reglement := dto.reglement,
       photo := if dto.photo != None then dto.photo else e.photo)
  }

  /** Editing twice with the same DTO is editing once. */
  lemma EditedIdempotent(e: Event, dto: EventDto)
    ensures Edited(Edited(e, dto), dto) == Edited(e, dto)
  {
  }

  /** userRepository.findByPhoneNumber over the user table keyed by phone number. */
  function FindByPhone(users: map<string, User>, phone: string): (u: Option<User>)
    ensures u.Some? <==> phone in users
    ensures u.Some? ==> u.value == users[phone]
  {
    if phone in users then Some(users[phone]) else None
  }

  /** eventRepository.findById: the position of the event with that id. */
  function IndexOf(es: seq<Event>, id: EventId): (r: Option<nat>)
    ensures r.Some? ==> r.value < |es| && es[r.value].id == id
    ensures r.None? <==> forall i :: 0 <= i < |es| ==> es[i].id != id
  {
    if es == [] then None
    else if es[|es| - 1].id == id then Some(|es| - 1)
    else IndexOf(es[..|es| - 1], id)
  }

  predicate CreatedBy(e: Event, userId: UserId) {
    e.createur.Some? && e.createur.value.id == userId
  }

  /** eventRepository.findByCreateur: the user's events, in table order. */
  function ByCreator(es: seq<Event>, userId: UserId): (r: seq<Event>)
    ensures forall e :: e in r <==> e in es && CreatedBy(e, userId)
    ensures |r| <= |es|
  {
    if es == [] then []
    else
      var rest := ByCreator(es[..|es| - 1], userId);
      assert es == es[..|es| - 1] + [es[|es| - 1]];
      if CreatedBy(es[|es| - 1], userId) then rest + [es[|es| - 1]] else rest
  }

  /** eventRepository.findByDate: the events held on a day, in table order. */
  function OnDate(es: seq<Event>, day: Day): (r: seq<Event>)
    ensures forall e :: e in r <==> e in es && e.date == Some(day)
    ensures |r| <= |es|
  {
    if es == [] then []
    else
      var rest := OnDate(es[..|es| - 1], day);
      assert es == es[..|es| - 1] + [es[|es| - 1]];
      if es[|es| - 1].date == Some(day) then rest + [es[|es| - 1]] else rest
  }

  /** A newly saved event is listed last among its creator's events. */
  lemma ByCreatorAppend(es: seq<Event>, e: Event, userId: UserId)
    ensures ByCreator(es + [e], userId) == ByCreator(es, userId) + (if CreatedBy(e, userId) then [e] else [])
  {
    assert (es + [e])[..|es|] == es;
  }

  /** Removing the event at position i of a table with increasing ids removes
      exactly the events with that id. */
  lemma RemoveAtMembers(es: seq<Event>, i: nat)
    requires i < |es|
    requires forall k, l :: 0 <= k < l < |es| ==> es[k].id < es[l].id
    ensures forall e :: e in es[..i] + es[i + 1..] <==> e in es && e.id != es[i].id
  {
    RemoveAtKeeps(es, i);
    RemoveAtDrops(es, i);
  }

  lemma RemoveAtKeeps(es: seq<Event>, i: nat)
    requires i < |es|
    requires forall k, l :: 0 <= k < l < |es| ==> es[k].id < es[l].id
    ensures forall e :: e in es && e.id != es[i].id ==> e in es[..i] + es[i + 1..]
  {
    var rest := es[..i] + es[i + 1..];
    forall e | e in es && e.id != es[i].id
      ensures e in rest
    {
      var k :| 0 <= k < |es| && es[k] == e;
      if k < i {
        assert rest[k] == e;
      } else {
        assert rest[k - 1] == e;
      }
    }
  }

  lemma RemoveAtDrops(es: seq<Event>, i: nat)
    requires i < |es|
    requires forall k, l :: 0 <= k < l < |es| ==> es[k].id < es[l].id
    ensures forall e :: e in es[..i] + es[i + 1..] ==> e in es && e.id != es[i].id
  {
    var rest := es[..i] + es[i + 1..];
    forall e | e in rest
      ensures e in es && e.id != es[i].id
    {
      var k :| 0 <= k < |rest| && rest[k] == e;
      if k < i {
        assert es[k] == e;
      } else {
        assert es[k + 1] == e;
      }
    }
  }

  /** ... and keeps the ids increasing. */
  lemma RemoveAtIncreasing(es: seq<Event>, i: nat)
    requires i < |es|
    requires forall k, l :: 0 <= k < l < |es| ==> es[k].id < es[l].id
    ensures var rest := es[..i] + es[i + 1..];
      forall k, l :: 0 <= k < l < |rest| ==> rest[k].id < rest[l].id
  {
    var rest := es[..i] + es[i + 1..];
    forall k, l | 0 <= k < l < |rest|
      ensures rest[k].id < rest[l].id
    {
      var k' := if k < i then k else k + 1;
      var l' := if l < i then l else l + 1;
      assert rest[k] == es[k'] && rest[l] == es[l'];
    }
  }

  /** The checks shared by modifierEvent and supprimerEvent, in the source's order:
      the event, then the user, then that the user created the event. On success,
      the event's position. */
  function CheckCreator(es: seq<Event>, id: EventId, phone: string, users: map<string, User>): (r: Result<nat, EventError>)
    ensures r == Err(EventNotFound) <==> forall i :: 0 <= i < |es| ==> es[i].id != id
    ensures r == Err(UserNotFound) <==> IndexOf(es, id).Some? && phone !in users
    ensures r.Ok? <==> IndexOf(es, id).Some? && phone in users && CreatedBy(es[IndexOf(es, id).value], users[phone].id)
    ensures r.Ok? ==> r.value == IndexOf(es, id).value
    ensures r.Err? ==> r.error in {EventNotFound, UserNotFound, NotCreator}
  {
    match IndexOf(es, id)
    case None => Err(EventNotFound)
    case Some(i) =>
      match FindByPhone(users, phone)
      case None => Err(UserNotFound)
      case Some(u) =>
        // A missing creator makes the source throw; in a valid store every event has one.
        if CreatedBy(es[i], u.id) then Ok(i) else Err(NotCreator)
  }

  class EventService {
    /** The event table in insertion order. */
    var events: seq<Event>
    var nextId: EventId

    /** Ids are assigned in increasing order, and every event has a creator. */
    ghost predicate Valid()
      reads this
    {
      && (forall i, j :: 0 <= i < j < |events| ==> events[i].id < events[j].id)
      && (forall i :: 0 <= i < |events| ==> events[i].id < nextId && events[i].createur.Some?)
    }

    constructor ()
      ensures Valid() && events == []
    {
      events := [];
      nextId := 1;
    }

    /** createEvent. */
    method CreateEvent(phone: string, dto: EventDto, users: map<string, User>) returns (r: Result<Event, EventError>)
      requires Valid()
      modifies this
      ensures Valid()
      ensures phone !in users ==> r == Err(UserNotFound)
      ensures phone in users && users[phone].role !in {COACH, GYM} ==> r == Err(RoleNotAllowed)
      ensures r.Err? ==> unchanged(this)
      ensures r.Ok? <==> phone in users && users[phone].role in {COACH, GYM}
      ensures r.Ok? ==>
        && events == old(events) + [r.value] && nextId == old(nextId) + 1
        && r.value.id == old(nextId) && Copies(r.value, dto) && r.value.photo == dto.photo
        && r.value.createur == Some(users[phone]) && IsCreateurAutorise(r.value)
    {
      var createur := FindByPhone(users, phone);
      if createur.None? {
        return Err(UserNotFound);
      }
      if createur.value.role != COACH && createur.value.role != GYM {
        return Err(RoleNotAllowed);
      }
      var e := Event(nextId, dto.titre, dto.date, dto.adresse, dto.prix, dto.heureDebut, dto.heureFin,
                     dto.description, dto.reglement, None, createur);
      if dto.photo.Some? {
        e := e.(photo := dto.photo);
      }
      events := events + [e];
      nextId := nextId + 1;
      r := Ok(e);
    }

    /** getEventsUtilisateur. */
    method GetEventsUtilisateur(phone: string, users: map<string, User>) returns (r: Result<seq<Event>, EventError>)
      ensures phone !in users ==> r == Err(UserNotFound)
      ensures phone in users ==> r == Ok(ByCreator(events, users[phone].id))
    {
      var createur := FindByPhone(users, phone);
      if createur.None? {
        return Err(UserNotFound);
      }
      r := Ok(ByCreator(events, createur.value.id));
    }

    /** modifierEvent. */
    method ModifierEvent(id: EventId, phone: string, dto: EventDto, users: map<string, User>) returns (r: Result<Event, EventError>)
      requires Valid()
      modifies this
      ensures Valid()
      ensures
        match CheckCreator(old(events), id, phone, users)
        case Err(e) => r == Err(e) && unchanged(this)
        case Ok(i) =>
          && events == old(events)[i := Edited(old(events)[i], dto)]
          && nextId == old(nextId) && r == Ok(events[i])
    {
      var found := CheckCreator(events, id, phone, users);
      if found.Err? {
        return Err(found.error);
      }
      var i := found.value;
      var e := events[i];
      e := e.(titre := dto.titre, date := dto.date, adresse := dto.adresse, prix := dto.prix,
              heureDebut := dto.heureDebut, heureFin := dto.heureFin,
              description := dto.description, reglement := dto.reglement);
      if dto.photo.Some? {
        e := e.(photo := dto.photo);
      }
      events := events[i := e];
      r := Ok(e);
    }

    /** supprimerEvent. */
    method SupprimerEvent(id: EventId, phone: string, users: map<string, User>) returns (r: Result<(), EventError>)
      requires Valid()
      modifies this
      ensures Valid()
      ensures
        match CheckCreator(old(events), id, phone, users)
        case Err(e) => r == Err(e) && unchanged(this)
        case Ok(i) =>
          && events == old(events)[..i] + old(events)[i + 1..]
          && nextId == old(nextId) && r == Ok(())
      ensures r.Ok? ==> forall e :: e in events <==> e in old(events) && e.id != id
    {
      var found := CheckCreator(events, id, phone, users);
      if found.Err? {
        return Err(found.error);
      }
      var i := found.value;
      RemoveAtMembers(events, i);
      RemoveAtIncreasing(events, i);
      events := events[..i] + events[i + 1..];
      r := Ok(());
    }
  }
}

=== FILE: java_text.dfy ===
/** The few pieces of java.lang.String behaviour the services rely on:
    trim/isEmpty, case mapping, suffix tests, lastIndexOf, String.valueOf on
    non-negative ints and string concatenation of possibly-null references. */
module JavaText {
  import opened Wrappers

  /** String.trim() strips every code point up to and including U+0020. */
  predicate IsTrimmable(c: char) {
    c <= ' '
  }

  /** `\d` in java.util.regex without UNICODE_CHARACTER_CLASS: ASCII digits only. */
  predicate IsDigit(c: char) {
    '0' <= c <= '9'
  }

  predicate AllDigits(s: string) {
    forall i :: 0 <= i < |s| ==> IsDigit(s[i])
  }

  function TrimStart(s: string): (r: string)
    ensures |r| <= |s| && r == s[|s| - |r|..]
    ensures r == [] || !IsTrimmable(r[0])
    ensures forall i :: 0 <= i < |s| - |r| ==> IsTrimmable(s[i])
  {
    if s == [] || !IsTrimmable(s[0]) then s else TrimStart(s[1..])
  }

  function TrimEnd(s: string): (r: string)
    ensures |r| <= |s| && r == s[..|r|]
    ensures r == [] || !IsTrimmable(r[|r| - 1])
    ensures forall i :: |r| <= i < |s| ==> IsTrimmable(s[i])
  {
    if s == [] || !IsTrimmable(s[|s| - 1]) then s else TrimEnd(s[..|s| - 1])
  }

  /** String.trim(). */
  function Trim(s: string): (r: string)
    ensures |r| <= |s|
    ensures r == [] || (!IsTrimmable(r[0]) && !IsTrimmable(r[|r| - 1]))
  {
    TrimEnd(TrimStart(s))
  }

  /** `trim().isEmpty()` holds exactly when every character is trimmable. */
  lemma TrimEmptyIffAllTrimmable(s: string)
    ensures Trim(s) == [] <==> forall i :: 0 <= i < |s| ==> IsTrimmable(s[i])
  {
    if Trim(s) != [] {
      var r := Trim(s);
      assert !IsTrimmable(r[0]);
    }
  }

  predicate AllTrimmable(s: string) {
    forall i :: 0 <= i < |s| ==> IsTrimmable(s[i])
  }

  /** ContactService.isBlank: null, or nothing left after trim(), which by
      TrimEmptyIffAllTrimmable means every character is trimmable. */
  predicate IsBlank(s: Option<string>) {
    s.None? || AllTrimmable(s.value)
  }

  lemma IsBlankIffTrimEmpty(s: Option<string>)
    ensures IsBlank(s) <==> s.None? || Trim(s.value) == []
  {
    if s.Some? {
      TrimEmptyIffAllTrimmable(s.value);
    }
  }

  /** Character.toUpperCase restricted to what can matter when the result is compared
      with an upper-case ASCII name: ASCII letters, and the two non-ASCII letters whose
      upper case is ASCII (dotless i and long s). Every other character maps to itself,
      which, like its true upper case, is not an ASCII letter. */
  function UpperChar(c: char): char {
    if 'a' <= c <= 'z' then (c as int - 32) as char
    else if c == '\U{0131}' then 'I'
    else if c == '\U{017F}' then 'S'
    else c
  }

  /** Character.toLowerCase, with the same restriction (ASCII letters and the Kelvin sign). */
  function LowerChar(c: char): char {
    if 'A' <= c <= 'Z' then (c as int + 32) as char
    else if c == '\U{212A}' then 'k'
    else c
  }

  function ToUpper(s: string): (r: string)
    ensures |r| == |s| && forall i :: 0 <= i < |s| ==> r[i] == UpperChar(s[i])
  {
    seq(|s|, i requires 0 <= i < |s| => UpperChar(s[i]))
  }

  function ToLower(s: string): (r: string)
    ensures |r| == |s| && forall i :: 0 <= i < |s| ==> r[i] == LowerChar(s[i])
  {
    seq(|s|, i requires 0 <= i < |s| => LowerChar(s[i]))
  }

  lemma ToUpperIdempotent(s: string)
    ensures ToUpper(ToUpper(s)) == ToUpper(s)
  {
  }

  lemma ToLowerIdempotent(s: string)
    ensures ToLower(ToLower(s)) == ToLower(s)
  {
  }

  predicate EndsWith(s: string, suffix: string) {
    |suffix| <= |s| && s[|s| - |suffix|..] == suffix
  }

  predicate Contains(s: string, c: char) {
    exists i :: 0 <= i < |s| && s[i] == c
  }

  /** String.lastIndexOf(c): the last position holding c, or -1. */
  function LastIndexOf(s: string, c: char): (r: int)
    ensures -1 <= r < |s|
    ensures r == -1 <==> !Contains(s, c)
    ensures r >= 0 ==> s[r] == c && forall j :: r < j < |s| ==> s[j] != c
  {
    if s == [] then -1
    else if s[|s| - 1] == c then |s| - 1
    else
      var k := LastIndexOf(s[..|s| - 1], c);
      assert forall j :: 0 <= j < |s| - 1 ==> s[..|s| - 1][j] == s[j];
      k
  }

  /** String.length(): UTF-16 code units, two for a character outside the Basic
      Multilingual Plane. */
  function Utf16Length(s: string): (n: nat)
    ensures |s| <= n <= 2 * |s|
  {
    if s == [] then 0
    else Utf16Length(s[..|s| - 1]) + (if s[|s| - 1] as int > 0xFFFF then 2 else 1)
  }

  /** Inside the Basic Multilingual Plane, length() counts characters. */
  lemma {:induction false} Utf16LengthBmp(s: string)
    requires forall i :: 0 <= i < |s| ==> s[i] as int <= 0xFFFF
    ensures Utf16Length(s) == |s|
  {
    if s != [] {
      var init := s[..|s| - 1];
      assert forall i :: 0 <= i < |init| ==> init[i] == s[i];
      Utf16LengthBmp(init);
    }
  }

  /** String concatenation renders a null reference as "null". */
  function Str(s: Option<string>): string {
    if s.None? then "null" else s.value
  }

  function DigitChar(d: nat): (c: char)
    requires d < 10
    ensures IsDigit(c) && c as int - '0' as int == d
  {
    ('0' as int + d) as char
  }

  /** String.valueOf(int) for a non-negative value. */
  function DecimalString(n: nat): (s: string)
    ensures 1 <= |s| && AllDigits(s)
    ensures (n == 0) == (s == "0") && (s[0] == '0' ==> n == 0)
  {
    if n < 10 then [DigitChar(n)] else DecimalString(n / 10) + [DigitChar(n % 10)]
  }

  /** Integer.parseInt on a non-empty string of ASCII digits. */
  function DecimalValue(s: string): (n: nat)
    requires AllDigits(s)
  {
    if s == [] then 0 else 10 * DecimalValue(s[..|s| - 1]) + (s[|s| - 1] as int - '0' as int)
  }

  lemma {:induction false} DecimalRoundTrip(n: nat)
    ensures DecimalValue(DecimalString(n)) == n
  {
    if n >= 10 {
      var s := DecimalString(n);
      assert s[..|s| - 1] == DecimalString(n / 10);
      DecimalRoundTrip(n / 10);
    }
  }

  /** Powers of ten, used for the length of a decimal string and for BigDecimal scales. */
  function Pow10(k: nat): (p: nat)
    ensures p >= 1
  {
    if k == 0 then 1 else 10 * Pow10(k - 1)
  }

  lemma {:induction false} DecimalStringLength(n: nat, k: nat)
    requires k >= 1 && Pow10(k - 1) <= n < Pow10(k)
    ensures |DecimalString(n)| == k
  {
    if k > 1 {
      DecimalStringLength(n / 10, k - 1);
    } else {
      assert n < 10;
    }
  }
}

=== FILE: notification_service.dfy ===
/** NotificationService: notifications fanned out to every GYMZER user, and their
    read flags. */
module Notifications {
  import opened Wrappers
  import opened Roles
  import opened Users
  import opened Time
  import Events

  type NotificationId = nat

  datatype NotificationType =
    | NOUVELLE_OFFRE | OFFRE_MODIFIEE | NOUVEL_EVENEMENT | EVENEMENT_MODIFIE | EVENEMENT_RAPPEL | SYSTEME

  /** A notifications row; the message text is not modelled. */
  datatype Notification = Notification(
    id: NotificationId,
    titre: string,
    destinataire: UserId,
    dateCreation: Instant,
    lue: bool,
    kind: NotificationType,
    referenceId: Option<int>)

  datatype NotificationError = UserNotFound | NotificationNotFound | NotAddressee

  const OfferTitle: string := "Nouvelle offre disponible"
  const EventTitle: string := "Nouvel événement à venir"
  const ReminderTitle: string := "Rappel: événement demain"

  // ---------------------------------------------------------------------------
  // The user table, in table order

  predicate DistinctIds(users: seq<User>) {
    forall i, j :: 0 <= i < j < |users| ==> users[i].id != users[j].id
  }

  predicate IsGymzer(users: seq<User>, u: UserId) {
    exists i :: 0 <= i < |users| && users[i].id == u && users[i].role == GYMZER
  }

  /** userRepository.findByRole(GYMZER): the ids of the GYMZER users, in table order. */
  function GymzerIds(users: seq<User>): (ids: seq<UserId>)
    ensures forall u :: u in ids <==> IsGymzer(users, u)
  {
    if users == [] then []
    else
      var last := users[|users| - 1];
      var rest := GymzerIds(users[..|users| - 1]);
      assert forall i :: 0 <= i < |users| - 1 ==> users[..|users| - 1][i] == users[i];
      if last.role == GYMZER then rest + [last.id] else rest
  }

  /** With distinct ids, findByRole lists each GYMZER user exactly once, and no
      one else. */
  lemma {:induction false} GymzerIdsOnce(users: seq<User>, u: UserId)
    requires DistinctIds(users)
    ensures multiset(GymzerIds(users))[u] == if IsGymzer(users, u) then 1 else 0
  {
    if users != [] {
      var init := users[..|users| - 1];
      var last := users[|users| - 1];
      assert forall i :: 0 <= i < |init| ==> init[i] == users[i];
      GymzerIdsOnce(init, u);
      if last.id == u {
        assert !IsGymzer(init, u);
      } else {
        assert IsGymzer(users, u) ==> IsGymzer(init, u);
      }
    }
  }

  // ---------------------------------------------------------------------------
  // Specifications of the loops

  /** The notifications one fan-out loop saves, the first taking id `next`. */
  function Fanout(next: nat, recipients: seq<UserId>, titre: string, kind: NotificationType, ref: Option<int>, now: Instant)
    : seq<Notification>
  {
    seq(|recipients|, k requires 0 <= k < |recipients| =>
      Notification(next + k, titre, recipients[k], now, false, kind, ref))
  }

  function Addressees(ns: seq<Notification>): (us: seq<UserId>)
    ensures |us| == |ns| && forall k :: 0 <= k < |ns| ==> us[k] == ns[k].destinataire
  {
    seq(|ns|, k requires 0 <= k < |ns| => ns[k].destinataire)
  }

  /** A fan-out to the GYMZER users addresses exactly one notification to each of
      them and none to anybody else; all are unread and carry the reference. */
  lemma OnePerGymzer(next: nat, users: seq<User>, titre: string, kind: NotificationType, ref: Option<int>, now: Instant, u: UserId)
    requires DistinctIds(users)
    ensures var ns := Fanout(next, GymzerIds(users), titre, kind, ref, now);
      && multiset(Addressees(ns))[u] == (if IsGymzer(users, u) then 1 else 0)
      && forall k :: 0 <= k < |ns| ==> !ns[k].lue && ns[k].kind == kind && ns[k].referenceId == ref
  {
    var ns := Fanout(next, GymzerIds(users), titre, kind, ref, now);
    assert Addressees(ns) == GymzerIds(users);
    GymzerIdsOnce(users, u);
  }

  /** The reminders for a list of events: for each event in turn, one fan-out to
      the clients. */
  function Reminders(next: nat, evs: seq<Events.Event>, clients: seq<UserId>, now: Instant): seq<Notification>
  {
    if evs == [] then []
    else
      var before := Reminders(next, evs[..|evs| - 1], clients, now);
      before + Fanout(next + |before|, clients, ReminderTitle, EVENEMENT_RAPPEL, Some(evs[|evs| - 1].id), now)
  }

  /** One reminder per (event, client) pair. */
  lemma {:induction false} RemindersLength(next: nat, evs: seq<Events.Event>, clients: seq<UserId>, now: Instant)
    ensures |Reminders(next, evs, clients, now)| == |evs| * |clients|
  {
    if evs != [] {
      RemindersLength(next, evs[..|evs| - 1], clients, now);
      assert (|evs| - 1) * |clients| + |clients| == |evs| * |clients|;
    }
  }

  /** compterNotificationsNonLues: the user's unread notifications. */
  function CountUnread(ns: seq<Notification>, u: UserId): (c: nat)
    ensures c <= |ns|
  {
    if ns == [] then 0
    else CountUnread(ns[..|ns| - 1], u) + (if ns[|ns| - 1].destinataire == u && !ns[|ns| - 1].lue then 1 else 0)
  }

  /** The count is zero exactly when every notification of the user is read. */
  lemma {:induction false} CountUnreadZero(ns: seq<Notification>, u: UserId)
    ensures CountUnread(ns, u) == 0 <==> forall k :: 0 <= k < |ns| && ns[k].destinataire == u ==> ns[k].lue
  {
    if ns != [] {
      var init := ns[..|ns| - 1];
      CountUnreadZero(init, u);
      assert forall k :: 0 <= k < |init| ==> init[k] == ns[k];
    }
  }

  /** The notifications after marquerToutesCommeLues(u). */
  function MarkAllRead(ns: seq<Notification>, u: UserId): (ms: seq<Notification>)
    ensures |ms| == |ns|
    ensures forall k :: 0 <= k < |ns| && ns[k].destinataire != u ==> ms[k] == ns[k]
    ensures forall k :: 0 <= k < |ns| && ns[k].destinataire == u ==> ms[k] == ns[k].(lue := true)
  {
    seq(|ns|, k requires 0 <= k < |ns| => if ns[k].destinataire == u then ns[k].(lue := true) else ns[k])
  }

  /** After marking all, the user has nothing unread, and every other user's count
      is what it was. */
  lemma MarkAllReadCounts(ns: seq<Notification>, u: UserId, v: UserId)
    ensures CountUnread(MarkAllRead(ns, u), u) == 0
    ensures v != u ==> CountUnread(MarkAllRead(ns, u), v) == CountUnread(ns, v)
  {
    CountUnreadZero(MarkAllRead(ns, u), u);
    if v != u {
      CountOthersUnchanged(ns, MarkAllRead(ns, u), v);
    }
  }

  lemma {:induction false} CountOthersUnchanged(ns: seq<Notification>, ms: seq<Notification>, v: UserId)
    requires |ms| == |ns|
    requires forall k :: 0 <= k < |ns| && (ns[k].destinataire == v || ms[k].destinataire == v) ==> ms[k] == ns[k]
    ensures CountUnread(ms, v) == CountUnread(ns, v)
  {
    if ns != [] {
      CountOthersUnchanged(ns[..|ns| - 1], ms[..|ms| - 1], v);
    }
  }

  class NotificationService {
    /** The notifications table in insertion order; row k has id k + 1. */
    var notifications: seq<Notification>

    ghost predicate Valid()
      reads this
    {
      forall k :: 0 <= k < |notifications| ==> notifications[k].id == k + 1
    }

    constructor ()
      ensures Valid() && notifications == []
    {
      notifications := [];
    }

    /** The loop shared by the fan-outs: one saved notification per recipient. */
    method SaveForEach(recipients: seq<UserId>, titre: string, kind: NotificationType, ref: Option<int>, now: Instant)
      requires Valid()
      modifies this
      ensures Valid()
      ensures notifications == old(notifications) + Fanout(|old(notifications)| + 1, recipients, titre, kind, ref, now)
    {
      ghost var base := notifications;
      var k := 0;
      while k < |recipients|
        invariant 0 <= k <= |recipients|
        invariant notifications == base + Fanout(|base| + 1, recipients[..k], titre, kind, ref, now)
        invariant Valid()
      {
        var n := Notification(|notifications| + 1, titre, recipients[k], now, false, kind, ref);
        notifications := notifications + [n];
        assert Fanout(|base| + 1, recipients[..k + 1], titre, kind, ref, now)
            == Fanout(|base| + 1, recipients[..k], titre, kind, ref, now) + [n];
        k := k + 1;
      }
      assert recipients[..k] == recipients;
    }

    /** notifierNouvelleOffre. */
    method NotifierNouvelleOffre(offerId: Option<int>, users: seq<User>, now: Instant)
      requires Valid()
      modifies this
      ensures Valid()
      ensures notifications == old(notifications)
        + Fanout(|old(notifications)| + 1, GymzerIds(users), OfferTitle, NOUVELLE_OFFRE, offerId, now)
    {
      SaveForEach(GymzerIds(users), OfferTitle, NOUVELLE_OFFRE, offerId, now);
    }

    /** notifierNouvelEvenement. */
    method NotifierNouvelEvenement(event: Events.Event, users: seq<User>, now: Instant)
      requires Valid()
      modifies this
      ensures Valid()
      ensures notifications == old(notifications)
        + Fanout(|old(notifications)| + 1, GymzerIds(users), EventTitle, NOUVEL_EVENEMENT, Some(event.id), now)
    {
      SaveForEach(GymzerIds(users), EventTitle, NOUVEL_EVENEMENT, Some(event.id), now);
    }

    /** notifierRappelEvenement: `today` is the clock's date. */
    method NotifierRappelEvenement(events: seq<Events.Event>, users: seq<User>, today: Day, now: Instant)
      requires Valid()
      modifies this
      ensures Valid()
      ensures Events.OnDate(events, today + 1) == [] ==> notifications == old(notifications)
      ensures notifications == old(notifications)
        + Reminders(|old(notifications)| + 1, Events.OnDate(events, today + 1), GymzerIds(users), now)
    {
      var demain := Events.OnDate(events, today + 1);
      if |demain| == 0 {
        return;
      }
      var clients := GymzerIds(users);
      ghost var base := notifications;
      var i := 0;
      while i < |demain|
        invariant 0 <= i <= |demain|
        invariant notifications == base + Reminders(|base| + 1, demain[..i], clients, now)
        invariant Valid()
      {
        assert demain[..i + 1][..i] == demain[..i];
        SaveForEach(clients, ReminderTitle, EVENEMENT_RAPPEL, Some(demain[i].id), now);
        i := i + 1;
      }
      assert demain[..i] == demain;
    }

    /** marquerCommeLue. */
    method MarquerCommeLue(notificationId: NotificationId, userId: UserId, users: seq<User>)
      returns (r: Result<(), NotificationError>)
      requires Valid()
      modifies this
      ensures Valid()
      ensures r.Err? ==> unchanged(this)
      ensures FindById(users, userId).None? ==> r == Err(UserNotFound)
      ensures FindById(users, userId).Some? && !(1 <= notificationId <= |old(notifications)|)
        ==> r == Err(NotificationNotFound)
      ensures r.Ok? <==>
        FindById(users, userId).Some? && 1 <= notificationId <= |old(notifications)|
        && old(notifications)[notificationId - 1].destinataire == userId
      ensures r.Ok? ==>
        notifications == old(notifications)[notificationId - 1 := old(notifications)[notificationId - 1].(lue := true)]
    {
      var user := FindById(users, userId);
      if user.None? {
        return Err(UserNotFound);
      }
      if !(1 <= notificationId <= |notifications|) {
        return Err(NotificationNotFound);
      }
      var n := notifications[notificationId - 1];
      if n.destinataire != user.value.id {
        return Err(NotAddressee);
      }
      notifications := notifications[notificationId - 1 := n.(lue := true)];
      r := Ok(());
    }

    /** marquerToutesCommeLues. */
    method MarquerToutesCommeLues(userId: UserId, users: seq<User>) returns (r: Result<(), NotificationError>)
      requires Valid()
      modifies this
      ensures Valid()
      ensures r.Err? <==> FindById(users, userId).None?
      ensures r.Err? ==> r == Err(UserNotFound) && unchanged(this)
      ensures r.Ok? ==> notifications == MarkAllRead(old(notifications), userId)
    {
      var user := FindById(users, userId);
      if user.None? {
        return Err(UserNotFound);
      }
      ghost var base := notifications;
      var k := 0;
      while k < |notifications|
        invariant 0 <= k <= |notifications| == |base|
        invariant forall j :: 0 <= j < k ==> notifications[j] == MarkAllRead(base, userId)[j]
        invariant forall j :: k <= j < |base| ==> notifications[j] == base[j]
        invariant Valid()
      {
        if notifications[k].destinataire == userId && !notifications[k].lue {
          notifications := notifications[k := notifications[k].(lue := true)];
        }
        k := k + 1;
      }
      r := Ok(());
    }

    /** compterNotificationsNonLues. */
    method CompterNotificationsNonLues(userId: UserId, users: seq<User>) returns (r: Result<nat, NotificationError>)
      ensures FindById(users, userId).None? ==> r == Err(UserNotFound)
      ensures FindById(users, userId).Some? ==> r == Ok(CountUnread(notifications, userId))
    {
      var user := FindById(users, userId);
      if user.None? {
        return Err(UserNotFound);
      }
      r := Ok(CountUnread(notifications, userId));
    }
  }
}

=== FILE: otp_service.dfy ===
/** OtpService: an in-memory map from phone number to the last one-time password
    issued for it. */
module Otp {
  import opened JavaText

  /** A value `nextInt(900000)` can return; the generators add 100000 to it. */
  type Draw = d: nat | d < 900000

  /** The shape of every issued code: six ASCII digits, the first one not '0'. */
  predicate IsSixDigitCode(s: string) {
    |s| == 6 && AllDigits(s) && s[0] != '0'
  }

  /** `String.valueOf(100000 + draw)`. */
  function CodeFor(draw: Draw): (code: string)
    ensures IsSixDigitCode(code)
    ensures DecimalValue(code) == 100000 + draw
  {
    assert Pow10(5) == 100000 && Pow10(6) == 1000000;
    DecimalStringLength(100000 + draw, 6);
    DecimalRoundTrip(100000 + draw);
    DecimalString(100000 + draw)
  }

  /** Different draws give different codes, so a fresh code differs from an earlier
      one exactly when the draws differ. */
  lemma CodeForInjective(d1: Draw, d2: Draw)
    ensures CodeFor(d1) == CodeFor(d2) <==> d1 == d2
  {
  }

  /** validateOtp, on the map's value: the stored OTP for the phone equals the given one. */
  predicate Accepts(storage: map<string, string>, phone: string, otp: string) {
    phone in storage && storage[phone] == otp
  }

  class OtpService {
    var otpStorage: map<string, string>

    constructor ()
      ensures otpStorage == map[]
    {
      otpStorage := map[];
    }

    /** generateOtp: one entry per phone, replaced on every call. */
    method GenerateOtp(phone: string, draw: Draw) returns (otp: string)
      modifies this
      ensures otp == CodeFor(draw)
      ensures otpStorage == old(otpStorage)[phone := otp]
    {
      otp := CodeFor(draw);
      otpStorage := otpStorage[phone := otp];
    }

    /** validateOtp; reads the storage and changes nothing. */
    method ValidateOtp(phone: string, otp: string) returns (valid: bool)
      ensures valid == Accepts(otpStorage, phone, otp)
    {
      valid := phone in otpStorage && otp == otpStorage[phone];
    }

    /** clearOtp. */
    method ClearOtp(phone: string)
      modifies this
      ensures otpStorage == old(otpStorage) - {phone}
    {
      otpStorage := otpStorage - {phone};
    }
  }

  /** The storage facts behind the lifecycle, for any storage map: a stored code is
      accepted, a later code for the same phone displaces the earlier one, and a
      cleared phone accepts no code at all. */
  lemma StorageLifecycle(m: map<string, string>, phone: string, d1: Draw, d2: Draw, otp: string)
    ensures Accepts(m[phone := CodeFor(d1)], phone, CodeFor(d1))
    ensures d1 != d2 ==> !Accepts(m[phone := CodeFor(d1)][phone := CodeFor(d2)], phone, CodeFor(d1))
    ensures Accepts(m[phone := CodeFor(d1)][phone := CodeFor(d2)], phone, CodeFor(d2))
    ensures !Accepts(m - {phone}, phone, otp)
  {
    CodeForInjective(d1, d2);
  }

  /** What the three operations promise together: a generated OTP validates, a second
      generation for the same phone invalidates the first, clearing invalidates every
      OTP, and another phone's entry is never touched. */
  method OtpLifecycle(s: OtpService, phone: string, other: string, d1: Draw, d2: Draw)
    returns (firstValid: bool, firstAfterSecond: bool, secondValid: bool, afterClear: bool)
    requires phone != other && d1 != d2
    modifies s
    ensures firstValid && !firstAfterSecond && secondValid && !afterClear
    ensures phone !in s.otpStorage
    ensures other in old(s.otpStorage) <==> other in s.otpStorage
    ensures other in s.otpStorage ==> s.otpStorage[other] == old(s.otpStorage[other])
  {
    var first := s.GenerateOtp(phone, d1);
    firstValid := s.ValidateOtp(phone, first);
    var second := s.GenerateOtp(phone, d2);
    CodeForInjective(d1, d2);
    firstAfterSecond := s.ValidateOtp(phone, first);
    secondValid := s.ValidateOtp(phone, second);
    s.ClearOtp(phone);
    afterClear := s.ValidateOtp(phone, second);
  }
}

=== FILE: payment_service.dfy ===
/** PaymentService: course enrolments paid through a payment intent. The payment
    provider is outside the model; the intent it creates (or its failure) is a
    parameter. */
module Payments {
  import opened Wrappers
  import opened JavaText
  import opened Decimals
  import opened Time
  import opened Users
  import opened Courses

  /** The statuses the service writes. */
  datatype PaymentStatus = PENDING | PROCESSING | COMPLETED | FAILED

  type EnrollmentId = nat

  /** An enrollment row; the user and course are referenced by id. */
  datatype Enrollment = Enrollment(
    id: EnrollmentId,
    userId: UserId,
    courseId: CourseId,
    enrolledAt: Instant,
    paidAmount: Option<Decimal>,
    paymentStatus: Option<PaymentStatus>,
    transactionId: Option<string>,
    isCompleted: bool,
    completionDate: Option<Instant>)

  /** What the provider returns for a created intent. */
  datatype Intent = Intent(id: string, clientSecret: string)

  /** The map returned to the client. */
  datatype IntentReply = IntentReply(clientSecret: string, paymentIntentId: string, amount: int, currency: string)

  datatype PaymentError =
    | AlreadyEnrolled   // IllegalStateException
    | PriceMissing      // NullPointerException on a course without a price
    | ProviderFailure   // StripeException
    | EnrollmentNotFound
    | NonUniqueResult   // two enrollments share the transaction id

  // ---------------------------------------------------------------------------
  // Cents conversion: price.multiply(100).longValue()

  const TwoTo63: int := 0x8000_0000_0000_0000
  const TwoTo64: int := 0x1_0000_0000_0000_0000

  /** Integer division rounding toward zero, as BigDecimal.toBigInteger does. */
  function DivTowardZero(a: int, b: nat): (q: int)
    requires b > 0
    ensures a >= 0 ==> q >= 0 && q * b <= a < (q + 1) * b
    ensures a < 0 ==> q <= 0 && (q - 1) * b < a <= q * b
  {
    if a >= 0 then a / b else -((-a) / b)
  }

  /** BigInteger.longValue: the low 64 bits, read in two's complement. */
  function Wrap64(x: int): (r: int)
    ensures -TwoTo63 <= r < TwoTo63
    ensures (r - x) % TwoTo64 == 0
    ensures -TwoTo63 <= x < TwoTo63 ==> r == x
  {
    (x + TwoTo63) % TwoTo64 - TwoTo63
  }

  /** The amount charged, in cents, for a price. */
  function Cents(price: Decimal): (c: int)
    ensures -TwoTo63 <= c < TwoTo63
  {
    Wrap64(DivTowardZero(price.unscaled * 100, Pow10(price.scale)))
  }

  /** For a non-negative price whose cent amount fits in a long, the amount is the
      price times one hundred with the fraction of a cent dropped. */
  lemma CentsTruncates(price: Decimal)
    requires price.unscaled >= 0
    requires price.unscaled * 100 < TwoTo63 * Pow10(price.scale)
    ensures Cents(price) >= 0
    ensures Cents(price) * Pow10(price.scale) <= price.unscaled * 100 < (Cents(price) + 1) * Pow10(price.scale)
  {
    var a, b := price.unscaled * 100, Pow10(price.scale);
    var q := DivTowardZero(a, b);
    assert q * b <= a;
    if q >= TwoTo63 {
      MulMonotone(q, TwoTo63, b);
      assert false;
    }
    assert Wrap64(q) == q;
  }

  lemma MulMonotone(x: int, y: int, b: nat)
    requires x >= y
    ensures x * b >= y * b
  {
    assert x * b - y * b == (x - y) * b;
  }

  /** A price with at most two decimals is charged exactly. */
  lemma CentsExact(euros: nat, cents: nat)
    requires cents < 100 && euros * 100 + cents < TwoTo63
    ensures Cents(Decimal(euros * 100 + cents, 2)) == euros * 100 + cents
  {
    assert Pow10(2) == 100;
  }

  // ---------------------------------------------------------------------------
  // Repository queries over the enrollments, in insertion order

  /** existsByCourseAndUser. */
  predicate Enrolled(es: seq<Enrollment>, courseId: CourseId, userId: UserId) {
    exists i :: 0 <= i < |es| && es[i].courseId == courseId && es[i].userId == userId
  }

  /** The positions of the enrollments whose transaction id equals `tid` (a null
      parameter matches a null column). */
  function WithTransaction(es: seq<Enrollment>, tid: Option<string>): (ps: seq<nat>)
    ensures forall k :: 0 <= k < |ps| ==> ps[k] < |es| && es[ps[k]].transactionId == tid
    ensures forall i :: 0 <= i < |es| && es[i].transactionId == tid ==> i in ps
    ensures forall k, l :: 0 <= k < l < |ps| ==> ps[k] < ps[l]
  {
    if es == [] then []
    else
      var rest := WithTransaction(es[..|es| - 1], tid);
      if es[|es| - 1].transactionId == tid then rest + [|es| - 1] else rest
  }

  lemma {:induction false} WithTransactionNone(es: seq<Enrollment>, tid: Option<string>)
    requires forall i :: 0 <= i < |es| ==> es[i].transactionId != tid
    ensures WithTransaction(es, tid) == []
  {
    if es != [] {
      WithTransactionNone(es[..|es| - 1], tid);
    }
  }

  /** Position i holds the only enrollment with transaction id `tid`. */
  predicate UniqueMatch(es: seq<Enrollment>, tid: Option<string>, i: int) {
    && 0 <= i < |es| && es[i].transactionId == tid
    && forall j :: 0 <= j < |es| && j != i ==> es[j].transactionId != tid
  }

  /** findByTransactionId: the single matching position, NonUniqueResult when there
      are several. */
  function FindByTransactionId(es: seq<Enrollment>, tid: Option<string>): (r: Result<nat, PaymentError>)
    ensures r.Ok? ==> r.value < |es| && es[r.value].transactionId == tid
    ensures r.Ok? ==> forall i :: 0 <= i < |es| && i != r.value ==> es[i].transactionId != tid
    ensures forall i :: UniqueMatch(es, tid, i) ==> r == Ok(i)
    ensures r == Err(EnrollmentNotFound) <==> forall i :: 0 <= i < |es| ==> es[i].transactionId != tid
    ensures r.Err? ==> r.error in {EnrollmentNotFound, NonUniqueResult}
  {
    var ps := WithTransaction(es, tid);
    if |ps| == 0 then
      Err(EnrollmentNotFound)
    else if |ps| == 1 then
      Ok(ps[0])
    else
      assert ps[0] < |es| && es[ps[0]].transactionId == tid;
      assert ps[1] < |es| && es[ps[1]].transactionId == tid && ps[0] != ps[1];
      Err(NonUniqueResult)
  }

  /** The status written for the status string reported by the provider. */
  function StatusFor(status: Option<string>): (s: PaymentStatus)
    ensures s == COMPLETED <==> status == Some("succeeded")
    ensures s == PROCESSING <==> status == Some("processing")
    ensures s == FAILED <==> status != Some("succeeded") && status != Some("processing")
  {
    if status == Some("succeeded") then COMPLETED
    else if status == Some("processing") then PROCESSING
    else FAILED
  }

  // ---------------------------------------------------------------------------
  // The two operations on values; the service class below follows them

  /** createPaymentIntent: the reply, and the enrollments afterwards. An error rolls
      the transaction back. */
  function CreatePaymentIntent(es: seq<Enrollment>, course: Course, user: User, intent: Option<Intent>, now: Instant)
    : (o: (Result<IntentReply, PaymentError>, seq<Enrollment>))
    ensures Enrolled(es, course.id, user.id) ==> o == (Err(AlreadyEnrolled), es)
    ensures !Enrolled(es, course.id, user.id) && course.price.None? ==> o == (Err(PriceMissing), es)
    ensures !Enrolled(es, course.id, user.id) && course.price.Some? && intent.None? ==> o == (Err(ProviderFailure), es)
    ensures o.0.Ok? <==> !Enrolled(es, course.id, user.id) && course.price.Some? && intent.Some?
    ensures o.0.Ok? ==>
      && o.0.value == IntentReply(intent.value.clientSecret, intent.value.id, Cents(course.price.value), "eur")
      && |o.1| == |es| + 1 && o.1[..|es|] == es
      && var e := o.1[|es|];
         e.courseId == course.id && e.userId == user.id && e.paidAmount == course.price
         && e.paymentStatus == Some(PENDING) && e.transactionId == Some(intent.value.id)
         && !e.isCompleted && e.enrolledAt == now
  {
    if Enrolled(es, course.id, user.id) then (Err(AlreadyEnrolled), es)
    else if course.price.None? then (Err(PriceMissing), es)
    else if intent.None? then (Err(ProviderFailure), es)
    else
      var e := Enrollment(|es| + 1, user.id, course.id, now, course.price, Some(PENDING),
                          Some(intent.value.id), false, None);
      (Ok(IntentReply(intent.value.clientSecret, intent.value.id, Cents(course.price.value), "eur")), es + [e])
  }

  /** confirmPayment: the updated enrollment, and the enrollments afterwards. */
  function ConfirmPayment(es: seq<Enrollment>, tid: Option<string>, status: Option<string>)
    : (o: (Result<Enrollment, PaymentError>, seq<Enrollment>))
    ensures o.0.Err? ==> o.1 == es
    ensures o.0 == Err(EnrollmentNotFound) <==> forall i :: 0 <= i < |es| ==> es[i].transactionId != tid
    ensures o.0.Ok? <==> exists i :: UniqueMatch(es, tid, i)
    ensures forall i :: UniqueMatch(es, tid, i) ==>
      var e := es[i].(paymentStatus := Some(StatusFor(status)));
      o == (Ok(e), es[i := e])
    ensures o.0.Ok? ==>
      exists i :: && 0 <= i < |es| && es[i].transactionId == tid
                  && o.1 == es[i := es[i].(paymentStatus := Some(StatusFor(status)))]
                  && o.0.value == o.1[i]
  {
    match FindByTransactionId(es, tid)
    case Err(e) => (Err(e), es)
    case Ok(i) =>
      assert UniqueMatch(es, tid, i);
      var e := es[i].(paymentStatus := Some(StatusFor(status)));
      (Ok(e), es[i := e])
  }

  /** Once an intent has been created for a course and a user, a second one for
      the same pair is refused. */
  lemma NoSecondEnrollment(es: seq<Enrollment>, course: Course, user: User, i1: Option<Intent>, i2: Option<Intent>, t1: Instant, t2: Instant)
    requires CreatePaymentIntent(es, course, user, i1, t1).0.Ok?
    ensures var es' := CreatePaymentIntent(es, course, user, i1, t1).1;
      CreatePaymentIntent(es', course, user, i2, t2) == (Err(AlreadyEnrolled), es')
  {
    var es' := CreatePaymentIntent(es, course, user, i1, t1).1;
    assert es'[|es|].courseId == course.id && es'[|es|].userId == user.id;
  }

  /** Confirming the intent just created, when its id is new to the store, settles
      the new enrollment and nothing else. */
  lemma ConfirmNewIntent(es: seq<Enrollment>, course: Course, user: User, intent: Intent, now: Instant, status: Option<string>)
    requires CreatePaymentIntent(es, course, user, Some(intent), now).0.Ok?
    requires forall i :: 0 <= i < |es| ==> es[i].transactionId != Some(intent.id)
    ensures var es' := CreatePaymentIntent(es, course, user, Some(intent), now).1;
      var o := ConfirmPayment(es', Some(intent.id), status);
      && o.0.Ok? && o.0.value == es'[|es|].(paymentStatus := Some(StatusFor(status)))
      && o.1 == es'[|es| := o.0.value]
  {
    var es' := CreatePaymentIntent(es, course, user, Some(intent), now).1;
    assert es'[..|es|] == es;
    WithTransactionNone(es, Some(intent.id));
    assert WithTransaction(es', Some(intent.id)) == [|es|];
  }

  /** Confirming twice with the same status is the same as confirming once. */
  lemma ConfirmIdempotent(es: seq<Enrollment>, tid: Option<string>, status: Option<string>)
    ensures var o := ConfirmPayment(es, tid, status);
      ConfirmPayment(o.1, tid, status).1 == o.1
  {
    var o := ConfirmPayment(es, tid, status);
    if o.0.Ok? {
      var i :| 0 <= i < |es| && es[i].transactionId == tid
        && o.1 == es[i := es[i].(paymentStatus := Some(StatusFor(status)))];
      assert forall j :: 0 <= j < |es| ==> o.1[j].transactionId == es[j].transactionId;
      assert FindByTransactionId(o.1, tid) == FindByTransactionId(es, tid) by {
        WithTransactionSameIds(es, o.1, tid);
      }
    }
  }

  lemma {:induction false} WithTransactionSameIds(es: seq<Enrollment>, fs: seq<Enrollment>, tid: Option<string>)
    requires |es| == |fs| && forall j :: 0 <= j < |es| ==> fs[j].transactionId == es[j].transactionId
    ensures WithTransaction(fs, tid) == WithTransaction(es, tid)
  {
    if es != [] {
      WithTransactionSameIds(es[..|es| - 1], fs[..|fs| - 1], tid);
    }
  }

  // ---------------------------------------------------------------------------
  // The service

  class PaymentService {
    /** The enrollment table, in insertion order; row k has id k + 1. */
    var enrollments: seq<Enrollment>

    ghost predicate Valid()
      reads this
    {
      forall k :: 0 <= k < |enrollments| ==> enrollments[k].id == k + 1
    }

    constructor ()
      ensures Valid() && enrollments == []
    {
      enrollments := [];
    }

    method CreatePaymentIntentFor(course: Course, user: User, intent: Option<Intent>, now: Instant)
      returns (result: Result<IntentReply, PaymentError>)
      requires Valid()
      modifies this
      ensures Valid()
      ensures (result, enrollments) == CreatePaymentIntent(old(enrollments), course, user, intent, now)
    {
      if Enrolled(enrollments, course.id, user.id) {
        return Err(AlreadyEnrolled);
      }
      if course.price.None? {
        return Err(PriceMissing);
      }
      var amount := Cents(course.price.value);
      if intent.None? {
        return Err(ProviderFailure);
      }
      var e := Enrollment(|enrollments| + 1, user.id, course.id, now, course.price, Some(PENDING),
                          Some(intent.value.id), false, None);
      enrollments := enrollments + [e];
      result := Ok(IntentReply(intent.value.clientSecret, intent.value.id, amount, "eur"));
    }

    method ConfirmPaymentFor(tid: Option<string>, status: Option<string>)
      returns (result: Result<Enrollment, PaymentError>)
      requires Valid()
      modifies this
      ensures Valid()
      ensures (result, enrollments) == ConfirmPayment(old(enrollments), tid, status)
    {
      var found := FindByTransactionId(enrollments, tid);
      if found.Err? {
        return Err(found.error);
      }
      var i := found.value;
      var e := enrollments[i];
      if status == Some("succeeded") {
        e := e.(paymentStatus := Some(COMPLETED));
      } else if status == Some("processing") {
        e := e.(paymentStatus := Some(PROCESSING));
      } else {
        e := e.(paymentStatus := Some(FAILED));
      }
      enrollments := enrollments[i := e];
      result := Ok(e);
    }
  }
}

=== FILE: phone.dfy ===
/** UserService.formatPhoneNumber: the canonical form under which phone numbers are
    stored and looked up. */
module PhoneNumbers {
  import opened Wrappers
  import opened JavaText

  /** The characters `replaceAll("[^\\d+]", "")` keeps. */
  predicate IsDialChar(c: char) {
    IsDigit(c) || c == '+'
  }

  predicate AllDialChars(s: string) {
    forall i :: 0 <= i < |s| ==> IsDialChar(s[i])
  }

  /** Deletes every character that is neither an ASCII digit nor '+', keeping the
      order of the rest (`KeepDialCharsCounts` and `KeepDialCharsAppend`). */
  function KeepDialChars(s: string): (r: string)
    ensures |r| <= |s|
    ensures AllDialChars(r)
    ensures AllDialChars(s) ==> r == s
  {
    if s == [] then []
    else
      var rest := KeepDialChars(s[1..]);
      assert forall i :: 1 <= i < |s| ==> s[1..][i - 1] == s[i];
      if IsDialChar(s[0]) then [s[0]] + rest else rest
  }

  /** Each dial character is kept as often as it occurs, and every other character goes. */
  lemma {:induction false} KeepDialCharsCounts(s: string)
    ensures forall c :: multiset(KeepDialChars(s))[c] == if IsDialChar(c) then multiset(s)[c] else 0
  {
    if s != [] {
      KeepDialCharsCounts(s[1..]);
      assert s == [s[0]] + s[1..];
    }
  }

  /** The filter works piece by piece, so a single character is kept exactly when it
      is a dial character, and the kept characters of `a` come before those of `b`. */
  lemma {:induction false} KeepDialCharsAppend(a: string, b: string)
    ensures KeepDialChars(a + b) == KeepDialChars(a) + KeepDialChars(b)
    ensures |a| == 1 ==> KeepDialChars(a) == if IsDialChar(a[0]) then a else []
  {
    if a != [] {
      assert (a + b)[0] == a[0] && (a + b)[1..] == a[1..] + b;
      KeepDialCharsAppend(a[1..], b);
    } else {
      assert a + b == b;
    }
  }

  /** One way `\d{1,3}\d{4,14}` can split a digit string: k country digits, then the rest. */
  predicate SplitAt(d: string, k: int) {
    1 <= k <= 3 && 4 <= |d| - k <= 14
  }

  predicate DigitBlocks(d: string) {
    AllDigits(d) && exists k :: 1 <= k <= 3 && SplitAt(d, k)
  }

  /** The regular expression `^\+?\d{1,3}\d{4,14}$`, read literally. */
  predicate MatchesPattern(s: string) {
    DigitBlocks(s) || (|s| >= 1 && s[0] == '+' && DigitBlocks(s[1..]))
  }

  /** The shape of a canonical number: an optional leading '+', then 5 to 17 digits. */
  predicate IsFormattedPhone(s: string) {
    var d := if |s| > 0 && s[0] == '+' then s[1..] else s;
    AllDigits(d) && 5 <= |d| <= 17
  }

  lemma DigitBlocksIsLengthRange(d: string)
    ensures DigitBlocks(d) <==> AllDigits(d) && 5 <= |d| <= 17
  {
    if AllDigits(d) && 5 <= |d| <= 17 {
      var k := if |d| <= 15 then 1 else |d| - 14;
      assert SplitAt(d, k);
    }
  }

  lemma PatternIsFormattedPhone(s: string)
    ensures MatchesPattern(s) <==> IsFormattedPhone(s)
  {
    DigitBlocksIsLengthRange(s);
    if |s| >= 1 {
      DigitBlocksIsLengthRange(s[1..]);
    }
  }

  /** formatPhoneNumber; None stands for IllegalArgumentException("Numéro invalide"),
      thrown both for a null or blank input and for a cleaned string that does not
      match the pattern. */
  function FormatPhoneNumber(input: Option<string>): (r: Option<string>)
    ensures r.Some? <==> !IsBlank(input) && IsFormattedPhone(KeepDialChars(input.value))
    ensures r.Some? ==> IsFormattedPhone(r.value) && r.value == KeepDialChars(input.value)
  {
    if IsBlank(input) then None
    else
      var cleaned := KeepDialChars(input.value);
      PatternIsFormattedPhone(cleaned);
      if MatchesPattern(cleaned) then Some(cleaned) else None
  }

  /** A canonical number contains at most one '+', at position 0. */
  lemma FormattedPhoneShape(s: string)
    requires IsFormattedPhone(s)
    ensures AllDialChars(s) && |s| >= 5
    ensures forall i :: 0 < i < |s| ==> IsDigit(s[i])
  {
    if |s| > 0 && s[0] == '+' {
      assert forall i :: 0 < i < |s| ==> s[i] == s[1..][i - 1];
    }
  }

  /** Formatting a formatted number returns it unchanged. */
  lemma FormatIdempotent(input: Option<string>)
    requires FormatPhoneNumber(input).Some?
    ensures FormatPhoneNumber(Some(FormatPhoneNumber(input).value)) == FormatPhoneNumber(input)
  {
    var p := FormatPhoneNumber(input).value;
    FormattedPhoneShape(p);
    assert IsDigit(p[|p| - 1]);
    assert !IsBlank(Some(p));
    assert KeepDialChars(p) == p;
  }
}

=== FILE: planning_service.dfy ===
/** PlanningService: weekly planning cards that GYM accounts publish, listed by
    day name. */
module Plannings {
  import opened Wrappers
  import opened Roles
  import opened Users

  type PlanningId = nat

  /** The seven text columns of a planning, as the caller supplies them. */
  datatype Details = Details(
    title: Option<string>,
    dayName: Option<string>,
    dayTitle: Option<string>,
    activity1: Option<string>,
    time1: Option<string>,
    activity2: Option<string>,
    time2: Option<string>)

  /** A plannings row: its id, its text columns and the id of its gym. */
  datatype Planning = Planning(id: PlanningId, details: Details, userId: UserId)

  datatype PlanningError = UserNotFound | NotGym | PlanningNotFound

  // ---------------------------------------------------------------------------
  // Ordering by dayName

  /** Lexicographic order of strings by code point. */
  predicate StrLeq(a: string, b: string)
    decreases |a|
  {
    a == [] || (b != [] && (a[0] < b[0] || (a[0] == b[0] && StrLeq(a[1..], b[1..]))))
  }

  lemma {:induction false} StrLeqTotal(a: string, b: string)
    ensures StrLeq(a, b) || StrLeq(b, a)
    decreases |a|
  {
    if a != [] && b != [] && a[0] == b[0] {
      StrLeqTotal(a[1..], b[1..]);
    }
  }

  /** Ascending order on a nullable column: nulls first. */
  predicate DayLeq(a: Option<string>, b: Option<string>) {
    a.None? || (b.Some? && StrLeq(a.value, b.value))
  }

  lemma DayLeqTotal(a: Option<string>, b: Option<string>)
    ensures DayLeq(a, b) || DayLeq(b, a)
  {
    if a.Some? && b.Some? {
      StrLeqTotal(a.value, b.value);
    }
  }

  predicate SortedByDay(ps: seq<Planning>) {
    forall i :: 0 <= i < |ps| - 1 ==> DayLeq(ps[i].details.dayName, ps[i + 1].details.dayName)
  }

  function Insert(p: Planning, ps: seq<Planning>): (r: seq<Planning>)
    requires SortedByDay(ps)
    ensures SortedByDay(r) && multiset(r) == multiset(ps) + multiset{p}
    ensures |r| == |ps| + 1 && (r[0] == p || (ps != [] && r[0] == ps[0]))
  {
    if ps == [] then [p]
    else if DayLeq(p.details.dayName, ps[0].details.dayName) then [p] + ps
    else
      DayLeqTotal(p.details.dayName, ps[0].details.dayName);
      assert ps == [ps[0]] + ps[1..];
      [ps[0]] + Insert(p, ps[1..])
  }

  /** The rows in ascending dayName order. */
  function SortByDayName(ps: seq<Planning>): (r: seq<Planning>)
    ensures SortedByDay(r) && multiset(r) == multiset(ps)
  {
    if ps == [] then []
    else
      assert ps == ps[..|ps| - 1] + [ps[|ps| - 1]];
      Insert(ps[|ps| - 1], SortByDayName(ps[..|ps| - 1]))
  }

  // ---------------------------------------------------------------------------
  // Repository queries

  /** findByUserId: the user's rows, in table order. */
  function OfUser(ps: seq<Planning>, userId: UserId): (r: seq<Planning>)
    ensures forall p :: p in r <==> p in ps && p.userId == userId
  {
    if ps == [] then []
    else
      var init := ps[..|ps| - 1];
      assert ps == init + [ps[|ps| - 1]];
      if ps[|ps| - 1].userId == userId then OfUser(init, userId) + [ps[|ps| - 1]] else OfUser(init, userId)
  }

  /** getPlanningsByUserId (findByUserIdOrderByDayNameAsc): the user's plannings,
      each once, in ascending dayName order. */
  function PlanningsOf(ps: seq<Planning>, userId: UserId): (r: seq<Planning>)
    ensures SortedByDay(r)
    ensures multiset(r) == multiset(OfUser(ps, userId))
    ensures forall p :: p in r <==> p in ps && p.userId == userId
  {
    var r := SortByDayName(OfUser(ps, userId));
    assert forall p :: p in r <==> p in multiset(r);
    r
  }

  /** findById: the position of the row with that id. This is the search of
      `Events.IndexOf`, restated because the planning table has its own row type. */
  function IndexOf(ps: seq<Planning>, id: PlanningId): (r: Option<nat>)
    ensures r.Some? ==> r.value < |ps| && ps[r.value].id == id
    ensures r.None? <==> forall i :: 0 <= i < |ps| ==> ps[i].id != id
  {
    if ps == [] then None
    else if ps[|ps| - 1].id == id then Some(|ps| - 1)
    else IndexOf(ps[..|ps| - 1], id)
  }

  /** The table after deleteById. */
  function Without(ps: seq<Planning>, id: PlanningId): (r: seq<Planning>)
    ensures forall p :: p in r <==> p in ps && p.id != id
    ensures |r| <= |ps|
    ensures (forall i :: 0 <= i < |ps| ==> ps[i].id != id) ==> r == ps
  {
    if ps == [] then []
    else
      var init := ps[..|ps| - 1];
      assert ps == init + [ps[|ps| - 1]];
      if ps[|ps| - 1].id == id then Without(init, id) else Without(init, id) + [ps[|ps| - 1]]
  }

  predicate IncreasingIds(ps: seq<Planning>) {
    forall i, j :: 0 <= i < j < |ps| ==> ps[i].id < ps[j].id
  }

  lemma AppendIncreasing(r: seq<Planning>, last: Planning)
    requires IncreasingIds(r)
    requires forall i :: 0 <= i < |r| ==> r[i].id < last.id
    ensures IncreasingIds(r + [last])
  {
    var r' := r + [last];
    forall i, j | 0 <= i < j < |r'|
      ensures r'[i].id < r'[j].id
    {
      assert r'[i] == r[i];
      if j < |r| {
        assert r'[j] == r[j];
      }
    }
  }

  lemma IncreasingBelowLast(ps: seq<Planning>)
    requires ps != [] && IncreasingIds(ps)
    ensures forall p :: p in ps[..|ps| - 1] ==> p.id < ps[|ps| - 1].id
  {
    forall p | p in ps[..|ps| - 1]
      ensures p.id < ps[|ps| - 1].id
    {
      var k :| 0 <= k < |ps| - 1 && ps[..|ps| - 1][k] == p;
      assert ps[k] == p;
    }
  }

  /** Deleting keeps the ids increasing. */
  lemma {:induction false} WithoutIncreasing(ps: seq<Planning>, id: PlanningId)
    requires IncreasingIds(ps)
    ensures IncreasingIds(Without(ps, id))
  {
    if ps != [] {
      var init := ps[..|ps| - 1];
      var last := ps[|ps| - 1];
      assert IncreasingIds(init);
      WithoutIncreasing(init, id);
      var r := Without(init, id);
      if last.id != id {
        IncreasingBelowLast(ps);
        assert forall i :: 0 <= i < |r| ==> r[i] in r;
        AppendIncreasing(r, last);
      }
    }
  }

  class PlanningService {
    /** The plannings table in insertion order. */
    var plannings: seq<Planning>
    var nextId: PlanningId

    ghost predicate Valid()
      reads this
    {
      && IncreasingIds(plannings)
      && (forall p :: p in plannings ==> p.id < nextId)
    }

    constructor ()
      ensures Valid() && plannings == []
    {
      plannings := [];
      nextId := 1;
    }

    /** createPlanning. */
    method CreatePlanning(details: Details, userId: UserId, users: seq<User>) returns (r: Result<Planning, PlanningError>)
      requires Valid()
      modifies this
      ensures Valid()
      ensures r.Err? ==> unchanged(this)
      ensures FindById(users, userId).None? ==> r == Err(UserNotFound)
      ensures r.Ok? <==> FindById(users, userId).Some? && FindById(users, userId).value.role == GYM
      ensures r.Ok? ==>
        && r.value == Planning(old(nextId), details, userId)
        && plannings == old(plannings) + [r.value] && nextId == old(nextId) + 1
    {
      var user := FindById(users, userId);
      if user.None? {
        return Err(UserNotFound);
      }
      if user.value.role != GYM {
        return Err(NotGym);
      }
      var p := Planning(nextId, details, user.value.id);
      plannings := plannings + [p];
      nextId := nextId + 1;
      r := Ok(p);
    }

    /** updatePlanning. */
    method UpdatePlanning(details: Details, id: PlanningId) returns (r: Result<Planning, PlanningError>)
      requires Valid()
      modifies this
      ensures Valid()
      ensures IndexOf(old(plannings), id).None? ==> r == Err(PlanningNotFound) && unchanged(this)
      ensures IndexOf(old(plannings), id).Some? ==>
        var i := IndexOf(old(plannings), id).value;
        && r == Ok(Planning(id, details, old(plannings)[i].userId))
        && plannings == old(plannings)[i := r.value] && nextId == old(nextId)
    {
      var i := IndexOf(plannings, id);
      if i.None? {
        return Err(PlanningNotFound);
      }
      var p := plannings[i.value].(details := details);
      plannings := plannings[i.value := p];
      r := Ok(p);
    }

    /** deletePlanning. */
    method DeletePlanning(id: PlanningId) returns (r: Result<(), PlanningError>)
      requires Valid()
      modifies this
      ensures Valid()
      ensures IndexOf(old(plannings), id).None? ==> r == Err(PlanningNotFound) && unchanged(this)
      ensures IndexOf(old(plannings), id).Some? ==>
        r == Ok(()) && plannings == Without(old(plannings), id) && nextId == old(nextId)
    {
      var i := IndexOf(plannings, id);
      if i.None? {
        return Err(PlanningNotFound);
      }
      WithoutIncreasing(plannings, id);
      plannings := Without(plannings, id);
      r := Ok(());
    }
  }
}

=== FILE: reel_controller.dfy ===
/** ReelController.determineContentType: the MIME type served for a stored video,
    chosen by the file name's extension. */
module Reels {
  import opened Wrappers
  import opened JavaText

  const OctetStream := "application/octet-stream"

  /** The type for a file name; every name gets one of six fixed types. */
  function DetermineContentType(filename: Option<string>): (t: string)
    ensures t in {"video/mp4", "video/quicktime", "video/x-msvideo", "video/x-ms-wmv", "video/webm", OctetStream}
    ensures filename.None? ==> t == OctetStream
    ensures filename.Some? ==>
      var name := ToLower(filename.value);
      && (t == "video/mp4" <==> EndsWith(name, ".mp4"))
      && (t == "video/quicktime" <==> EndsWith(name, ".mov"))
      && (t == "video/x-msvideo" <==> EndsWith(name, ".avi"))
      && (t == "video/x-ms-wmv" <==> EndsWith(name, ".wmv"))
      && (t == "video/webm" <==> EndsWith(name, ".webm"))
      && (t == OctetStream <==> !EndsWith(name, ".mp4") && !EndsWith(name, ".mov") && !EndsWith(name, ".avi")
                                && !EndsWith(name, ".wmv") && !EndsWith(name, ".webm"))
  {
    if filename.None? then OctetStream
    else
      var name := ToLower(filename.value);
      if EndsWith(name, ".mp4") then "video/mp4"
      else if EndsWith(name, ".mov") then "video/quicktime"
      else if EndsWith(name, ".avi") then "video/x-msvideo"
      else if EndsWith(name, ".wmv") then "video/x-ms-wmv"
      else if EndsWith(name, ".webm") then "video/webm"
      else OctetStream
  }

  /** Names that differ only in letter case get the same type. */
  lemma ContentTypeIgnoresCase(a: string, b: string)
    requires ToLower(a) == ToLower(b)
    ensures DetermineContentType(Some(a)) == DetermineContentType(Some(b))
  {
  }
}

=== FILE: role.dfy ===
/** The closed set of account roles (model/Role.java) and its case-insensitive parser. */
module Roles {
  import opened Wrappers
  import opened JavaText

  /** Declared in the enum's own order. */
  datatype Role = GYMZER | COACH | GYM | ADMIN

  /** Enum.name(). */
  function Name(r: Role): string {
    match r
    case GYMZER => "GYMZER"
    case COACH => "COACH"
    case GYM => "GYM"
    case ADMIN => "ADMIN"
  }

  lemma NameInjective(r1: Role, r2: Role)
    ensures Name(r1) == Name(r2) ==> r1 == r2
  {
  }

  /** Role.fromString: a switch on the upper-cased input; None stands for the
      IllegalArgumentException thrown by the default branch. */
  function FromString(s: string): (r: Option<Role>)
    ensures forall role :: r == Some(role) <==> ToUpper(s) == Name(role)
    ensures r == None <==> forall role :: ToUpper(s) != Name(role)
  {
    match ToUpper(s)
    case "GYMZER" => Some(GYMZER)
    case "ADMIN" => Some(ADMIN)
    case "GYM" => Some(GYM)
    case "COACH" => Some(COACH)
    case _ => None
  }

  /** Any casing of a role's name parses to that role. */
  lemma {:induction false} FromStringIgnoresCase(s: string, role: Role)
    requires |s| == |Name(role)|
    requires forall i :: 0 <= i < |s| ==> UpperChar(s[i]) == Name(role)[i]
    ensures FromString(s) == Some(role)
  {
    assert ToUpper(s) == Name(role);
  }

  /** Parsing depends on the input only through its upper-case form. */
  lemma FromStringOfUpper(s: string)
    ensures FromString(ToUpper(s)) == FromString(s)
  {
    ToUpperIdempotent(s);
  }

  lemma FromStringOfName(role: Role)
    ensures FromString(Name(role)) == Some(role)
  {
    assert ToUpper(Name(role)) == Name(role);
  }

  /** Role.getAllRoles. */
  function AllRoles(): (names: seq<string>)
    ensures |names| == 4
    ensures forall i, j :: 0 <= i < j < |names| ==> names[i] != names[j]
    ensures forall i :: 0 <= i < |names| ==> FromString(names[i]) == Some([GYMZER, ADMIN, GYM, COACH][i])
    ensures forall role :: Name(role) in names
  {
    FromStringOfName(GYMZER);
    FromStringOfName(ADMIN);
    FromStringOfName(GYM);
    FromStringOfName(COACH);
    [Name(GYMZER), Name(ADMIN), Name(GYM), Name(COACH)]
  }
}

=== FILE: time.dfy ===
/** Clock readings, passed in wherever the source asks the clock. */
module Time {
  /** A LocalDateTime, as a count of ticks: only its order is used. */
  type Instant = int

  /** A LocalDate, as a day number. */
  type Day = int

  /** A LocalTime, as seconds since midnight. */
  type TimeOfDay = int
}

=== FILE: user_service.dfy ===
/** UserService: phone-number registration and login by one-time codes stored on
    the user record, and the guarded profile merges. The user table is a map from
    phone number to record (the phoneNumber column is unique); `nextId` is the id
    the database assigns to the next inserted row. */
module Auth {
  import opened Wrappers
  import opened JavaText
  import opened Roles
  import opened Users
  import opened PhoneNumbers
  import opened Otp

  /** The exceptions the service throws, one constructor per distinct cause. */
  datatype AuthError =
    | InvalidPhoneNumber   // formatPhoneNumber: null, blank or badly shaped number
    | InvalidRole          // validateRole
    | AlreadyVerified      // sendVerificationCode on a verified number
    | UserNotFound         // findUserByPhoneNumber
    | NotVerified          // login, token and profile operations on an unverified account
    | InvalidCode          // verifyLoginCode with a code that is not the stored one
    | NotCoach             // updateProfileCoach on a non-COACH account

  /** The claims JwtTokenService signs into a token. */
  datatype Token = Token(userId: UserId, phoneNumber: string, role: Role)

  function TokenFor(u: User): Token {
    Token(u.id, u.phoneNumber, u.role)
  }

  datatype Store = Store(users: map<string, User>, nextId: UserId)

  /** What every operation keeps: each row is filed under its own phone number, has
      an id below the next one to assign, and stores either no code or a code the
      generator can produce. */
  predicate WellFormed(s: Store) {
    forall p :: p in s.users ==>
      && s.users[p].phoneNumber == p
      && s.users[p].id < s.nextId
      && (s.users[p].verificationCode.Some? ==> IsSixDigitCode(s.users[p].verificationCode.value))
  }

  predicate IsVerified(s: Store, p: string) {
    p in s.users && s.users[p].verified
  }

  /** A reply: the value returned or the exception thrown, and the store afterwards
      (the transaction rolls back on an exception). */
  datatype Reply<T> = Reply(result: Result<T, AuthError>, store: Store)

  /** `new User()` as saved by sendVerificationCode before its setters run. */
  function NewUser(id: UserId): User {
    User(id, GYMZER, [], false, None, None, None, None, None, map[])
  }

  /** sendVerificationCode: phone first, then role, then the verified guard. */
  function Register(s: Store, phone: Option<string>, roleName: string, draw: Draw): (o: Reply<string>)
    ensures o.result.Err? ==> o.store == s
    ensures o.result == Err(InvalidPhoneNumber) <==> FormatPhoneNumber(phone).None?
    ensures o.result == Err(InvalidRole) <==> FormatPhoneNumber(phone).Some? && FromString(roleName).None?
    ensures o.result == Err(AlreadyVerified) <==>
      FormatPhoneNumber(phone).Some? && FromString(roleName).Some? && IsVerified(s, FormatPhoneNumber(phone).value)
    ensures o.result.Ok? ==>
      var p := FormatPhoneNumber(phone).value;
      && p in o.store.users
      && o.store.users == s.users[p := o.store.users[p]]
      && o.store.users[p].phoneNumber == p
      && !o.store.users[p].verified
      && o.store.users[p].role == FromString(roleName).value
      && o.store.users[p].verificationCode == Some(o.result.value)
      && IsSixDigitCode(o.result.value) && DecimalValue(o.result.value) == 100000 + draw
      && (p in s.users ==> o.store.users[p].id == s.users[p].id && o.store.nextId == s.nextId
                           && o.store.users[p].firstName == s.users[p].firstName
                           && o.store.users[p].email == s.users[p].email
                           && o.store.users[p].photo == s.users[p].photo)
      && (p !in s.users ==> o.store.users[p].id == s.nextId && o.store.nextId == s.nextId + 1)
    ensures WellFormed(s) ==> WellFormed(o.store)
  {
    match FormatPhoneNumber(phone)
    case None => Reply(Err(InvalidPhoneNumber), s)
    case Some(p) =>
      match FromString(roleName)
      case None => Reply(Err(InvalidRole), s)
      case Some(role) =>
        if IsVerified(s, p) then Reply(Err(AlreadyVerified), s)
        else
          var code := CodeFor(draw);
          Reply(Ok(code), Enrol(s, p, role, code))
  }

  /** The record sendVerificationCode saves: the existing row for the number, or a
      new row with the next id, carrying the number, the role, the code and
      verified = false. */
  function Enrol(s: Store, p: string, role: Role, code: string): (s': Store)
    ensures p in s'.users && s'.users == s.users[p := s'.users[p]]
    ensures s'.users[p] == (if p in s.users then s.users[p] else NewUser(s.nextId))
                            .(phoneNumber := p, verificationCode := Some(code), verified := false, role := role)
    ensures s'.nextId == if p in s.users then s.nextId else s.nextId + 1
    ensures WellFormed(s) && IsSixDigitCode(code) ==> WellFormed(s')
  {
    var base := if p in s.users then s.users[p] else NewUser(s.nextId);
    var u := base.(phoneNumber := p, verificationCode := Some(code), verified := false, role := role);
    Store(s.users[p := u], if p in s.users then s.nextId else s.nextId + 1)
  }

  /** verifyPhoneNumber: a wrong code is reported by a null token, not by an exception. */
  function VerifyPhone(s: Store, phone: Option<string>, code: string): (o: Reply<Option<Token>>)
    ensures o.result.Err? ==> o.store == s
    ensures o.result == Err(InvalidPhoneNumber) <==> FormatPhoneNumber(phone).None?
    ensures o.result == Err(UserNotFound) <==>
      FormatPhoneNumber(phone).Some? && FormatPhoneNumber(phone).value !in s.users
    ensures o.result == Ok(None) ==> o.store == s
    ensures o.result.Ok? ==>
      var p := FormatPhoneNumber(phone).value;
      && p in s.users
      && (o.result.value.Some? <==> s.users[p].verificationCode == Some(code))
      && (o.result.value.Some? ==>
            && o.store == Store(s.users[p := s.users[p].(verified := true, verificationCode := None)], s.nextId)
            && o.result.value.value == TokenFor(o.store.users[p]))
    ensures WellFormed(s) ==> WellFormed(o.store)
  {
    match FormatPhoneNumber(phone)
    case None => Reply(Err(InvalidPhoneNumber), s)
    case Some(p) =>
      if p !in s.users then Reply(Err(UserNotFound), s)
      else if s.users[p].verificationCode != Some(code) then Reply(Ok(None), s)
      else
        var u := s.users[p].(verified := true, verificationCode := None);
        Reply(Ok(Some(TokenFor(u))), Store(s.users[p := u], s.nextId))
  }

  /** sendLoginCode: the number is looked up as given, without formatting. */
  function IssueLoginCode(s: Store, phone: string, draw: Draw): (o: Reply<string>)
    ensures o.result.Err? ==> o.store == s
    ensures o.result == Err(UserNotFound) <==> phone !in s.users
    ensures o.result == Err(NotVerified) <==> phone in s.users && !s.users[phone].verified
    ensures o.result.Ok? ==>
      && IsVerified(s, phone)
      && o.result.value == CodeFor(draw)
      && o.store == Store(s.users[phone := s.users[phone].(verificationCode := Some(o.result.value))], s.nextId)
    ensures WellFormed(s) ==> WellFormed(o.store)
  {
    if phone !in s.users then Reply(Err(UserNotFound), s)
    else if !s.users[phone].verified then Reply(Err(NotVerified), s)
    else
      var code := CodeFor(draw);
      Reply(Ok(code), Store(s.users[phone := s.users[phone].(verificationCode := Some(code))], s.nextId))
  }

  /** verifyLoginCode: a wrong code throws; a right one is consumed and the
      verified flag is left as it was. */
  function RedeemLoginCode(s: Store, phone: string, code: string): (o: Reply<Token>)
    ensures o.result.Err? ==> o.store == s
    ensures o.result == Err(UserNotFound) <==> phone !in s.users
    ensures o.result == Err(InvalidCode) <==> phone in s.users && s.users[phone].verificationCode != Some(code)
    ensures o.result.Ok? ==>
      && phone in s.users && s.users[phone].verificationCode == Some(code)
      && o.store == Store(s.users[phone := s.users[phone].(verificationCode := None)], s.nextId)
      && o.result.value == TokenFor(s.users[phone])
    ensures WellFormed(s) ==> WellFormed(o.store)
  {
    if phone !in s.users then Reply(Err(UserNotFound), s)
    else if s.users[phone].verificationCode != Some(code) then Reply(Err(InvalidCode), s)
    else
      var u := s.users[phone].(verificationCode := None);
      Reply(Ok(TokenFor(u)), Store(s.users[phone := u], s.nextId))
  }

  /** generateTokenAfterVerification: read-only. */
  function TokenAfterVerification(s: Store, phone: string): (r: Result<Token, AuthError>)
    ensures r.Ok? <==> IsVerified(s, phone)
    ensures r == Err(UserNotFound) <==> phone !in s.users
    ensures r.Ok? ==> r.value.userId == s.users[phone].id && r.value.role == s.users[phone].role
  {
    if phone !in s.users then Err(UserNotFound)
    else if !s.users[phone].verified then Err(NotVerified)
    else Ok(TokenFor(s.users[phone]))
  }

  /** ProfileUpdateDto. */
  datatype ProfileUpdate = ProfileUpdate(firstName: Option<string>, email: Option<string>, photo: Option<Bytes>)

  /** UserProfileDto: the columns the profile reply shows. */
  datatype UserProfile = UserProfile(phoneNumber: string, firstName: Option<string>, email: Option<string>, role: Role, photo: Option<Bytes>)

  function ProfileOf(u: User): UserProfile {
    UserProfile(u.phoneNumber, u.firstName, u.email, u.role, u.photo)
  }

  /** A nullable DTO field that overwrites a column only when it is non-null. */
  function Keep<T>(update: Option<T>, current: Option<T>): (r: Option<T>)
    ensures update.Some? ==> r == update
    ensures update.None? ==> r == current
  {
    if update.Some? then update else current
  }

  /** updateProfile: firstName and email only when given; the photo always, so a
      null photo clears it. */
  function MergeProfile(s: Store, phone: string, dto: ProfileUpdate): (o: Reply<UserProfile>)
    ensures o.result.Err? ==> o.store == s
    ensures o.result == Err(UserNotFound) <==> phone !in s.users
    ensures o.result.Ok? <==> IsVerified(s, phone)
    ensures o.result.Ok? ==>
      var old_ := s.users[phone];
      var new_ := old_.(firstName := if dto.firstName.Some? then dto.firstName else old_.firstName,
                         email := if dto.email.Some? then dto.email else old_.email,
                         photo := dto.photo);
      && o.store == Store(s.users[phone := new_], s.nextId)
      && o.result.value == ProfileOf(new_)
    ensures WellFormed(s) ==> WellFormed(o.store)
  {
    if phone !in s.users then Reply(Err(UserNotFound), s)
    else if !s.users[phone].verified then Reply(Err(NotVerified), s)
    else
      var u := s.users[phone];
      var u' := u.(firstName := Keep(dto.firstName, u.firstName), email := Keep(dto.email, u.email), photo := dto.photo);
      Reply(Ok(ProfileOf(u')), Store(s.users[phone := u'], s.nextId))
  }

  /** CoachProfileUpdateDto: `details` holds its non-null free-text fields. */
  datatype CoachProfileUpdate = CoachProfileUpdate(
    firstName: Option<string>, email: Option<string>, photo: Option<Bytes>, details: map<CoachField, string>)

  /** updateProfileCoach: verified, then COACH; every field, the photo included, is
      written only when the DTO carries it. The reply is the saved record. */
  function MergeCoachProfile(s: Store, phone: string, dto: CoachProfileUpdate): (o: Reply<User>)
    ensures o.result.Err? ==> o.store == s
    ensures o.result == Err(UserNotFound) <==> phone !in s.users
    ensures o.result == Err(NotVerified) <==> phone in s.users && !s.users[phone].verified
    ensures o.result.Ok? <==> IsVerified(s, phone) && s.users[phone].role == COACH
    ensures o.result.Ok? ==>
      var old_ := s.users[phone];
      var new_ := o.result.value;
      && o.store == Store(s.users[phone := new_], s.nextId)
      && new_.id == old_.id && new_.phoneNumber == old_.phoneNumber && new_.role == COACH && new_.verified
      && new_.verificationCode == old_.verificationCode && new_.nom == old_.nom
      && new_.firstName == (if dto.firstName.Some? then dto.firstName else old_.firstName)
      && new_.email == (if dto.email.Some? then dto.email else old_.email)
      && new_.photo == (if dto.photo.Some? then dto.photo else old_.photo)
      && (forall f :: f in new_.coachDetails <==> f in old_.coachDetails || f in dto.details)
      && (forall f :: f in dto.details ==> new_.coachDetails[f] == dto.details[f])
      && (forall f :: f in old_.coachDetails && f !in dto.details ==> new_.coachDetails[f] == old_.coachDetails[f])
    ensures WellFormed(s) ==> WellFormed(o.store)
  {
    if phone !in s.users then Reply(Err(UserNotFound), s)
    else if !s.users[phone].verified then Reply(Err(NotVerified), s)
    else if s.users[phone].role != COACH then Reply(Err(NotCoach), s)
    else
      var u := s.users[phone];
      var u' := u.(firstName := Keep(dto.firstName, u.firstName), email := Keep(dto.email, u.email),
                   photo := Keep(dto.photo, u.photo), coachDetails := u.coachDetails + dto.details);
      Reply(Ok(u'), Store(s.users[phone := u'], s.nextId))
  }

  // ---------------------------------------------------------------------------
  // Properties of the code lifecycle

  /** Registering and then presenting the returned code verifies the number, clears
      the code, and yields a token for the requested role. */
  lemma RegisterThenVerify(s: Store, phone: Option<string>, roleName: string, draw: Draw)
    requires Register(s, phone, roleName, draw).result.Ok?
    ensures
      var o := Register(s, phone, roleName, draw);
      var v := VerifyPhone(o.store, phone, o.result.value);
      var p := FormatPhoneNumber(phone).value;
      && v.result.Ok? && v.result.value.Some?
      && v.result.value.value.phoneNumber == p
      && v.result.value.value.role == FromString(roleName).value
      && IsVerified(v.store, p) && v.store.users[p].verificationCode == None
  {
  }

  /** A second registration for the same number replaces the stored code: the
      first code is then rejected without any change, and only the second one works. */
  lemma ReissueInvalidatesEarlierCode(s: Store, phone: Option<string>, roleName: string, d1: Draw, d2: Draw)
    requires d1 != d2
    requires Register(s, phone, roleName, d1).result.Ok?
    ensures
      var o1 := Register(s, phone, roleName, d1);
      var o2 := Register(o1.store, phone, roleName, d2);
      && o2.result.Ok?
      && VerifyPhone(o2.store, phone, o1.result.value) == Reply(Ok(None), o2.store)
      && VerifyPhone(o2.store, phone, o2.result.value).result.Ok?
      && VerifyPhone(o2.store, phone, o2.result.value).result.value.Some?
  {
    CodeForInjective(d1, d2);
  }

  /** Once a number is verified, registering it again fails, whatever the role. */
  lemma NoRegistrationAfterVerification(s: Store, phone: Option<string>, code: string, roleName: string, draw: Draw)
    requires VerifyPhone(s, phone, code).result.Ok? && VerifyPhone(s, phone, code).result.value.Some?
    ensures Register(VerifyPhone(s, phone, code).store, phone, roleName, draw).result.Err?
  {
  }

  /** A login code is redeemable once: it yields the account's token and is cleared,
      so presenting it again fails. */
  lemma LoginCodeRoundTrip(s: Store, phone: string, draw: Draw)
    requires IssueLoginCode(s, phone, draw).result.Ok?
    ensures
      var o := IssueLoginCode(s, phone, draw);
      var r := RedeemLoginCode(o.store, phone, o.result.value);
      && r.result == Ok(TokenFor(s.users[phone]))
      && IsVerified(r.store, phone)
      && RedeemLoginCode(r.store, phone, o.result.value).result == Err(InvalidCode)
  {
  }

  /** A newer login code replaces an older one. */
  lemma LoginReissueInvalidatesEarlierCode(s: Store, phone: string, d1: Draw, d2: Draw)
    requires d1 != d2
    requires IssueLoginCode(s, phone, d1).result.Ok?
    ensures
      var o1 := IssueLoginCode(s, phone, d1);
      var o2 := IssueLoginCode(o1.store, phone, d2);
      RedeemLoginCode(o2.store, phone, o1.result.value) == Reply(Err(InvalidCode), o2.store)
  {
    CodeForInjective(d1, d2);
  }

  // ---------------------------------------------------------------------------
  // Any sequence of requests

  datatype Request =
    | SendVerificationCode(phone: Option<string>, roleName: string, draw: Draw)
    | VerifyPhoneNumber(phone: Option<string>, code: string)
    | SendLoginCode(raw: string, draw: Draw)
    | VerifyLoginCode(raw: string, code: string)
    | UpdateProfile(raw: string, profile: ProfileUpdate)
    | UpdateProfileCoach(raw: string, coach: CoachProfileUpdate)

  function Apply(s: Store, r: Request): Store {
    match r
    case SendVerificationCode(phone, roleName, draw) => Register(s, phone, roleName, draw).store
    case VerifyPhoneNumber(phone, code) => VerifyPhone(s, phone, code).store
    case SendLoginCode(raw, draw) => IssueLoginCode(s, raw, draw).store
    case VerifyLoginCode(raw, code) => RedeemLoginCode(s, raw, code).store
    case UpdateProfile(raw, profile) => MergeProfile(s, raw, profile).store
    case UpdateProfileCoach(raw, coach) => MergeCoachProfile(s, raw, coach).store
  }

  function Run(s: Store, rs: seq<Request>): Store
    decreases |rs|
  {
    if rs == [] then s else Run(Apply(s, rs[0]), rs[1..])
  }

  /** One request never removes a row, never un-verifies a number, and keeps the
      store well formed. */
  lemma ApplyPreserves(s: Store, r: Request)
    ensures forall p :: p in s.users ==> p in Apply(s, r).users
    ensures forall p :: IsVerified(s, p) ==> IsVerified(Apply(s, r), p)
    ensures WellFormed(s) ==> WellFormed(Apply(s, r))
  {
  }

  /** Whatever requests follow, a verified number stays registered and verified,
      and a well-formed store stays well formed. */
  lemma {:induction false} RunPreserves(s: Store, rs: seq<Request>, p: string)
    ensures IsVerified(s, p) ==> IsVerified(Run(s, rs), p)
    ensures WellFormed(s) ==> WellFormed(Run(s, rs))
    decreases |rs|
  {
    if rs != [] {
      ApplyPreserves(s, rs[0]);
      RunPreserves(Apply(s, rs[0]), rs[1..], p);
    }
  }

  // ---------------------------------------------------------------------------
  // The service object

  class UserService {
    var users: map<string, User>
    var nextId: UserId

    ghost function State(): Store
      reads this
    {
      Store(users, nextId)
    }

    ghost predicate Valid()
      reads this
    {
      WellFormed(State())
    }

    constructor ()
      ensures Valid() && users == map[]
    {
      users := map[];
      nextId := 0;
    }

    method SendVerificationCode(phone: Option<string>, roleName: string, draw: Draw) returns (r: Result<string, AuthError>)
      requires Valid()
      modifies this
      ensures Valid()
      ensures Reply(r, State()) == Register(old(State()), phone, roleName, draw)
    {
      var formatted := FormatPhoneNumber(phone);
      if formatted.None? {
        return Err(InvalidPhoneNumber);
      }
      var p := formatted.value;
      var role := FromString(roleName);
      if role.None? {
        return Err(InvalidRole);
      }
      if p in users && users[p].verified {
        return Err(AlreadyVerified);
      }
      ghost var before := State();
      var code := CodeFor(draw);
      var user: User;
      if p in users {
        user := users[p];
      } else {
        user := NewUser(nextId);
        nextId := nextId + 1;
      }
      user := user.(phoneNumber := p);
      user := user.(verificationCode := Some(code));
      user := user.(verified := false);
      user := user.(role := role.value);
      users := users[p := user];
      r := Ok(code);
      assert State() == Enrol(before, p, role.value, code);
    }

    method VerifyPhoneNumber(phone: Option<string>, code: string) returns (r: Result<Option<Token>, AuthError>)
      requires Valid()
      modifies this
      ensures Valid()
      ensures Reply(r, State()) == VerifyPhone(old(State()), phone, code)
    {
      var formatted := FormatPhoneNumber(phone);
      if formatted.None? {
        return Err(InvalidPhoneNumber);
      }
      var p := formatted.value;
      if p !in users {
        return Err(UserNotFound);
      }
      var user := users[p];
      if user.verificationCode != Some(code) {
        return Ok(None);
      }
      user := user.(verified := true);
      user := user.(verificationCode := None);
      users := users[p := user];
      r := Ok(Some(TokenFor(user)));
    }

    method SendLoginCode(phone: string, draw: Draw) returns (r: Result<string, AuthError>)
      requires Valid()
      modifies this
      ensures Valid()
      ensures Reply(r, State()) == IssueLoginCode(old(State()), phone, draw)
    {
      if phone !in users {
        return Err(UserNotFound);
      }
      var user := users[phone];
      if !user.verified {
        return Err(NotVerified);
      }
      var code := CodeFor(draw);
      user := user.(verificationCode := Some(code));
      users := users[phone := user];
      r := Ok(code);
    }

    method VerifyLoginCode(phone: string, code: string) returns (r: Result<Token, AuthError>)
      requires Valid()
      modifies this
      ensures Valid()
      ensures Reply(r, State()) == RedeemLoginCode(old(State()), phone, code)
    {
      if phone !in users {
        return Err(UserNotFound);
      }
      var user := users[phone];
      if user.verificationCode != Some(code) {
        return Err(InvalidCode);
      }
      user := user.(verificationCode := None);
      users := users[phone := user];
      r := Ok(TokenFor(user));
    }

    method GenerateTokenAfterVerification(phone: string) returns (r: Result<Token, AuthError>)
      ensures r == TokenAfterVerification(State(), phone)
    {
      if phone !in users {
        return Err(UserNotFound);
      }
      var user := users[phone];
      if !user.verified {
        return Err(NotVerified);
      }
      r := Ok(TokenFor(user));
    }

    method UpdateProfile(phone: string, dto: ProfileUpdate) returns (r: Result<UserProfile, AuthError>)
      requires Valid()
      modifies this
      ensures Valid()
      ensures Reply(r, State()) == MergeProfile(old(State()), phone, dto)
    {
      if phone !in users {
        return Err(UserNotFound);
      }
      var user := users[phone];
      if !user.verified {
        return Err(NotVerified);
      }
      if dto.firstName.Some? {
        user := user.(firstName := dto.firstName);
      }
      if dto.email.Some? {
        user := user.(email := dto.email);
      }
      if dto.photo.Some? {
        user := user.(photo := dto.photo);
      } else {
        user := user.(photo := None);
      }
      users := users[phone := user];
      r := Ok(ProfileOf(user));
    }

    method UpdateProfileCoach(phone: string, dto: CoachProfileUpdate) returns (r: Result<User, AuthError>)
      requires Valid()
      modifies this
      ensures Valid()
      ensures Reply(r, State()) == MergeCoachProfile(old(State()), phone, dto)
    {
      if phone !in users {
        return Err(UserNotFound);
      }
      var user := users[phone];
      if !user.verified {
        return Err(NotVerified);
      }
      if user.role != COACH {
        return Err(NotCoach);
      }
      if dto.firstName.Some? {
        user := user.(firstName := dto.firstName);
      }
      if dto.photo.Some? {
        user := user.(photo := dto.photo);
      }
      user := user.(coachDetails := user.coachDetails + dto.details);
      if dto.email.Some? {
        user := user.(email := dto.email);
      }
      users := users[phone := user];
      r := Ok(user);
    }
  }
}

=== FILE: users.dfy ===
/** The persisted user record (model/User.java), reduced to the columns the modelled
    services read or write. */
module Users {
  import opened Wrappers
  import opened Roles

  newtype Byte = b: int | 0 <= b < 256

  /** A byte[] column (photos). */
  type Bytes = seq<Byte>

  type UserId = nat

  /** The free-text coach profile columns besides firstName, email and photo. */
  datatype CoachField =
    | Bio | Fb | Insta | Tiktok | Poste | DureeExperience | ExperiencesProfessionnelles
    | Certifications | CompetencesGenerales | EntrainementPhysique | Disciplines
    | SanteEtBienEtre | CoursSpecifiques | NiveauCours | DureeSeance | PrixSeance | TypeCoaching

  /** A user row. `coachDetails` holds the non-null coach profile columns; a field
      absent from the map is a null column. */
  datatype User = User(
    id: UserId,
    role: Role,
    phoneNumber: string,
    verified: bool,
    verificationCode: Option<string>,
    firstName: Option<string>,
    nom: Option<string>,
    email: Option<string>,
    photo: Option<Bytes>,
    coachDetails: map<CoachField, string>)

  /** userRepository.findById over the user table, in table order. */
  function FindById(users: seq<User>, id: UserId): (r: Option<User>)
    ensures r.Some? ==> r.value in users && r.value.id == id
    ensures r.None? <==> forall i :: 0 <= i < |users| ==> users[i].id != id
  {
    if users == [] then None
    else if users[0].id == id then Some(users[0])
    else FindById(users[1..], id)
  }
}

=== FILE: wrappers.dfy ===
/** The optional-value and outcome types shared by every module: a Java reference that may be
    null becomes an `Option`, a call that may throw becomes a `Result`. */
module Wrappers {

  datatype Option<+T> = None | Some(value: T)

  datatype Result<+T, +E> = Ok(value: T) | Err(error: E)
}
